=== FILE: README.md ===
# boracle core, modelled in Dafny

boracle is a student portal for BRAC University. Students use it to build class
routines, post course-section swaps, and review faculty and course material.
This project models the logic at its core as pure Dafny functions, a few methods
with loops, and lemmas about them:

- **Routine grid** (`RoutineGrid`, `ClockTime`). The weekly grid has seven fixed
  time slots by seven days. `timeToMinutes` and `formatTime` convert between
  12-hour labels and catalog times. A section sits in a cell when one of its
  meetings starts inside the slot, and a cell holding two or more sections is a
  conflict. Blocks are shaded as conflict, lab or class.
- **Course pickers** (`CourseCatalog`, `SelectionList`, `MultiCourseSelector`,
  `SwapFilter`). These cover the "CODE-[SECTION]" label, the search (ignoring
  case, at most 50 results), lookup of a section by id, and add/remove toggling
  of a selection. The swap filter only offers sections that some swap mentions.
- **Swap card** (`SwapRecord`, `SwapCard`). This covers the relative creation
  date, ownership by strict email equality, the owner-only actions, and the
  labels shown for the offered and asked-for sections.
- **Faculty CSV import** (`FacultyImport`). This covers the naive CSV parser,
  the route's 401/403/400 checks, and the upsert loop that counts imports and
  collects "Row n" failures.
- **Postgres helper** (`PgSql`). This covers the memoised pool, the tagged
  template that becomes `$1..$n` placeholders, the plain `(text, params)` call,
  and the BEGIN/COMMIT/ROLLBACK/release protocol of `tx`.
- **Mongoose schemas** (`Schemas`). This covers validation of swaps, users,
  resources and saved routines, the BRACU e-mail and course-code patterns, the
  resource-link pattern, defaults, and the unique-email store check.
- **Seed script** (`SeedData`). This covers the generated e-mails, semesters and
  course codes, the review and material cycles, moderation logs, vote targets,
  and the choice of distinct voters.

JavaScript behaviour is written out where it matters:

- `split`, `trim` (the ECMAScript white-space set), `toLowerCase` and `toUpperCase`
  on ASCII, `Number`, `parseInt`, and `%`, which truncates toward zero.
- Truthiness of absent, `null` and empty values.
- Strict equality of `undefined`.

Randomness, the clock, the database and the session are parameters.

## Model

| member | source | states |
|---|---|---|
| ClockTime.ParseClockLabel | src/components/routine/RoutineTableGrid.jsx:29-36 | a "hh:mm P" label with digit fields reads as the 12-hour clock value of its hour, minutes and period |
| ClockTime.ShownTimeReadsBack | src/components/routine/RoutineTableGrid.jsx:39-46 | the label shown for hour h (0..23) and minutes mm reads back as minute 60h+mm, across the midnight and noon cases |
| ClockTime.FormatThenParse | src/components/routine/RoutineTableGrid.jsx:29-46 | round trip: a 24-hour "HH:MM" formatted by formatTime and read by timeToMinutes gives 60*HH+MM |
| ClockTime.FormatThenParseClock | src/components/routine/RoutineTableGrid.jsx:29-46 | the same round trip for every valid zero-padded time 00:00..23:59 |
| RoutineGrid.SlotBounds | src/components/routine/RoutineTableGrid.jsx:16-24 | each slot label splits on '-' into two ends that read as [480,560), [570,650), ..., [1020,1100) |
| RoutineGrid.SlotsOrdered | src/components/routine/RoutineTableGrid.jsx:16-24 | every slot range is non-empty and closes ten minutes before the next opens |
| RoutineGrid.SlotsIncreasing | src/components/routine/RoutineTableGrid.jsx:16-24 | a later slot opens after every earlier one closes |
| RoutineGrid.AnyMeetsInIff | src/components/routine/RoutineTableGrid.jsx:56-61 | `some` over the meetings holds exactly when one meeting is on the day and starts inside the range |
| RoutineGrid.CoursesForSlot | src/components/routine/RoutineTableGrid.jsx:49-73 | the cell holds selected sections in selection order, never more copies of one than selected |
| RoutineGrid.CoursesForSlotMembers | src/components/routine/RoutineTableGrid.jsx:49-73 | a section is in the cell iff it is selected and one of its class or lab meetings falls in the slot |
| RoutineGrid.InSlotIff | src/components/routine/RoutineTableGrid.jsx:54-72 | a section occupies [lo,hi) of a day iff some class or lab meeting is on that day and starts in [lo,hi) |
| RoutineGrid.CellMembers | src/components/routine/RoutineTableGrid.jsx:97-103 | for the cell of day d and slot i: membership iff selected and a meeting starts in that slot's numeric range |
| RoutineGrid.CellDistinct | src/components/routine/RoutineTableGrid.jsx:54-72 | a duplicate-free selection gives duplicate-free cells |
| RoutineGrid.OneSlotPerMeeting | src/components/routine/RoutineTableGrid.jsx:60 | a meeting lands in at most one slot of its day |
| RoutineGrid.StartOfDigits | src/components/routine/RoutineTableGrid.jsx:58 | a catalog start "HH:MM" is read as minute 60*HH+MM |
| RoutineGrid.GapStartsNowhere | src/components/routine/RoutineTableGrid.jsx:60 | a meeting starting in a gap between slots (09:25) is shown in no slot |
| RoutineGrid.EndTimeIgnored | src/components/routine/RoutineTableGrid.jsx:59-60 | end times are never consulted: sections differing only in end times occupy the same cells |
| RoutineGrid.HasConflict | src/components/routine/RoutineTableGrid.jsx:76-79 | a selection of at most one section never conflicts |
| RoutineGrid.ConflictIff | src/components/routine/RoutineTableGrid.jsx:76-79 | a cell conflicts iff two different positions of the selection both occupy it |
| RoutineGrid.IsLab | src/components/routine/RoutineTableGrid.jsx:111-115 | a block is shaded as a lab iff one of the section's lab meetings is on the column's day and starts inside the slot; such a section occupies the cell |
| RoutineGrid.ShadeExplained | src/components/routine/RoutineTableGrid.jsx:120-126 | red exactly for a conflict; otherwise a class shade owes to a class meeting and a lab shade to a lab meeting in the cell |
| CourseCatalog.FormatCourse | src/components/course-swap/SwapFilter.jsx:15-17 | the label starts with the code, ends in ']', and is three characters longer than code and section together; an absent field shows as "undefined" and a null one as "null" |
| CourseCatalog.FormatThenParseLabel | src/components/course-swap/SwapFilter.jsx:15-17 | round trip: a label whose code has no '-' reads back as its code and section name |
| CourseCatalog.LabelInjective | src/components/course-swap/MultiCourseSelector.jsx:13-15 | two sections with '-'-free codes share a label only if they share code and section name |
| CourseCatalog.LookupsAgree | src/components/course-swap/MultiCourseSelector.jsx:37-39 | the string-key lookup and the parseInt lookup both find the first section with id n, given n written out |
| CourseCatalog.ParsedIdIgnoresSuffix | src/components/course-swap/SwapFilter.jsx:62-64 | parseInt stops at a non-digit, so "12abc" resolves to section 12 |
| CourseCatalog.SectionLabelOfId | src/components/course-swap/SwapCard.jsx:83 | a known id shows the label of its first section, an unknown one "Section <id>" |
| CourseCatalog.IdLabel | src/components/course-swap/SwapCard.jsx:106-113 | an asked-for id shows as its section's label when the catalog has it, "Section <id>" otherwise |
| CourseCatalog.MatchesByLabel | src/components/course-swap/SwapFilter.jsx:40-44 | the three search clauses together are equivalent to the label clause alone |
| CourseCatalog.NullCodeFound | src/components/course-swap/MultiCourseSelector.jsx:22-26 | a section whose code is null is found by the term "null" through its label |
| CourseCatalog.Matching | src/components/course-swap/MultiCourseSelector.jsx:22-26 | a subsequence of the catalog holding every copy of each section that satisfies the search and nothing else; by Base.FilterUnique that is exactly the matches in catalog order |
| CourseCatalog.SearchCourses | src/components/course-swap/MultiCourseSelector.jsx:17-27 | at most 50 results in catalog order; an empty term gives the first 50 sections, otherwise the first 50 matches of the lower-cased term |
| CourseCatalog.SearchComplete | src/components/course-swap/MultiCourseSelector.jsx:22-26 | with at most 50 matches, every matching section is shown |
| CourseCatalog.SearchIgnoresCase | src/components/course-swap/MultiCourseSelector.jsx:21 | terms with the same lower-case form give the same results |
| SelectionList.Toggle | src/components/course-swap/MultiCourseSelector.jsx:29-35 | the id flips membership; every other id keeps its count; removal keeps the order, addition appends at the end |
| SelectionList.ToggleTwice | src/components/course-swap/MultiCourseSelector.jsx:29-35 | toggling an absent id twice restores the selection |
| SelectionList.ToggleDistinct | src/components/course-swap/MultiCourseSelector.jsx:29-35 | toggling keeps a duplicate-free selection duplicate-free |
| MultiCourseSelector.SelectorFilter | src/components/course-swap/MultiCourseSelector.jsx:18 | an empty catalog gives no results |
| MultiCourseSelector.SelectorFilterIsSearch | src/components/course-swap/MultiCourseSelector.jsx:17-27 | the early return for an empty catalog agrees with the search itself |
| SwapFilter.ReferencedIds | src/components/course-swap/SwapFilter.jsx:21-27 | an id is collected iff some swap offers it through a truthy getsectionid or asks for it |
| SwapFilter.AvailableCourses | src/components/course-swap/SwapFilter.jsx:29-31 | a subsequence of the catalog holding every copy of each section some swap mentions and nothing else, so exactly those sections in catalog order |
| SwapFilter.AvailableIff | src/components/course-swap/SwapFilter.jsx:20-32 | a section is available iff it is in the catalog and some swap mentions it |
| SwapFilter.FilterCourses | src/components/course-swap/SwapFilter.jsx:36-45 | at most 50 results, all mentioned by a swap, in catalog order; the first 50 available ones for an empty term, otherwise the first 50 available matches in catalog order |
| SwapFilter.ToggleCourse | src/components/course-swap/SwapFilter.jsx:47-54 | the toggled id flips, other ids keep membership, the search is kept, and the new selection is what is reported |
| SwapFilter.ToggleCourseTwice | src/components/course-swap/SwapFilter.jsx:47-54 | toggling a section on and off restores the state and reports the original selection |
| SwapFilter.ClearFilters | src/components/course-swap/SwapFilter.jsx:56-60 | clearing empties the selection and the search and reports [] |
| SwapFilter.ClearedFilterShowsFirst | src/components/course-swap/SwapFilter.jsx:37 | after clearing, the first 50 available sections are shown |
| SwapCard.CreatedMs | src/components/course-swap/SwapCard.jsx:25 | a valid date needs a truthy timestamp that parseInt reads, is 1000 times it, and lies within a Date's range |
| SwapCard.Bucket | src/components/course-swap/SwapCard.jsx:28-33 | the label chosen for a distance is the one whose day interval contains it |
| SwapCard.FormatDate | src/components/course-swap/SwapCard.jsx:23-34 | "Unknown date" iff the timestamp is falsy; an unreadable timestamp is an invalid absolute date; otherwise the label whose interval holds the distance |
| SwapCard.DescribesUnique | src/components/course-swap/SwapCard.jsx:28-32 | at most one label describes a distance |
| SwapCard.DateSymmetric | src/components/course-swap/SwapCard.jsx:27 | a time as far in the future as another is in the past gets the same label |
| SwapCard.TodayIff | src/components/course-swap/SwapCard.jsx:27-30 | "Today" iff the creation time is less than a day away in either direction |
| SwapCard.RelativeTextInjective | src/components/course-swap/SwapCard.jsx:30-32 | different relative labels never show the same text |
| SwapCard.ParseNoDigits | src/components/course-swap/SwapCard.jsx:20 | parseInt of a text that starts with no sign, digit or blank, such as "null", finds no section |
| SwapCard.SignedOutOwnership | src/components/course-swap/SwapCard.jsx:37 | signed out, the viewer owns exactly the swaps whose uemail is absent, and never one whose uemail is null |
| SwapCard.Actions | src/components/course-swap/SwapCard.jsx:143-164 | Delete iff owner; Complete iff owner and the swap is not done |
| SwapCard.ActionsNeedOwner | src/components/course-swap/SwapCard.jsx:143-164 | nobody but the owner gets a button, and a completed swap cannot be completed again |
| SwapCard.ViewCard | src/components/course-swap/SwapCard.jsx:36-138 | status, owner badge, offered label, one label per asked-for section or "any section", author or "Unknown user", date and actions, each as the swap determines |
| FacultyImport.Lines | src/app/api/faculty/import/route.js:7 | a subsequence of the split text holding every copy of each non-blank line and no blank one, so exactly the non-blank lines in order |
| Base.FilterUnique | src/app/api/faculty/import/route.js:7 | an order-keeping subsequence with the filter's element counts is the filter itself, so the contracts above determine their results |
| FacultyImport.Cells | src/app/api/faculty/import/route.js:14 | one more field than commas; field i is the i-th comma-separated piece of the line, trimmed, so every field is comma-free and trimmed |
| FacultyImport.RowOf | src/app/api/faculty/import/route.js:15-18 | each header name maps to the field at the last column bearing that name, and there are no other keys |
| FacultyImport.ReadRows | src/app/api/faculty/import/route.js:13-20 | one row per data line, each read against the header line |
| FacultyImport.ParseLines | src/app/api/faculty/import/route.js:8-22 | fewer than two lines give no rows; otherwise one row per line after the header |
| FacultyImport.ParseCsv | src/app/api/faculty/import/route.js:6-23 | parseCSV over the non-blank lines: header from the first line, one row per later line |
| FacultyImport.BlankLineIgnored | src/app/api/faculty/import/route.js:7 | a whitespace-only line anywhere changes no row |
| FacultyImport.TrailingNewlineIgnored | src/app/api/faculty/import/route.js:7 | a trailing newline adds no row |
| FacultyImport.AttemptedMembers | src/app/api/faculty/import/route.js:69 | a row is upserted iff it is present and has a name or an email |
| FacultyImport.Positions | src/app/api/faculty/import/route.js:65-85 | the positions with a given outcome are listed increasingly, each has that outcome, and none is missing |
| FacultyImport.FailuresReported | src/app/api/faculty/import/route.js:65-84 | the row-by-row failure list reports each failing non-blank row, in order, as its 1-based number and message |
| FacultyImport.UpsertsWritten | src/app/api/faculty/import/route.js:65-81 | the row-by-row upsert list holds the document of each succeeding non-blank row, in order |
| FacultyImport.ImportSummary | src/app/api/faculty/import/route.js:65-85 | imports plus failures count the non-blank rows, and with no failure every non-blank row is upserted and nothing is reported |
| FacultyImport.ImportRows | src/app/api/faculty/import/route.js:62-85 | the errors are exactly the failing non-blank rows in order, as (row + 1, message); the upserts are exactly the succeeding non-blank rows in order; imports plus failures equal the non-blank rows |
| FacultyImport.Post | src/app/api/faculty/import/route.js:25-96 | 401 iff not signed in, 403 iff signed in but not admin, 400 iff an admin sends no file, no rows or a first row lacking name or email; otherwise the summary, whose errors list (omitted when empty) and upserts are those of the import loop |
| FacultyImport.BlankFirstRowRefused | src/app/api/faculty/import/route.js:56-59 | the column check reads values, so a file whose first data row is blank is refused though its header has both columns |
| FacultyImport.ColumnsInEveryRow | src/app/api/faculty/import/route.js:16-18 | once the first row passes the column check, every row has both columns |
| PgSql.GetPool | src/lib/pgdb.js:18-25 | development uses and fills only the global slot, production only the module slot; a filled slot is returned unchanged, and an empty one is filled with the newly created pool, which is returned |
| PgSql.GetPoolMemoised | src/lib/pgdb.js:18-25 | a second call returns the same pool and leaves both slots unchanged |
| PgSql.TemplateValues | src/lib/pgdb.js:38 | an array first argument is the value list, otherwise the arguments are |
| PgSql.PiecesLits | src/lib/pgdb.js:41-45 | the template strings appear in the text in order, each once |
| PgSql.PiecesParams | src/lib/pgdb.js:41-45 | the placeholders are $1, $2, ... up to the smaller of the strings and values seen |
| PgSql.PiecesStripped | src/lib/pgdb.js:41-45 | dropping the placeholders leaves the concatenated strings |
| PgSql.DollarsArePlaceholders | src/lib/pgdb.js:44 | with '$'-free strings, the text holds exactly as many '$' as placeholders |
| PgSql.TemplateText | src/lib/pgdb.js:41-45 | the loop builds the strings interleaved with $1..$n |
| PgSql.Sql | src/lib/pgdb.js:32-56 | a tagged call sends the built text with its values; a plain call sends its text with its params or [] |
| PgSql.TaggedQuery | src/lib/pgdb.js:36-48 | a template call sends its arguments as $1..$n in order between its strings, one '$' per value when the strings have none |
| PgSql.Tx | src/lib/pgdb.js:59-76 | BEGIN first and release exactly once at the end; after a successful BEGIN the callback's queries follow in order; the result is the body's iff BEGIN, body and COMMIT succeed; a failure ends in ROLLBACK and rethrows the failed BEGIN's, body's or COMMIT's error unless ROLLBACK itself fails |
| PgSql.TxEndsOnce | src/lib/pgdb.js:62-75 | ROLLBACK is sent iff the transaction fails; success sent COMMIT; both only when COMMIT itself failed |
| Schemas.EmailShape | src/models/userInfo.js:11-14 | a matching e-mail is a valid local part, one '@', and bracu.ac.bd or g.bracu.ac.bd |
| Schemas.EmailAccepted | src/models/userInfo.js:11-14 | every valid local part at either BRACU domain matches |
| Schemas.NormalizeEmailShape | src/models/userInfo.js:9-10 | the setters leave a trimmed text without upper-case letters, and applying them twice changes nothing |
| Schemas.EmailPath | src/models/userInfo.js:4-15 | a value is stored iff it was given and its trimmed, lower-cased form matches the pattern; what is stored is that form |
| Schemas.EmptyEmailRejected | src/models/userInfo.js:7 | the empty e-mail does not match |
| Schemas.ShoutedDomainRefused | src/models/resources.js:29 | without setters, a submitter e-mail with an upper-case domain is refused |
| Schemas.ShoutedDomainNormalised | src/models/userInfo.js:9-14 | with setters, a user e-mail with an upper-case domain is stored lower-cased |
| Schemas.EmailPathIdempotent | src/models/userInfo.js:4-15 | saving a stored e-mail again stores the same text |
| Schemas.ValidateSwap | src/models/swap.js:3-40 | valid iff both codes match AAA999, both sections are at least 1, and the status is one of the four; the failing paths are exactly the failing fields; a valid document stores the given codes, sections, author and status, with "pending" and [] for a missing status and missing interested users |
| Schemas.SwapDefaultsPending | src/models/swap.js:33-37 | a swap with valid codes and sections and no status is saved as pending |
| Schemas.SwapRejections | src/models/swap.js:5-14 | a section below 1 on either side, or a lower-case letter anywhere in either code, is refused |
| Schemas.ValidateUser | src/models/userInfo.js:3-29 | valid iff the e-mail passes its setters and pattern and a name is present; defaults "Spring 2024" and "user" fill missing semester and role |
| Schemas.ParseLink | src/models/resources.js:12 | a link the pattern accepts decomposes into a scheme, host, optional port and path that spell it exactly |
| Schemas.LinkRefusesQuery | src/models/resources.js:12 | no accepted link contains '?' or '#' |
| Schemas.ParseLinkText | src/models/resources.js:9-13 | round trip: every well-formed scheme/host/port/path link is accepted and parsed back to itself |
| Schemas.ValidateResource | src/models/resources.js:3-31 | valid iff title, matching link and matching submitter e-mail are present; failing paths are exactly the failing fields; the title, link and submitter are stored as given; votes default to 0 and vetting to false |
| Schemas.SaveRoutine | src/models/routines.js:3-24 | refused for an invalid e-mail, a duplicate iff another routine holds the stored e-mail, otherwise appended with the routine or [] |
| Schemas.SaveKeepsUnique | src/models/routines.js:8 | saving keeps stored e-mails unique |
| SeedData.DotWhitespace | src/scripts/seedData.js:8 | every white-space character becomes '.', every other is kept |
| SeedData.GenerateBracuEmail | src/scripts/seedData.js:7-9 | position by position, each whitespace character of the name becomes '.' and every other character its lower-case form, followed by "@g.bracu.ac.bd" |
| SeedData.SpaceOrDotCollide | src/scripts/seedData.js:8 | "a b" and "a.b" give the same e-mail |
| SeedData.GeneratedEmailAccepted | src/scripts/seedData.js:7-9 | a name of e-mail characters and blanks gives an e-mail the user schema stores unchanged |
| SeedData.NormalizedGenerated | src/scripts/seedData.js:8 | the schema setters leave a generated e-mail unchanged |
| SeedData.SeasonName | src/scripts/seedData.js:13 | each season name is 4 to 6 upper-case letters |
| SeedData.SeasonNameRoundTrip | src/scripts/seedData.js:13 | a season name reads back as its season |
| SeedData.GenerateSemester | src/scripts/seedData.js:12-16 | season name then the two-digit year 22..26; the padding never applies |
| SeedData.SemesterRoundTrip | src/scripts/seedData.js:12-16 | a generated semester reads back as its season and year |
| SeedData.Department | src/scripts/seedData.js:20 | each department prefix is three upper-case letters |
| SeedData.GenerateCourseCode | src/scripts/seedData.js:19-24 | the code matches AAA999, starts with its department, and its number is 100..499 |
| SeedData.GeneratedCodeAccepted | src/scripts/seedData.js:19-24 | the swap schema accepts every generated code |
| SeedData.CourseCodeInjective | src/scripts/seedData.js:19-24 | different draws give different codes |
| SeedData.StateCycle | src/scripts/seedData.js:206 | pending, published, rejected by i mod 3 |
| SeedData.ReviewAt | src/scripts/seedData.js:194-207 | anonymous iff i mod 3 is 0, section one digit reading as i mod 9 + 1; state by the cycle; user i mod 10; faculty i mod the number of faculties, absent when there are none |
| SeedData.Moderate | src/scripts/seedData.js:262-272 | min(limit, ids) logs; log i moderates id i by moderator i mod 3 with decision i mod 3 of the cycle |
| SeedData.ModerateReviews | src/scripts/seedData.js:259-273 | the first min(5, reviews) reviews get pending, published, rejected in turn, with moderator i mod 3 |
| SeedData.ModerateMaterials | src/scripts/seedData.js:276-288 | the first min(3, materials) materials get published, rejected, pending in turn, with moderator i mod 3 |
| SeedData.Returned | src/scripts/seedData.js:304-306 | an id is collected iff some insert returned it, never more ids than inserts |
| SeedData.ReturnedKeepsRows | src/scripts/seedData.js:304-306 | the collected ids are the returned rows in order, one per row |
| SeedData.InsertTargets | src/scripts/seedData.js:296-321 | the ids are those of the inserts whose refID is neither in the table beforehand nor inserted earlier; afterwards the table holds every attempted refID |
| SeedData.SeedTargets | src/scripts/seedData.js:290-322 | the first five reviews then the first three materials go into one table; one target per distinct refID not already present, at most min(5, reviews) + min(3, materials) |
| SeedData.TargetCount | src/scripts/seedData.js:298-315 | the number of targets is the number of distinct attempted refIDs not already in the table |
| SeedData.SharedRefOnce | src/scripts/seedData.js:298-315 | a review and a material with the same refID give one target, not two |
| SeedData.VoteCount | src/scripts/seedData.js:332 | each target gets 2 to 4 votes |
| SeedData.VotersStep | src/scripts/seedData.js:336-341 | one more draw, taken exactly when its user's e-mail is unused, keeps distinct e-mails, draw order, every consumed draw's e-mail used, and a full vote ending at the draw that completed it |
| SeedData.ChooseVoters | src/scripts/seedData.js:333-341 | the chosen voters have pairwise different e-mails and appear in draw order among the draws consumed; every consumed draw's e-mail is among the chosen, so no unused e-mail is skipped; they number numVotes unless the draws run out, and a full vote stops at the draw that completed it |

## Left out

- Rendering, DOM events, tooltips, dropdown open/close and toasts are not modelled. Only the values the components compute are.
- The slot a meeting belongs to follows the code: only the start minute is compared with the slot (RoutineTableGrid.jsx lines 60 and 68). An overlap test on start and end is not used, so a meeting starting between slots (09:25) is shown nowhere.
- A missing `sectionSchedule` or `labSchedules` is modelled as an empty list. `?.some` on `undefined` is falsy, just as `some` over [] is.
- `toLowerCase` and `toUpperCase` map ASCII letters only. No Unicode case mapping is modelled.
- `Number` and `parseInt` are modelled for optionally signed decimal digits with surrounding white space. Hexadecimal, exponents, fractions and `Infinity` read as `NaN`, and precision beyond 2^53 is not modelled.
- SwapCard.DateText: `toLocaleDateString` is a parameter, because its output depends on the locale.
- The clock (`new Date()`, `Date.now`) and `Math.random` are parameters. Random draws are given as integers already scaled to their ranges.
- Section ids are natural numbers. String and number ids are not distinguished apart from the text `parseInt` reads.
- `null` and `undefined` are distinguished only in the loosely typed fields (`Attr`): swap e-mails and timestamps, and a section's code and name, where strict equality or interpolation tells them apart. Elsewhere a missing value is `None`.
- Database access, the session lookup, `request.formData()`, and the 500 path of the import route are outside the model. Each upsert's failure is a parameter.
- The seed script's `targets` table is modelled only by the refIDs it holds before step 8 (a parameter) and the uuid the database assigns each insert (a parameter). The `kind` column is not modelled, because it plays no part in the conflict.
- Pool configuration (`createPool`, TLS, connection string) is not modelled. Neither are the graceful-shutdown signal handlers (pgdb.js lines 78-88), because they are process I/O.
- `tx` starts once `pool.connect()` has succeeded: a failed connect (pgdb.js line 61, outside the `try`) rethrows with no ROLLBACK and no release, and is not modelled.
- `tx`: the body's queries are recorded as events but not executed. A failing ROLLBACK is modelled as an error that replaces the body's error, and the connection is still released.
- Mongoose: type casting, fractional or non-numeric Numbers, `timestamps`, and ObjectId references are not modelled. An ObjectId is an opaque number.
- The routine field is a list of opaque JSON values. `encodeRoutine` and its Base64 form are not part of this model.
- The CSV header quirk where a column named `__proto__` does not become a key is not modelled. Headers are ordinary map keys.
- SeedData.ChooseVoters: the source redraws forever when every user has voted. The model stops when the given draws run out, and says so in its contract.
- Other API routes, the auth callbacks, the dashboard pages and the merge-routines page are not part of this model.

=== FILE: base.dfy ===
/** Small shared vocabulary: optional values, the untyped values JavaScript passes
    around, and order-preserving filtering of sequences. */
module Base {

  /** A value that may be missing (`undefined`/`null` in the source). */
  datatype Option<T> = None | Some(value: T)

  /** The dynamically typed values the source hands to the database driver. */
  datatype JsValue =
    | JsNull
    | JsBool(b: bool)
    | JsNum(n: int)
    | JsStr(s: string)
    | JsArray(items: seq<JsValue>)

  /** A loosely typed field: absent (`undefined`), `null`, or text. Strict equality
      on these values is datatype equality. */
  datatype Attr = Missing | Null | Text(s: string)

  /** JavaScript truthiness of such a field. */
  predicate Truthy(a: Attr) {
    a.Text? && a.s != ""
  }

  function Min(a: int, b: int): (m: int)
    ensures m <= a && m <= b
    ensures m == a || m == b
  {
    if a <= b then a else b
  }

  /** `xs.slice(0, n)`: the first `n` elements, or all of them when there are fewer. */
  function Take<T>(xs: seq<T>, n: nat): (r: seq<T>)
    ensures |r| == Min(n, |xs|)
    ensures r == xs[..|r|]
  {
    if n <= |xs| then xs[..n] else xs
  }

  /** `xs` can be obtained from `ys` by deleting elements (greedy matching). */
  predicate IsSubseq<T(==)>(xs: seq<T>, ys: seq<T>)
    decreases |ys|
  {
    if |xs| == 0 then true
    else if |ys| == 0 then false
    else if xs[0] == ys[0] then IsSubseq(xs[1..], ys[1..])
    else IsSubseq(xs, ys[1..])
  }

  /** No element occurs twice. */
  predicate Distinct<T(==)>(xs: seq<T>) {
    forall i, j :: 0 <= i < j < |xs| ==> xs[i] != xs[j]
  }

  lemma {:induction false} SubseqDropHead<T>(xs: seq<T>, ys: seq<T>)
    requires |xs| > 0 && IsSubseq(xs, ys)
    ensures IsSubseq(xs[1..], ys)
    decreases |ys|, 0
  {
    if xs[0] == ys[0] {
      SubseqExtend(xs[1..], ys[1..], ys[0]);
      assert [ys[0]] + ys[1..] == ys;
    } else {
      SubseqDropHead(xs, ys[1..]);
      SubseqExtend(xs[1..], ys[1..], ys[0]);
      assert [ys[0]] + ys[1..] == ys;
    }
  }

  /** Putting one more element in front of the larger sequence keeps a subsequence. */
  lemma {:induction false} SubseqExtend<T>(xs: seq<T>, ys: seq<T>, y: T)
    requires IsSubseq(xs, ys)
    ensures IsSubseq(xs, [y] + ys)
    decreases |ys|, 1
  {
    var zs := [y] + ys;
    assert zs[1..] == ys;
    if |xs| > 0 && xs[0] == y {
      SubseqDropHead(xs, ys);
    }
  }

  /** Putting one more element at the end of the larger sequence keeps a
      subsequence, and putting it at the end of both extends one. */
  lemma {:induction false} SubseqSnoc<T>(xs: seq<T>, ys: seq<T>, y: T)
    requires IsSubseq(xs, ys)
    ensures IsSubseq(xs, ys + [y])
    ensures IsSubseq(xs + [y], ys + [y])
    decreases |ys|
  {
    var zs, xy := ys + [y], xs + [y];
    if |ys| == 0 {
      assert xy == [y] && zs == [y];
      assert xy[1..] == [] && zs[1..] == [];
    } else {
      assert zs[0] == ys[0] && zs[1..] == ys[1..] + [y];
      if |xs| > 0 && xs[0] == ys[0] {
        SubseqSnoc(xs[1..], ys[1..], y);
        assert xy[1..] == xs[1..] + [y];
      } else {
        SubseqSnoc(xs, ys[1..], y);
        if xy[0] == ys[0] {
          SubseqDropHead(xy, ys[1..] + [y]);
        }
      }
    }
  }

  /** Every sequence is a subsequence of itself. */
  lemma {:induction false} SubseqRefl<T>(xs: seq<T>)
    ensures IsSubseq(xs, xs)
    decreases |xs|
  {
    if |xs| > 0 {
      SubseqRefl(xs[1..]);
    }
  }

  /** A subsequence of a subsequence is a subsequence. */
  lemma {:induction false} SubseqTrans<T>(xs: seq<T>, ys: seq<T>, zs: seq<T>)
    requires IsSubseq(xs, ys) && IsSubseq(ys, zs)
    ensures IsSubseq(xs, zs)
    decreases |zs|
  {
    if |xs| > 0 {
      if ys[0] == zs[0] {
        if xs[0] == ys[0] {
          SubseqTrans(xs[1..], ys[1..], zs[1..]);
        } else {
          SubseqTrans(xs, ys[1..], zs[1..]);
          SubseqExtend(xs, zs[1..], zs[0]);
          assert [zs[0]] + zs[1..] == zs;
        }
      } else {
        SubseqTrans(xs, ys, zs[1..]);
        SubseqExtend(xs, zs[1..], zs[0]);
        assert [zs[0]] + zs[1..] == zs;
      }
    }
  }

  /** Every element of a subsequence is an element of the sequence. */
  lemma {:induction false} SubseqMembers<T>(xs: seq<T>, ys: seq<T>)
    requires IsSubseq(xs, ys)
    ensures forall x :: x in xs ==> x in ys
    decreases |ys|
  {
    if |xs| == 0 {
    } else if xs[0] == ys[0] {
      SubseqMembers(xs[1..], ys[1..]);
      assert xs == [xs[0]] + xs[1..];
    } else {
      SubseqMembers(xs, ys[1..]);
    }
  }

  /** A prefix of a subsequence is a subsequence. */
  lemma {:induction false} SubseqPrefix<T>(xs: seq<T>, ys: seq<T>, k: nat)
    requires IsSubseq(xs, ys) && k <= |xs|
    ensures IsSubseq(xs[..k], ys)
    decreases |ys|
  {
    if k == 0 {
    } else if xs[0] == ys[0] {
      SubseqPrefix(xs[1..], ys[1..], k - 1);
      assert xs[..k][1..] == xs[1..][..k - 1];
    } else {
      SubseqPrefix(xs, ys[1..], k);
    }
  }

  /** The recursion behind `Filter`, without a contract, so that step lemmas can
      reason about it without the contract's quantifiers. */
  function Keep<T>(xs: seq<T>, p: T -> bool): seq<T>
    decreases |xs|
  {
    if |xs| == 0 then []
    else if p(xs[0]) then [xs[0]] + Keep(xs[1..], p)
    else Keep(xs[1..], p)
  }

  lemma {:induction false} KeepFacts<T(!new)>(xs: seq<T>, p: T -> bool)
    ensures |Keep(xs, p)| <= |xs|
    ensures forall x :: x in Keep(xs, p) <==> x in xs && p(x)
    ensures forall x :: multiset(Keep(xs, p))[x] == if p(x) then multiset(xs)[x] else 0
    ensures IsSubseq(Keep(xs, p), xs)
    decreases |xs|
  {
    if |xs| > 0 {
      var rest := Keep(xs[1..], p);
      KeepFacts(xs[1..], p);
      assert xs == [xs[0]] + xs[1..];
      if p(xs[0]) {
        assert ([xs[0]] + rest)[1..] == rest;
      } else {
        assert rest == [] || rest[0] != xs[0] by {
          if rest != [] { assert rest[0] in rest; }
        }
      }
    }
  }

  /** The elements of `xs` that satisfy `p`, in their original order (`Array.prototype.filter`). */
  function Filter<T(!new)>(xs: seq<T>, p: T -> bool): (r: seq<T>)
    ensures |r| <= |xs|
    ensures forall x :: x in r <==> x in xs && p(x)
    ensures forall x :: multiset(r)[x] == if p(x) then multiset(xs)[x] else 0
    ensures IsSubseq(r, xs)
  {
    KeepFacts(xs, p);
    Keep(xs, p)
  }

  /** A subsequence holds no more copies of any element than the sequence. */
  lemma {:induction false} SubseqMultiset<T>(xs: seq<T>, ys: seq<T>)
    requires IsSubseq(xs, ys)
    ensures multiset(xs) <= multiset(ys)
    decreases |ys|
  {
    if |xs| > 0 {
      assert ys == [ys[0]] + ys[1..];
      if xs[0] == ys[0] {
        SubseqMultiset(xs[1..], ys[1..]);
        assert xs == [xs[0]] + xs[1..];
      } else {
        SubseqMultiset(xs, ys[1..]);
      }
    }
  }

  /** `Filter`'s contract determines it: an order-keeping subsequence holding every
      copy of each element that satisfies `p`, and nothing else, is the filter. */
  lemma {:induction false} FilterUnique<T(!new)>(r: seq<T>, xs: seq<T>, p: T -> bool)
    requires IsSubseq(r, xs)
    requires forall x :: multiset(r)[x] == if p(x) then multiset(xs)[x] else 0
    ensures r == Filter(xs, p)
    decreases |xs|
  {
    if |xs| == 0 {
    } else {
      var rest := xs[1..];
      assert xs == [xs[0]] + rest;
      if |r| > 0 && r[0] == xs[0] {
        assert r == [r[0]] + r[1..];
        assert p(xs[0]) by {
          assert multiset(r)[xs[0]] > 0;
        }
        FilterUnique(r[1..], rest, p);
      } else {
        assert IsSubseq(r, rest);
        SubseqMultiset(r, rest);
        assert !p(xs[0]) by {
          assert multiset(r)[xs[0]] <= multiset(rest)[xs[0]] < multiset(xs)[xs[0]];
        }
        FilterUnique(r, rest, p);
      }
    }
  }

  /** Filtering a duplicate-free sequence yields a duplicate-free sequence. */
  lemma {:induction false} FilterDistinct<T(!new)>(xs: seq<T>, p: T -> bool)
    requires Distinct(xs)
    ensures Distinct(Filter(xs, p))
    decreases |xs|
  {
    if |xs| > 0 {
      var rest := xs[1..];
      assert Distinct(rest) by {
        forall i, j | 0 <= i < j < |rest| ensures rest[i] != rest[j] {
          assert rest[i] == xs[i + 1] && rest[j] == xs[j + 1];
        }
      }
      FilterDistinct(rest, p);
      if p(xs[0]) {
        var r := Filter(xs, p);
        assert xs[0] !in rest by {
          forall k | 0 <= k < |rest| ensures rest[k] != xs[0] {
            assert rest[k] == xs[k + 1];
          }
        }
        assert xs[0] !in Filter(rest, p);
        assert r == [xs[0]] + Filter(rest, p);
      }
    }
  }

  /** The filter keeps at least two elements exactly when two distinct positions satisfy `p`. */
  lemma {:induction false} FilterAtLeastTwo<T(!new)>(xs: seq<T>, p: T -> bool)
    ensures |Filter(xs, p)| >= 2 <==>
      exists i, j :: 0 <= i < j < |xs| && p(xs[i]) && p(xs[j])
    decreases |xs|
  {
    if |xs| > 0 {
      var rest := xs[1..];
      FilterAtLeastTwo(rest, p);
      if |Filter(xs, p)| >= 2 {
        if p(xs[0]) {
          var f := Filter(rest, p);
          assert |f| >= 1;
          assert f[0] in rest && p(f[0]);
          var k :| 0 <= k < |rest| && rest[k] == f[0];
          assert xs[k + 1] == rest[k];
          assert p(xs[0]) && p(xs[k + 1]);
        } else {
          var i, j :| 0 <= i < j < |rest| && p(rest[i]) && p(rest[j]);
          assert xs[i + 1] == rest[i] && xs[j + 1] == rest[j];
        }
      }
      if exists i, j :: 0 <= i < j < |xs| && p(xs[i]) && p(xs[j]) {
        var i, j :| 0 <= i < j < |xs| && p(xs[i]) && p(xs[j]);
        assert xs[j] == rest[j - 1];
        if i == 0 {
          assert rest[j - 1] in Filter(rest, p);
          assert |Filter(xs, p)| == 1 + |Filter(rest, p)|;
        } else {
          assert xs[i] == rest[i - 1];
          assert p(rest[i - 1]) && p(rest[j - 1]);
        }
      }
    }
  }

  /** Taking a prefix of a subsequence of `ys` still gives a subsequence of `ys`. */
  lemma TakeSubseq<T>(xs: seq<T>, ys: seq<T>, n: nat)
    requires IsSubseq(xs, ys)
    ensures IsSubseq(Take(xs, n), ys)
  {
    SubseqPrefix(xs, ys, |Take(xs, n)|);
  }

  lemma {:induction false} KeepAppendOne<T>(xs: seq<T>, y: T, p: T -> bool)
    ensures Keep(xs + [y], p) == Keep(xs, p) + (if p(y) then [y] else [])
    decreases |xs|
  {
    if |xs| == 0 {
      assert xs + [y] == [y];
      assert [y][1..] == [];
    } else {
      var zs := xs + [y];
      assert zs[0] == xs[0] && zs[1..] == xs[1..] + [y];
      KeepAppendOne(xs[1..], y, p);
      if p(xs[0]) {
        assert Keep(zs, p) == [xs[0]] + (Keep(xs[1..], p) + (if p(y) then [y] else []));
      }
    }
  }

  /** Filtering distributes over appending one element. */
  lemma FilterAppendOne<T(!new)>(xs: seq<T>, y: T, p: T -> bool)
    ensures Filter(xs + [y], p) == Filter(xs, p) + (if p(y) then [y] else [])
  {
    KeepAppendOne(xs, y, p);
  }

  lemma {:induction false} KeepConcat<T>(xs: seq<T>, ys: seq<T>, p: T -> bool)
    ensures Keep(xs + ys, p) == Keep(xs, p) + Keep(ys, p)
    decreases |xs|
  {
    if |xs| == 0 {
      assert xs + ys == ys;
    } else {
      assert (xs + ys)[0] == xs[0] && (xs + ys)[1..] == xs[1..] + ys;
      KeepConcat(xs[1..], ys, p);
    }
  }

  /** Filtering distributes over concatenation. */
  lemma FilterConcat<T(!new)>(xs: seq<T>, ys: seq<T>, p: T -> bool)
    ensures Filter(xs + ys, p) == Filter(xs, p) + Filter(ys, p)
  {
    KeepConcat(xs, ys, p);
  }


  /** Filtering keeps a sequence whose every element passes. */
  lemma {:induction false} FilterKeepsAll<T(!new)>(xs: seq<T>, p: T -> bool)
    requires forall i :: 0 <= i < |xs| ==> p(xs[i])
    ensures Filter(xs, p) == xs
    decreases |xs|
  {
    if |xs| > 0 {
      FilterKeepsAll(xs[1..], p);
    }
  }

  /** Filtering with two predicates that agree everywhere gives the same result. */
  lemma {:induction false} FilterCongruent<T(!new)>(xs: seq<T>, p: T -> bool, q: T -> bool)
    requires forall x :: p(x) == q(x)
    ensures Filter(xs, p) == Filter(xs, q)
    decreases |xs|
  {
    if |xs| > 0 {
      FilterCongruent(xs[1..], p, q);
    }
  }

  /** `xs.some(p)`, scanning from the front. */
  predicate Any<T>(xs: seq<T>, p: T -> bool)
    decreases |xs|
  {
    |xs| > 0 && (p(xs[0]) || Any(xs[1..], p))
  }

  /** `some` holds exactly when some element satisfies the callback. */
  lemma {:induction false} AnyIff<T>(xs: seq<T>, p: T -> bool)
    ensures Any(xs, p) <==> exists k :: 0 <= k < |xs| && p(xs[k])
    decreases |xs|
  {
    if |xs| > 0 {
      AnyIff(xs[1..], p);
      if exists k :: 0 <= k < |xs| && p(xs[k]) {
        var k :| 0 <= k < |xs| && p(xs[k]);
        if k > 0 {
          assert xs[1..][k - 1] == xs[k];
        }
      }
      if Any(xs[1..], p) {
        var k :| 0 <= k < |xs[1..]| && p(xs[1..][k]);
        assert xs[k + 1] == xs[1..][k];
      }
    }
  }

  /** Position `i` holds the first element of `xs` satisfying `p`. */
  predicate FirstMatch<T>(xs: seq<T>, p: T -> bool, i: int) {
    0 <= i < |xs| && p(xs[i]) && forall j :: 0 <= j < i ==> !p(xs[j])
  }

  /** `xs.find(p)`: the first element satisfying `p`, if any. */
  function Find<T>(xs: seq<T>, p: T -> bool): (r: Option<T>)
    ensures r.None? <==> forall i :: 0 <= i < |xs| ==> !p(xs[i])
    ensures r.Some? ==> exists i :: FirstMatch(xs, p, i) && xs[i] == r.value
    decreases |xs|
  {
    if |xs| == 0 then None
    else if p(xs[0]) then
      assert FirstMatch(xs, p, 0);
      Some(xs[0])
    else
      var r := Find(xs[1..], p);
      assert forall i :: 0 < i < |xs| ==> xs[i] == xs[1..][i - 1];
      assert r.Some? ==> exists i :: FirstMatch(xs, p, i) && xs[i] == r.value by {
        if r.Some? {
          var k :| FirstMatch(xs[1..], p, k) && xs[1..][k] == r.value;
          assert FirstMatch(xs, p, k + 1) by {
            forall j | 0 <= j < k + 1 ensures !p(xs[j]) {
              if j > 0 { assert xs[j] == xs[1..][j - 1]; }
            }
          }
        }
      }
      r
  }

  /** Two predicates that agree everywhere find the same element. */
  lemma {:induction false} FindCongruent<T>(xs: seq<T>, p: T -> bool, q: T -> bool)
    requires forall i :: 0 <= i < |xs| ==> p(xs[i]) == q(xs[i])
    ensures Find(xs, p) == Find(xs, q)
    decreases |xs|
  {
    if |xs| > 0 {
      assert forall i :: 0 <= i < |xs| - 1 ==> xs[1..][i] == xs[i + 1];
      FindCongruent(xs[1..], p, q);
    }
  }
}

=== FILE: catalog.dfy ===
/** The course-catalog entries that the course pickers, the swap cards and the
    routine grid work on, and the helpers the course-swap components share: the
    "CODE-[SECTION]" label, lookup of a section by id, and case-insensitive search
    capped at 50 results. */
module CourseCatalog {
  import opened Base
  import opened JsText

  /** One weekly meeting: an upper-case day name and 24-hour "HH:MM" times
      ("" when the field is absent, which is just as falsy). */
  datatype Schedule = Schedule(day: string, startTime: string, endTime: string)

  /** A section of the catalog. A missing schedule list behaves like an empty one:
      `some` over it never holds. */
  datatype Course = Course(
    sectionId: nat,
    courseCode: Attr,
    sectionName: Attr,
    classSchedules: seq<Schedule>,
    labSchedules: seq<Schedule>)

  /** A template-literal substitution: an absent field shows as "undefined" and a
      `null` one as "null". */
  function Interpolate(v: Attr): string {
    match v
    case Missing => "undefined"
    case Null => "null"
    case Text(s) => s
  }

  /** `formatCourse`: "CODE-[SECTION]". */
  function FormatCourse(c: Course): (text: string)
    ensures StartsWith(text, Interpolate(c.courseCode))
    ensures |text| == |Interpolate(c.courseCode)| + |Interpolate(c.sectionName)| + 3
    ensures text[|text| - 1] == ']'
  {
    Interpolate(c.courseCode) + "-[" + Interpolate(c.sectionName) + "]"
  }

  /** The text before the first `sep` (all of `s` when it has none). */
  function TakeUntil(s: string, sep: char): (r: string)
    ensures |r| <= |s| && r == s[..|r|] && sep !in r
    ensures |r| < |s| ==> s[|r|] == sep
    decreases |s|
  {
    if |s| == 0 || s[0] == sep then "" else [s[0]] + TakeUntil(s[1..], sep)
  }

  lemma {:induction false} TakeUntilSeparated(a: string, b: string, sep: char)
    requires sep !in a
    ensures TakeUntil(a + [sep] + b, sep) == a
    decreases |a|
  {
    if |a| > 0 {
      assert (a + [sep] + b)[1..] == a[1..] + [sep] + b;
      TakeUntilSeparated(a[1..], b, sep);
      assert a == [a[0]] + a[1..];
    }
  }

  /** Reads a "CODE-[SECTION]" label back into its code and section name, taking
      the code to end at the first '-'. */
  function ParseCourseLabel(shown: string): Option<(string, string)> {
    var code := TakeUntil(shown, '-');
    if |shown| >= |code| + 3 && shown[|code| + 1] == '[' && shown[|shown| - 1] == ']' then
      Some((code, shown[|code| + 2..|shown| - 1]))
    else
      None
  }

  /** The label gives back the code and section name whenever the code has no '-'. */
  lemma FormatThenParseLabel(c: Course)
    requires '-' !in Interpolate(c.courseCode)
    ensures ParseCourseLabel(FormatCourse(c))
      == Some((Interpolate(c.courseCode), Interpolate(c.sectionName)))
  {
    var code, name := Interpolate(c.courseCode), Interpolate(c.sectionName);
    var shown := FormatCourse(c);
    assert shown == code + ['-'] + ("[" + name + "]");
    TakeUntilSeparated(code, "[" + name + "]", '-');
    assert shown[|code| + 2..|shown| - 1] == name;
  }

  /** So two sections with '-'-free codes share a label only when they share
      their code and section name. */
  lemma LabelInjective(c1: Course, c2: Course)
    requires '-' !in Interpolate(c1.courseCode) && '-' !in Interpolate(c2.courseCode)
    requires FormatCourse(c1) == FormatCourse(c2)
    ensures Interpolate(c1.courseCode) == Interpolate(c2.courseCode)
    ensures Interpolate(c1.sectionName) == Interpolate(c2.sectionName)
  {
    FormatThenParseLabel(c1);
    FormatThenParseLabel(c2);
  }

  /** Reference lookup: the first section whose id is `n`. */
  function CourseById(courses: seq<Course>, n: nat): (r: Option<Course>)
    ensures r.Some? ==> r.value in courses && r.value.sectionId == n
    ensures r.None? <==> forall c :: c in courses ==> c.sectionId != n
  {
    Find(courses, (c: Course) => c.sectionId == n)
  }

  /** MultiCourseSelector's `getCourseBySection`: the first section whose
      `sectionId.toString()` equals the key. */
  function CourseByKey(courses: seq<Course>, key: string): Option<Course> {
    Find(courses, (c: Course) => NatToString(c.sectionId) == key)
  }

  /** SwapFilter's and SwapCard's `getCourseBySection`: the first section whose
      `sectionId` equals `parseInt(id)`; `NaN` equals nothing. */
  function CourseByParsedId(courses: seq<Course>, id: string): Option<Course> {
    Find(courses, (c: Course) => ParseInt(id) == Some(c.sectionId as int))
  }

  /** Both lookups find the first section with id `n` when given `n` written out. */
  lemma LookupsAgree(courses: seq<Course>, n: nat)
    ensures CourseByKey(courses, NatToString(n)) == CourseById(courses, n)
    ensures CourseByParsedId(courses, NatToString(n)) == CourseById(courses, n)
  {
    forall i | 0 <= i < |courses|
      ensures (NatToString(courses[i].sectionId) == NatToString(n)) == (courses[i].sectionId == n)
    {
      if NatToString(courses[i].sectionId) == NatToString(n) {
        NatToStringInjective(courses[i].sectionId, n);
      }
    }
    FindCongruent(courses, (c: Course) => NatToString(c.sectionId) == NatToString(n),
      (c: Course) => c.sectionId == n);
    ParseIntNatToString(n);
    FindCongruent(courses, (c: Course) => ParseInt(NatToString(n)) == Some(c.sectionId as int),
      (c: Course) => c.sectionId == n);
  }

  /** `parseInt` stops at the first non-digit, so the parsed-id lookup also resolves
      an id followed by other text ("12abc" finds section 12). */
  lemma ParsedIdIgnoresSuffix(courses: seq<Course>, n: nat, rest: string)
    requires |rest| == 0 || !IsDigit(rest[0])
    ensures CourseByParsedId(courses, NatToString(n) + rest) == CourseById(courses, n)
  {
    ParseIntDigits(NatToString(n), rest);
    FindCongruent(courses, (c: Course) => ParseInt(NatToString(n) + rest) == Some(c.sectionId as int),
      (c: Course) => c.sectionId == n);
  }

  /** How the swap components show a section id: its label when `parseInt(id)`
      resolves it, "Section <id>" otherwise. */
  function SectionLabel(courses: seq<Course>, id: string): string {
    match CourseByParsedId(courses, id)
    case Some(c) => FormatCourse(c)
    case None => "Section " + id
  }

  /** For a numeric id: the first section with that id gives the label, and an
      unknown id is shown as "Section <id>". */
  lemma SectionLabelOfId(courses: seq<Course>, n: nat)
    ensures SectionLabel(courses, NatToString(n)) ==
      match CourseById(courses, n)
      case Some(c) => FormatCourse(c)
      case None => "Section " + NatToString(n)
  {
    LookupsAgree(courses, n);
  }

  /** How a chosen or referenced section id is shown by its number: the label of
      the first section with that id, or "Section <id>" when the catalog has none. */
  function IdLabel(courses: seq<Course>, n: nat): (shown: string)
    ensures CourseById(courses, n).Some? ==> shown == FormatCourse(CourseById(courses, n).value)
    ensures CourseById(courses, n).None? ==> shown == "Section " + NatToString(n)
  {
    SectionLabelOfId(courses, n);
    SectionLabel(courses, NatToString(n))
  }

  /** The search clauses of both course pickers, for an already lower-cased term:
      the code, the section name or the label contains it. An absent or `null`
      field's own clause is `undefined` and fails. */
  predicate MatchesSearch(c: Course, term: string) {
    || (c.courseCode.Text? && Includes(Lower(c.courseCode.s), term))
    || (c.sectionName.Text? && Includes(Lower(c.sectionName.s), term))
    || Includes(Lower(FormatCourse(c)), term)
  }

  /** The label clause alone decides the search: the label contains the code and
      the section name. */
  lemma MatchesByLabel(c: Course, term: string)
    ensures MatchesSearch(c, term) <==> Includes(Lower(FormatCourse(c)), term)
  {
    var code, name := Interpolate(c.courseCode), Interpolate(c.sectionName);
    var tail := "-[" + name + "]";
    assert FormatCourse(c) == code + tail;
    LowerAppend(code, tail);
    IncludesAppend(Lower(code), Lower(tail), term);
    assert tail == "-[" + (name + "]");
    LowerAppend("-[", name + "]");
    LowerAppend(name, "]");
    IncludesAppend(Lower(name), Lower("]"), term);
    IncludesAppend(Lower("-["), Lower(name + "]"), term);
  }

  /** A section whose code is `null` is labelled "null-[...]", so a search for
      "null" finds it through the label clause. */
  lemma NullCodeFound(c: Course)
    requires c.courseCode == Null
    ensures MatchesSearch(c, "null")
  {
    var tail := "-[" + Interpolate(c.sectionName) + "]";
    assert FormatCourse(c) == "null" + tail;
    LowerAppend("null", tail);
    assert Lower(FormatCourse(c))[..4] == "null";
  }

  /** The sections matching a lower-cased term, in catalog order. */
  function Matching(courses: seq<Course>, term: string): (r: seq<Course>)
    ensures forall c :: c in r <==> c in courses && MatchesSearch(c, term)
    ensures forall c :: multiset(r)[c] == if MatchesSearch(c, term) then multiset(courses)[c] else 0
    ensures IsSubseq(r, courses)
  {
    Filter(courses, (c: Course) => MatchesSearch(c, term))
  }

  /** The most results a picker shows. */
  const SearchCap: nat := 50

  /** The shared `filterCourses` body: an empty term shows the first 50 sections;
      otherwise the term is lower-cased and the first 50 matches are shown. */
  function SearchCourses(courses: seq<Course>, searchTerm: string): (r: seq<Course>)
    ensures |r| <= SearchCap
    ensures IsSubseq(r, courses)
    ensures searchTerm == "" ==> r == Take(courses, SearchCap)
    ensures searchTerm != "" ==> forall c :: c in r ==> MatchesSearch(c, Lower(searchTerm))
    ensures searchTerm != "" ==>
      |r| == Min(SearchCap, |Matching(courses, Lower(searchTerm))|)
      && r == Matching(courses, Lower(searchTerm))[..|r|]
  {
    if searchTerm == "" then
      SubseqRefl(courses);
      TakeSubseq(courses, courses, SearchCap);
      Take(courses, SearchCap)
    else
      var m := Matching(courses, Lower(searchTerm));
      TakeSubseq(m, courses, SearchCap);
      var r := Take(m, SearchCap);
      assert forall c :: c in r ==> c in m;
      r
  }

  /** When there are at most 50 matches, every matching section is shown. */
  lemma SearchComplete(courses: seq<Course>, searchTerm: string, c: Course)
    requires searchTerm != "" && |Matching(courses, Lower(searchTerm))| <= SearchCap
    requires c in courses && MatchesSearch(c, Lower(searchTerm))
    ensures c in SearchCourses(courses, searchTerm)
  {
    var m := Matching(courses, Lower(searchTerm));
    assert SearchCourses(courses, searchTerm) == m[..|m|];
    assert m[..|m|] == m;
  }

  /** The search ignores letter case: terms with the same lower-case form give the
      same results. */
  lemma SearchIgnoresCase(courses: seq<Course>, t1: string, t2: string)
    requires Lower(t1) == Lower(t2)
    ensures SearchCourses(courses, t1) == SearchCourses(courses, t2)
  {
    assert t1 == "" <==> t2 == "" by {
      assert |Lower(t1)| == |t1| && |Lower(t2)| == |t2|;
    }
  }
}

=== FILE: clock_time.dfy ===
/** The routine grid's two time helpers: `timeToMinutes`, which reads a 12-hour
    "h:mm AM|PM" label as minutes since midnight, and `formatTime`, which turns
    the catalog's 24-hour "HH:MM" into such a label. `NaN` is `None`. */
module ClockTime {
  import opened Base
  import opened JsText

  /** Minutes since midnight of a 12-hour clock reading, as `timeToMinutes`
      adjusts it: PM adds 12 hours except at 12, and 12 AM is midnight. */
  function Clock12(h: int, m: int, period: Option<string>): int {
    var total := h * 60 + m;
    var afterPm := if period == Some("PM") && h != 12 then total + 12 * 60 else total;
    if period == Some("AM") && h == 12 then afterPm - 12 * 60 else afterPm
  }

  /** `timeToMinutes(timeStr)`: split on a space into time and period, then read
      the time's ':'-separated fields. */
  function TimeToMinutes(timeStr: string): Option<int> {
    var words := Split(timeStr, ' ');
    ReadClock(Split(words[0], ':'), if |words| >= 2 then Some(words[1]) else None)
  }

  /** Both fields go through `Number`; a missing or non-numeric field is `NaN`. */
  function ReadClock(fields: seq<string>, period: Option<string>): Option<int> {
    if |fields| < 2 then None
    else
      match (ToNumber(fields[0]), ToNumber(fields[1]))
      case (Some(h), Some(m)) => Some(Clock12(h, m, period))
      case _ => None
  }

  /** `formatTime(time)`: an empty (falsy) input gives ""; otherwise the text is
      split on ':' and rebuilt from its hour and minutes fields. */
  function FormatTime(time: string): string {
    if time == "" then "" else FormatFields(Split(time, ':'))
  }

  /** The hour field is read with `parseInt` and shown as `hour % 12 || 12`; the
      minutes field is copied as given (`undefined` when absent); AM or PM follows. */
  function FormatFields(fields: seq<string>): string
    requires |fields| >= 1
  {
    var hour := ParseInt(fields[0]);
    var minutes := if |fields| >= 2 then fields[1] else "undefined";
    HourText(hour) + ":" + minutes + " " + Meridiem(hour)
  }

  /** `hour % 12 || 12`: 0 and `NaN` both display as 12. */
  function HourText(hour: Option<int>): string {
    match hour
    case None => "12"
    case Some(h) => if JsRem(h, 12) == 0 then "12" else IntToString(JsRem(h, 12))
  }

  /** `hour >= 12 ? 'PM' : 'AM'` (`NaN >= 12` is false). */
  function Meridiem(hour: Option<int>): string {
    if hour.Some? && hour.value >= 12 then "PM" else "AM"
  }

  /** The 12-hour display hour of a 24-hour hour. */
  function DisplayHour(h: nat): (d: nat)
    requires h <= 23
    ensures 1 <= d <= 12
    ensures h == 0 ==> d == 12
    ensures 1 <= h <= 12 ==> d == h
    ensures 13 <= h ==> d == h - 12
  {
    if h % 12 == 0 then 12 else h % 12
  }

  /** A "hh:mm PERIOD" reading with digit fields is parsed field by field. */
  lemma ParseClockLabel(hh: string, mm: string, period: string)
    requires AllDigits(hh) && AllDigits(mm)
    requires ' ' !in period
    ensures TimeToMinutes(hh + ":" + mm + " " + period)
      == Some(Clock12(DigitsValue(hh), DigitsValue(mm), Some(period)))
  {
    var time := hh + ":" + mm;
    assert ' ' !in hh by { DigitsNoWhitespace(hh); }
    assert ' ' !in mm by { DigitsNoWhitespace(mm); }
    assert ' ' !in time by {
      forall i | 0 <= i < |time| ensures time[i] != ' ' {
        if i < |hh| { assert time[i] == hh[i]; }
        else if i > |hh| { assert time[i] == mm[i - |hh| - 1]; }
      }
    }
    SplitTwo(time, period, ' ');
    assert time + [' '] + period == hh + ":" + mm + " " + period;
    assert ':' !in hh && ':' !in mm;
    SplitTwo(hh, mm, ':');
    assert hh + [':'] + mm == time;
    assert TimeToMinutes(hh + ":" + mm + " " + period) == ReadClock([hh, mm], Some(period));
    ToNumberDigits(hh);
    ToNumberDigits(mm);
  }

  /** A time with no ':' in its hour and minutes fields splits back into them. */
  lemma SplitClock(hh: string, mm: string)
    requires AllDigits(hh) && AllDigits(mm)
    ensures Split(hh + ":" + mm, ':') == [hh, mm]
  {
    assert ':' !in hh && ':' !in mm;
    SplitTwo(hh, mm, ':');
    assert hh + [':'] + mm == hh + ":" + mm;
  }

  /** `hour % 12 || 12` on a 24-hour hour is its 12-hour display hour. */
  lemma HourTextDisplay(h: nat)
    requires h <= 23
    ensures HourText(Some(h)) == NatToString(DisplayHour(h))
  {
    assert JsRem(h, 12) == h % 12;
  }

  /** A digit string is read by `parseInt` as its decimal value. */
  lemma ParseIntAllDigits(hh: string)
    requires AllDigits(hh) && |hh| > 0
    ensures ParseInt(hh) == Some(DigitsValue(hh))
  {
    ParseIntDigits(hh, "");
    assert hh + "" == hh;
  }

  /** What `formatTime` makes of a 24-hour "HH:MM" with digit fields. */
  lemma FormatDigits(hh: string, mm: string)
    requires AllDigits(hh) && |hh| > 0 && DigitsValue(hh) <= 23
    requires AllDigits(mm)
    ensures FormatTime(hh + ":" + mm)
      == NatToString(DisplayHour(DigitsValue(hh))) + ":" + mm + " " + Meridiem(Some(DigitsValue(hh)))
  {
    var h := DigitsValue(hh);
    calc {
      FormatTime(hh + ":" + mm);
      == { SplitClock(hh, mm); }
      FormatFields([hh, mm]);
      == { ParseIntAllDigits(hh); }
      HourText(Some(h)) + ":" + mm + " " + Meridiem(Some(h));
      == { HourTextDisplay(h); }
      NatToString(DisplayHour(h)) + ":" + mm + " " + Meridiem(Some(h));
    }
  }

  /** Reading back the display hour with its AM/PM restores the 24-hour time. */
  lemma MeridiemClock(h: nat, m: int)
    requires h <= 23
    ensures Clock12(DisplayHour(h), m, Some(Meridiem(Some(h)))) == 60 * h + m
  {
  }

  /** Neither period word contains the space that separates it from the time. */
  lemma MeridiemNoSpace(h: int)
    ensures ' ' !in Meridiem(Some(h))
  {
  }

  /** A "hh:mm PERIOD" text with digit fields reads as the 12-hour clock value `k`
      of its fields. */
  lemma ClockLabelReads(hh: string, mm: string, period: string, k: int)
    requires AllDigits(hh) && AllDigits(mm) && ' ' !in period
    requires k == Clock12(DigitsValue(hh), DigitsValue(mm), Some(period))
    ensures TimeToMinutes(hh + ":" + mm + " " + period) == Some(k)
  {
    ParseClockLabel(hh, mm, period);
  }

  /** The same for a label whose hour is written without leading zeros. */
  lemma ParseShownTime(d: nat, mm: string, period: string, k: int)
    requires AllDigits(mm) && ' ' !in period
    requires k == Clock12(d, DigitsValue(mm), Some(period))
    ensures TimeToMinutes(NatToString(d) + ":" + mm + " " + period) == Some(k)
  {
    ClockLabelReads(NatToString(d), mm, period, k);
  }

  /** The label shown for hour `h` and minutes `mm` reads back as `k` = 60 * h + mm. */
  lemma ShownTimeReadsBack(h: nat, mm: string, k: int)
    requires h <= 23 && AllDigits(mm) && k == 60 * h + DigitsValue(mm)
    ensures TimeToMinutes(NatToString(DisplayHour(h)) + ":" + mm + " " + Meridiem(Some(h))) == Some(k)
  {
    MeridiemNoSpace(h);
    MeridiemClock(h, DigitsValue(mm));
    ParseShownTime(DisplayHour(h), mm, Meridiem(Some(h)), k);
  }

  /** Round trip: formatting a 24-hour "HH:MM" with `formatTime` and reading it back
      with `timeToMinutes` gives `k` = 60 * HH + MM, for any digit fields with
      HH <= 23 (the minutes text passes through unchanged). */
  lemma FormatThenParse(hh: string, mm: string, k: int)
    requires AllDigits(hh) && |hh| > 0 && DigitsValue(hh) <= 23
    requires AllDigits(mm) && k == 60 * DigitsValue(hh) + DigitsValue(mm)
    ensures TimeToMinutes(FormatTime(hh + ":" + mm)) == Some(k)
  {
    FormatDigits(hh, mm);
    ShownTimeReadsBack(DigitsValue(hh), mm, k);
  }

  /** Two decimal digits with a leading zero, as the catalog writes hours and minutes. */
  function Pad2(n: nat): (s: string)
    requires n < 100
    ensures |s| == 2 && AllDigits(s) && DigitsValue(s) == n
  {
    var s := [DigitChar(n / 10), DigitChar(n % 10)];
    var first := [DigitChar(n / 10)];
    assert s[..1] == first && first[..0] == [];
    assert DigitsValue(first) == n / 10;
    s
  }

  /** The round trip for every valid 24-hour time "HH:MM" (00:00 .. 23:59). */
  lemma FormatThenParseClock(h: nat, m: nat, k: int)
    requires h <= 23 && m <= 59 && k == 60 * h + m
    ensures TimeToMinutes(FormatTime(Pad2(h) + ":" + Pad2(m))) == Some(k)
  {
    FormatThenParse(Pad2(h), Pad2(m), k);
  }
}

=== FILE: faculty_import.dfy ===
/** The admin faculty import: a naive comma-separated parser (no quoting, no
    escaping) and the handler that upserts one faculty member per non-blank row. */
module FacultyImport {
  import opened Base
  import opened JsText

  /** A parsed row: each trimmed header name mapped to its field. */
  type Row = map<string, string>

  predicate BlankLine(line: string) {
    Trim(line) == ""
  }

  /** The lines of the text that are not empty or whitespace only, in order. */
  function Lines(csvText: string): (lines: seq<string>)
    ensures forall l :: l in lines <==> l in Split(csvText, '\n') && !BlankLine(l)
    ensures forall l :: multiset(lines)[l] == if BlankLine(l) then 0 else multiset(Split(csvText, '\n'))[l]
    ensures IsSubseq(lines, Split(csvText, '\n'))
  {
    Filter(Split(csvText, '\n'), (l: string) => !BlankLine(l))
  }

  /** A line's fields: every comma ends one, and each is trimmed. */
  function Cells(line: string): (cells: seq<string>)
    ensures |cells| == CountChar(line, ',') + 1
    ensures forall i :: 0 <= i < |cells| ==> ',' !in cells[i] && Trim(cells[i]) == cells[i]
    ensures |cells| == |Split(line, ',')| && forall i :: 0 <= i < |cells| ==> cells[i] == Trim(Split(line, ',')[i])
  {
    var parts := Split(line, ',');
    SplitCount(line, ',');
    SplitPartsFree(line, ',');
    var cells := seq(|parts|, i requires 0 <= i < |parts| => Trim(parts[i]));
    forall i | 0 <= i < |cells| ensures ',' !in cells[i] && Trim(cells[i]) == cells[i] {
      assert parts[i] in parts;
      TrimIdempotent(parts[i]);
      TrimSubstring(parts[i]);
    }
    cells
  }

  /** `values[index] || ''`: a missing field reads as empty. */
  function Field(cells: seq<string>, j: nat): string {
    if j < |cells| then cells[j] else ""
  }

  /** Position `j` is the last of the first `n` headers named `h`. */
  predicate LastAt(headers: seq<string>, n: nat, h: string, j: nat) {
    j < n <= |headers| && headers[j] == h && forall k :: j < k < n ==> headers[k] != h
  }

  /** The first `n` header names. */
  function HeaderSet(headers: seq<string>, n: nat): set<string>
    requires n <= |headers|
  {
    set j | 0 <= j < n :: headers[j]
  }

  lemma HeaderSetStep(headers: seq<string>, n: nat)
    requires 0 < n <= |headers|
    ensures HeaderSet(headers, n) == HeaderSet(headers, n - 1) + {headers[n - 1]}
  {
    var a, b := HeaderSet(headers, n), HeaderSet(headers, n - 1) + {headers[n - 1]};
    forall h | h in a ensures h in b {
      var j :| 0 <= j < n && headers[j] == h;
      if j < n - 1 { assert h in HeaderSet(headers, n - 1); }
    }
    forall h | h in b ensures h in a {
      if h == headers[n - 1] { assert headers[n - 1] in a; }
      else {
        var j :| 0 <= j < n - 1 && headers[j] == h;
        assert headers[j] in a;
      }
    }
  }

  /** The row built by assigning the first `n` headers in order, so a later column
      overwrites an earlier one of the same name. */
  function RowOf(headers: seq<string>, cells: seq<string>, n: nat): (row: Row)
    requires n <= |headers|
    ensures RowPrefix(headers, cells, n, row)
    decreases n
  {
    if n == 0 then
      assert HeaderSet(headers, 0) == {};
      map[]
    else
      var prev := RowOf(headers, cells, n - 1);
      var row := prev[headers[n - 1] := Field(cells, n - 1)];
      RowStep(headers, cells, n, prev);
      row
  }

  /** `row` is what assigning the first `n` headers gives: their names as keys,
      each holding the field of its last column. */
  predicate RowPrefix(headers: seq<string>, cells: seq<string>, n: nat, row: Row)
    requires n <= |headers|
  {
    && row.Keys == HeaderSet(headers, n)
    && forall j :: 0 <= j < n && LastAt(headers, n, headers[j], j) ==> row[headers[j]] == Field(cells, j)
  }

  /** Assigning header `n - 1` extends a row of the first `n - 1` headers. */
  lemma RowStep(headers: seq<string>, cells: seq<string>, n: nat, prev: Row)
    requires 0 < n <= |headers| && RowPrefix(headers, cells, n - 1, prev)
    ensures RowPrefix(headers, cells, n, prev[headers[n - 1] := Field(cells, n - 1)])
  {
    var row := prev[headers[n - 1] := Field(cells, n - 1)];
    HeaderSetStep(headers, n);
    forall j | 0 <= j < n && LastAt(headers, n, headers[j], j)
      ensures row[headers[j]] == Field(cells, j)
    {
      if j < n - 1 {
        LastAtDrop(headers, n, j);
      }
    }
  }

  /** A last position before the final header is still last without it. */
  lemma LastAtDrop(headers: seq<string>, n: nat, j: nat)
    requires 0 < n <= |headers| && j < n - 1 && LastAt(headers, n, headers[j], j)
    ensures headers[j] != headers[n - 1] && LastAt(headers, n - 1, headers[j], j)
  {
  }

  /** `row` holds one key per header name, and under each name the field of the
      last column that carries it. */
  predicate RowReads(headers: seq<string>, cells: seq<string>, row: Row) {
    && row.Keys == HeaderSet(headers, |headers|)
    && forall j :: 0 <= j < |headers| && LastAt(headers, |headers|, headers[j], j) ==>
      row[headers[j]] == Field(cells, j)
  }

  /** One data line read against the header names. */
  function ReadRow(headers: seq<string>, line: string): (row: Row)
    ensures RowReads(headers, Cells(line), row)
  {
    assert RowPrefix(headers, Cells(line), |headers|, RowOf(headers, Cells(line), |headers|));
    RowOf(headers, Cells(line), |headers|)
  }

  /** The data lines read against the header names, in order. */
  function ReadRows(headers: seq<string>, data: seq<string>): (rows: seq<Row>)
    ensures |rows| == |data|
    ensures forall i :: 0 <= i < |rows| ==> RowReads(headers, Cells(data[i]), rows[i])
  {
    seq(|data|, i requires 0 <= i < |data| => ReadRow(headers, data[i]))
  }

  /** The rows of the non-blank lines: none for fewer than two lines, otherwise
      the first line names the columns and every later one is a row. */
  function ParseLines(lines: seq<string>): (rows: seq<Row>)
    ensures |lines| < 2 ==> rows == []
    ensures |lines| >= 2 ==> |rows| == |lines| - 1
    ensures forall i :: 0 <= i < |rows| ==> RowReads(Cells(lines[0]), Cells(lines[i + 1]), rows[i])
  {
    if |lines| < 2 then []
    else
      var headers, data := Cells(lines[0]), lines[1..];
      var rows := ReadRows(headers, data);
      assert forall i :: 0 <= i < |rows| ==> RowReads(headers, Cells(lines[i + 1]), rows[i]) by {
        forall i | 0 <= i < |rows| ensures RowReads(headers, Cells(lines[i + 1]), rows[i]) {
          assert data[i] == lines[i + 1];
        }
      }
      rows
  }

  /** `parseCSV(csvText)`: blank lines are dropped before anything else. */
  function ParseCsv(csvText: string): (rows: seq<Row>)
    ensures |Lines(csvText)| < 2 ==> rows == []
    ensures |Lines(csvText)| >= 2 ==> |rows| == |Lines(csvText)| - 1
    ensures forall i :: 0 <= i < |rows| ==>
      RowReads(Cells(Lines(csvText)[0]), Cells(Lines(csvText)[i + 1]), rows[i])
  {
    ParseLines(Lines(csvText))
  }

  /** A whitespace-only line anywhere in the text changes nothing. */
  lemma BlankLineIgnored(a: string, ws: string, b: string)
    requires '\n' !in ws && BlankLine(ws)
    ensures ParseCsv(a + "\n" + ws + "\n" + b) == ParseCsv(a + "\n" + b)
  {
    var p := (l: string) => !BlankLine(l);
    assert a + "\n" + ws + "\n" + b == a + ['\n'] + (ws + ['\n'] + b);
    assert a + "\n" + b == a + ['\n'] + b;
    SplitConcat(a, ws + ['\n'] + b, '\n');
    SplitConcat(ws, b, '\n');
    SplitConcat(a, b, '\n');
    SplitNone(ws, '\n');
    FilterConcat(Split(a, '\n'), [ws] + Split(b, '\n'), p);
    FilterConcat([ws], Split(b, '\n'), p);
    FilterConcat(Split(a, '\n'), Split(b, '\n'), p);
    assert Filter([ws], p) == [];
    assert Lines(a + "\n" + ws + "\n" + b) == Lines(a + "\n" + b);
    assert ParseCsv(a + "\n" + ws + "\n" + b) == ParseLines(Lines(a + "\n" + ws + "\n" + b));
  }

  /** A final whitespace-only line leaves the non-blank lines alone. */
  lemma LinesAppendBlank(a: string, ws: string)
    requires '\n' !in ws && BlankLine(ws)
    ensures Lines(a + ['\n'] + ws) == Lines(a)
  {
    var p := (l: string) => !BlankLine(l);
    var parts := Split(a, '\n');
    calc {
      Lines(a + ['\n'] + ws);
      Filter(Split(a + ['\n'] + ws, '\n'), p);
      == { SplitConcat(a, ws, '\n'); SplitNone(ws, '\n'); }
      Filter(parts + [ws], p);
      == { FilterAppendOne(parts, ws, p); }
      Filter(parts, p);
    }
  }

  /** A trailing newline adds no row. */
  lemma TrailingNewlineIgnored(csvText: string)
    ensures ParseCsv(csvText + "\n") == ParseCsv(csvText)
  {
    var empty: string := [];
    assert csvText + "\n" == csvText + ['\n'] + empty;
    LinesAppendBlank(csvText, empty);
    assert ParseCsv(csvText + "\n") == ParseLines(Lines(csvText + "\n"));
  }

  // ---------------------------------------------------------------------------
  // the POST handler

  const NameColumn: string := "facultyName"
  const EmailColumn: string := "email"
  const ImageColumn: string := "imgURL"

  /** `row.key`, where an absent key reads as the falsy `undefined`. */
  function Get(row: Row, key: string): string {
    if key in row then row[key] else ""
  }

  /** `!row.facultyName && !row.email`: a row the import skips. */
  predicate Blank(row: Row) {
    Get(row, NameColumn) == "" && Get(row, EmailColumn) == ""
  }

  /** The values upserted for a row; an empty image link is stored as `null`. */
  datatype Faculty = Faculty(facultyName: string, email: string, imgUrl: Option<string>)

  function ToFaculty(row: Row): Faculty {
    var img := Get(row, ImageColumn);
    Faculty(Get(row, NameColumn), Get(row, EmailColumn), if img == "" then None else Some(img))
  }

  function ToFacultyAll(rows: seq<Row>): (fs: seq<Faculty>)
    ensures |fs| == |rows| && forall k :: 0 <= k < |rows| ==> fs[k] == ToFaculty(rows[k])
  {
    seq(|rows|, k requires 0 <= k < |rows| => ToFaculty(rows[k]))
  }

  /** The rows the import attempts: the non-blank ones, in order. */
  function Attempted(rows: seq<Row>): (r: seq<Row>)
    ensures |r| <= |rows|
    decreases |rows|
  {
    if |rows| == 0 then []
    else (if Blank(rows[0]) then [] else [rows[0]]) + Attempted(rows[1..])
  }

  /** A row is attempted exactly when it is present and not blank. */
  lemma {:induction false} AttemptedMembers(rows: seq<Row>, x: Row)
    ensures x in Attempted(rows) <==> x in rows && !Blank(x)
    decreases |rows|
  {
    if |rows| > 0 {
      AttemptedMembers(rows[1..], x);
      assert rows == [rows[0]] + rows[1..];
    }
  }

  lemma {:induction false} AttemptedAppend(rows: seq<Row>, row: Row)
    ensures Attempted(rows + [row]) == Attempted(rows) + (if Blank(row) then [] else [row])
    decreases |rows|
  {
    if |rows| == 0 {
      assert rows + [row] == [row];
      assert [row][1..] == [];
    } else {
      assert (rows + [row])[0] == rows[0] && (rows + [row])[1..] == rows[1..] + [row];
      AttemptedAppend(rows[1..], row);
    }
  }

  /** One more row adds one attempt unless it is blank. */
  lemma AttemptedStep(rows: seq<Row>, i: nat)
    requires i < |rows|
    ensures |Attempted(rows[..i + 1])| == |Attempted(rows[..i])| + (if Blank(rows[i]) then 0 else 1)
    ensures ToFacultyAll(Attempted(rows[..i + 1]))
      == ToFacultyAll(Attempted(rows[..i])) + (if Blank(rows[i]) then [] else [ToFaculty(rows[i])])
  {
    assert rows[..i + 1] == rows[..i] + [rows[i]];
    AttemptedAppend(rows[..i], rows[i]);
    if !Blank(rows[i]) {
      ToFacultyAllAppend(Attempted(rows[..i]), rows[i]);
    } else {
      assert Attempted(rows[..i]) + [] == Attempted(rows[..i]);
    }
  }

  lemma ToFacultyAllAppend(rows: seq<Row>, row: Row)
    ensures ToFacultyAll(rows + [row]) == ToFacultyAll(rows) + [ToFaculty(row)]
  {
  }

  /** A failed upsert: the row's number counted from 1 and the database's message. */
  datatype RowFailure = RowFailure(row: nat, message: string)

  /** How a failure is reported in the response's `errors` list. */
  function FailureText(e: RowFailure): string {
    "Row " + NatToString(e.row) + ": " + e.message
  }

  /** Row `i` is attempted, and its upsert succeeds (`ok`) or fails (`!ok`). */
  predicate Outcome(rows: seq<Row>, failure: nat -> Option<string>, i: nat, ok: bool)
    requires i < |rows|
  {
    !Blank(rows[i]) && failure(i).None? == ok
  }

  /** The positions among the first `n` rows with the given outcome, in increasing
      order: every such position and no other. */
  function Positions(rows: seq<Row>, failure: nat -> Option<string>, n: nat, ok: bool): (ps: seq<nat>)
    requires n <= |rows|
    ensures forall k :: 0 <= k < |ps| ==> ps[k] < n && Outcome(rows, failure, ps[k], ok)
    ensures forall k, l :: 0 <= k < l < |ps| ==> ps[k] < ps[l]
    ensures forall i :: 0 <= i < n && Outcome(rows, failure, i, ok) ==> i in ps
    decreases n
  {
    if n == 0 then []
    else
      var ps := Positions(rows, failure, n - 1, ok);
      if Outcome(rows, failure, n - 1, ok) then ps + [n - 1] else ps
  }

  /** `errors` reports the failing rows among the first `n`, in row order. */
  predicate ReportsFailures(rows: seq<Row>, failure: nat -> Option<string>, n: nat, errors: seq<RowFailure>)
    requires n <= |rows|
  {
    var failed := Positions(rows, failure, n, false);
    |errors| == |failed|
    && forall k :: 0 <= k < |errors| ==> errors[k] == RowFailure(failed[k] + 1, failure(failed[k]).value)
  }

  /** `written` holds the upserts of the succeeding rows among the first `n`, in row order. */
  predicate WritesSuccesses(rows: seq<Row>, failure: nat -> Option<string>, n: nat, written: seq<Faculty>)
    requires n <= |rows|
  {
    var upserted := Positions(rows, failure, n, true);
    |written| == |upserted|
    && forall k :: 0 <= k < |written| ==> written[k] == ToFaculty(rows[upserted[k]])
  }

  lemma ReportsStep(rows: seq<Row>, failure: nat -> Option<string>, i: nat, errors: seq<RowFailure>, next: seq<RowFailure>)
    requires i < |rows| && ReportsFailures(rows, failure, i, errors)
    requires next == if Outcome(rows, failure, i, false) then errors + [RowFailure(i + 1, failure(i).value)] else errors
    ensures ReportsFailures(rows, failure, i + 1, next)
  {
    var ps, ps' := Positions(rows, failure, i, false), Positions(rows, failure, i + 1, false);
    if Outcome(rows, failure, i, false) {
      assert ps' == ps + [i];
      forall k | 0 <= k < |next|
        ensures next[k] == RowFailure(ps'[k] + 1, failure(ps'[k]).value)
      {
        if k < |errors| {
          assert ps'[k] == ps[k];
        }
      }
    } else {
      assert ps' == ps;
    }
  }

  lemma WritesStep(rows: seq<Row>, failure: nat -> Option<string>, i: nat, written: seq<Faculty>, next: seq<Faculty>)
    requires i < |rows| && WritesSuccesses(rows, failure, i, written)
    requires next == if Outcome(rows, failure, i, true) then written + [ToFaculty(rows[i])] else written
    ensures WritesSuccesses(rows, failure, i + 1, next)
  {
    var ps, ps' := Positions(rows, failure, i, true), Positions(rows, failure, i + 1, true);
    if Outcome(rows, failure, i, true) {
      assert ps' == ps + [i];
      forall k | 0 <= k < |next|
        ensures next[k] == ToFaculty(rows[ps'[k]])
      {
        if k < |written| {
          assert ps'[k] == ps[k];
        }
      }
    } else {
      assert ps' == ps;
    }
  }

  /** The failures reported over the first `n` rows, row by row. */
  function Failures(rows: seq<Row>, failure: nat -> Option<string>, n: nat): seq<RowFailure>
    requires n <= |rows|
    decreases n
  {
    if n == 0 then []
    else
      Failures(rows, failure, n - 1)
      + if Outcome(rows, failure, n - 1, false) then [RowFailure(n, failure(n - 1).value)] else []
  }

  /** The upserts made over the first `n` rows, row by row. */
  function Upserts(rows: seq<Row>, failure: nat -> Option<string>, n: nat): seq<Faculty>
    requires n <= |rows|
    decreases n
  {
    if n == 0 then []
    else
      Upserts(rows, failure, n - 1)
      + if Outcome(rows, failure, n - 1, true) then [ToFaculty(rows[n - 1])] else []
  }

  /** Row by row, the failures are the failing positions in order. */
  lemma {:induction false} FailuresReported(rows: seq<Row>, failure: nat -> Option<string>, n: nat)
    requires n <= |rows|
    ensures ReportsFailures(rows, failure, n, Failures(rows, failure, n))
    decreases n
  {
    if n > 0 {
      var prev := Failures(rows, failure, n - 1);
      FailuresReported(rows, failure, n - 1);
      ReportsStep(rows, failure, n - 1, prev, Failures(rows, failure, n));
    }
  }

  /** Row by row, the upserts are those of the succeeding positions in order. */
  lemma {:induction false} UpsertsWritten(rows: seq<Row>, failure: nat -> Option<string>, n: nat)
    requires n <= |rows|
    ensures WritesSuccesses(rows, failure, n, Upserts(rows, failure, n))
    decreases n
  {
    if n > 0 {
      var prev := Upserts(rows, failure, n - 1);
      UpsertsWritten(rows, failure, n - 1);
      WritesStep(rows, failure, n - 1, prev, Upserts(rows, failure, n));
    }
  }

  /** Every attempted row is either upserted or reported, and with no database
      failure the upserts are the attempted rows themselves. */
  lemma {:induction false} ImportSummary(rows: seq<Row>, failure: nat -> Option<string>, n: nat)
    requires n <= |rows|
    ensures |Upserts(rows, failure, n)| + |Failures(rows, failure, n)| == |Attempted(rows[..n])|
    ensures (forall i :: 0 <= i < n ==> failure(i).None?) ==>
      Upserts(rows, failure, n) == ToFacultyAll(Attempted(rows[..n])) && Failures(rows, failure, n) == []
    decreases n
  {
    if n > 0 {
      ImportSummary(rows, failure, n - 1);
      AttemptedStep(rows, n - 1);
    }
  }

  /** The import loop. `failure(i)` is the error the database reports for row `i`
      (`None` when its upsert succeeds); blank rows are skipped without one. The
      errors name exactly the failing non-blank rows, numbered from 1, and the
      upserts are exactly the succeeding ones, both in row order. */
  method ImportRows(rows: seq<Row>, failure: nat -> Option<string>)
    returns (count: nat, errors: seq<RowFailure>, written: seq<Faculty>)
    ensures count == |written| <= |rows|
    ensures count + |errors| == |Attempted(rows)|
    ensures (forall i :: 0 <= i < |rows| ==> failure(i).None?) ==>
      written == ToFacultyAll(Attempted(rows)) && errors == []
    ensures ReportsFailures(rows, failure, |rows|, errors)
    ensures WritesSuccesses(rows, failure, |rows|, written)
  {
    count, errors, written := 0, [], [];
    var i := 0;
    while i < |rows|
      invariant 0 <= i <= |rows|
      invariant count == |written| <= i
      invariant errors == Failures(rows, failure, i)
      invariant written == Upserts(rows, failure, i)
    {
      if !Blank(rows[i]) {
        match failure(i) {
          case None =>
            assert Outcome(rows, failure, i, true) && !Outcome(rows, failure, i, false);
            count := count + 1;
            written := written + [ToFaculty(rows[i])];
          case Some(message) =>
            assert Outcome(rows, failure, i, false) && !Outcome(rows, failure, i, true);
            errors := errors + [RowFailure(i + 1, message)];
        }
      } else {
        assert !Outcome(rows, failure, i, false) && !Outcome(rows, failure, i, true);
      }
      i := i + 1;
    }
    assert rows[..i] == rows;
    ImportSummary(rows, failure, i);
    FailuresReported(rows, failure, i);
    UpsertsWritten(rows, failure, i);
  }

  /** The signed-in user as the handler sees it; the session itself may be absent. */
  datatype Session = Session(email: Attr, userRole: Attr)

  /** The JSON response: an error with its HTTP status, or the import summary (the
      `errors` list is omitted when empty) with the upserts that were made. */
  datatype Response =
    | Failure(status: nat, error: string)
    | Imported(message: string, errors: Option<seq<RowFailure>>, written: seq<Faculty>)

  predicate SignedIn(session: Option<Session>) {
    session.Some? && Truthy(session.value.email)
  }

  predicate IsAdmin(session: Option<Session>) {
    SignedIn(session) && session.value.userRole == Text("admin")
  }

  /** The handler's column check: the first row's name and email are both truthy. */
  predicate FirstRowHasColumns(rows: seq<Row>)
    requires |rows| > 0
  {
    Get(rows[0], NameColumn) != "" && Get(rows[0], EmailColumn) != ""
  }

  /** `POST`: 401 unless signed in, 403 unless an admin, 400 for a missing file,
      a file with no rows, or a first row without a name or an email; otherwise
      every non-blank row is upserted. Failures of reading the request are not
      modelled. */
  method Post(session: Option<Session>, file: Option<string>, failure: nat -> Option<string>)
    returns (resp: Response)
    ensures !SignedIn(session) <==> resp == Failure(401, "Not logged in")
    ensures SignedIn(session) && !IsAdmin(session) <==> resp == Failure(403, "Only admins can import data")
    ensures resp.Failure? ==> resp.status in {400, 401, 403}
    ensures resp.Failure? && resp.status == 400 <==>
      IsAdmin(session) && (file.None? || ParseCsv(file.value) == [] || !FirstRowHasColumns(ParseCsv(file.value)))
    ensures resp.Imported? ==>
      IsAdmin(session) && file.Some? && ParseCsv(file.value) != [] && FirstRowHasColumns(ParseCsv(file.value))
      && |resp.written| <= |ParseCsv(file.value)|
      && |resp.written| + (if resp.errors.Some? then |resp.errors.value| else 0) == |Attempted(ParseCsv(file.value))|
      && resp.message == "Imported " + NatToString(|resp.written|) + " faculty members"
      && (resp.errors.Some? ==> resp.errors.value != [])
      && ReportsFailures(ParseCsv(file.value), failure, |ParseCsv(file.value)|,
           if resp.errors.Some? then resp.errors.value else [])
      && WritesSuccesses(ParseCsv(file.value), failure, |ParseCsv(file.value)|, resp.written)
  {
    if !SignedIn(session) {
      return Failure(401, "Not logged in");
    }
    if session.value.userRole != Text("admin") {
      return Failure(403, "Only admins can import data");
    }
    if file.None? {
      return Failure(400, "No file uploaded");
    }
    var rows := ParseCsv(file.value);
    if |rows| == 0 {
      return Failure(400, "No data found in CSV");
    }
    if !FirstRowHasColumns(rows) {
      return Failure(400, "CSV must have facultyName and email columns");
    }
    var count, errors, written := ImportRows(rows, failure);
    resp := Imported("Imported " + NatToString(count) + " faculty members",
      if |errors| > 0 then Some(errors) else None, written);
  }

  /** The column check reads the first row's values, not the header: a file that
      names both columns but whose first row leaves them empty is refused, although
      the import loop would merely skip that row. */
  lemma BlankFirstRowRefused(rows: seq<Row>)
    requires |rows| > 0 && NameColumn in rows[0] && EmailColumn in rows[0] && Blank(rows[0])
    ensures !FirstRowHasColumns(rows)
    ensures rows[0] !in Attempted(rows)
  {
    AttemptedMembers(rows, rows[0]);
  }

  lemma KeysOfRead(headers: seq<string>, cells: seq<string>, row: Row)
    requires RowReads(headers, cells, row)
    ensures row.Keys == HeaderSet(headers, |headers|)
  {
  }

  /** Once the first row passes the check, every row has both columns, since all
      rows share the header's keys. */
  lemma ColumnsInEveryRow(csvText: string)
    requires ParseCsv(csvText) != [] && FirstRowHasColumns(ParseCsv(csvText))
    ensures forall i :: 0 <= i < |ParseCsv(csvText)| ==>
      NameColumn in ParseCsv(csvText)[i] && EmailColumn in ParseCsv(csvText)[i]
  {
    var rows := ParseCsv(csvText);
    var lines := Lines(csvText);
    var headers := Cells(lines[0]);
    KeysOfRead(headers, Cells(lines[1]), rows[0]);
    forall i | 0 <= i < |rows| ensures NameColumn in rows[i] && EmailColumn in rows[i] {
      KeysOfRead(headers, Cells(lines[i + 1]), rows[i]);
    }
  }
}

=== FILE: js_text.dfy ===
/** The JavaScript string and number primitives the source relies on:
    `trim`, `toLowerCase`/`toUpperCase`, `split` on one character, `includes`,
    `padStart`, `Number(..)`, `parseInt(..)`, `toString()` and the `%` operator. */
module JsText {
  import opened Base

  /** The characters JavaScript's `trim()` removes and `\s` matches
      (WhiteSpace and LineTerminator of ECMA-262). */
  predicate IsWhitespace(c: char) {
    || c == ' ' || c == '\t' || c == '\n' || c == '\r'
    || c == '\U{B}' || c == '\U{C}' || c == '\U{A0}' || c == '\U{1680}'
    || ('\U{2000}' <= c <= '\U{200A}')
    || c == '\U{2028}' || c == '\U{2029}' || c == '\U{202F}' || c == '\U{205F}'
    || c == '\U{3000}' || c == '\U{FEFF}'
  }

  predicate NoWhitespace(s: string) {
    forall i :: 0 <= i < |s| ==> !IsWhitespace(s[i])
  }

  /** Leading whitespace removed (`trimStart`). */
  function TrimStart(s: string): (r: string)
    ensures |r| <= |s| && r == s[|s| - |r|..]
    ensures forall i :: 0 <= i < |s| - |r| ==> IsWhitespace(s[i])
    ensures |r| == 0 || !IsWhitespace(r[0])
    decreases |s|
  {
    if |s| > 0 && IsWhitespace(s[0]) then TrimStart(s[1..]) else s
  }

  /** Trailing whitespace removed (`trimEnd`). */
  function TrimEnd(s: string): (r: string)
    ensures |r| <= |s| && r == s[..|r|]
    ensures forall i :: |r| <= i < |s| ==> IsWhitespace(s[i])
    ensures |r| == 0 || !IsWhitespace(r[|r| - 1])
    decreases |s|
  {
    if |s| > 0 && IsWhitespace(s[|s| - 1]) then TrimEnd(s[..|s| - 1]) else s
  }

  /** `s.trim()`. */
  function Trim(s: string): (r: string)
    ensures |r| == 0 || (!IsWhitespace(r[0]) && !IsWhitespace(r[|r| - 1]))
    ensures |r| <= |s|
  {
    var t := TrimStart(s);
    var r := TrimEnd(t);
    assert |r| == 0 || r[0] == t[0];
    r
  }

  /** A string that neither starts nor ends with whitespace is left alone by `trim()`. */
  lemma TrimNoEdges(s: string)
    requires |s| == 0 || (!IsWhitespace(s[0]) && !IsWhitespace(s[|s| - 1]))
    ensures Trim(s) == s
  {
  }

  /** `trim()` only removes characters. */
  lemma TrimSubstring(s: string)
    ensures forall c :: c in Trim(s) ==> c in s
  {
    var t := TrimStart(s);
    forall c | c in Trim(s) ensures c in s {
      var i :| 0 <= i < |Trim(s)| && Trim(s)[i] == c;
      assert Trim(s)[i] == t[i];
      assert t[i] == s[|s| - |t| + i];
    }
  }

  /** `trim()` is idempotent. */
  lemma TrimIdempotent(s: string)
    ensures Trim(Trim(s)) == Trim(s)
  {
    TrimNoEdges(Trim(s));
  }

  lemma NoWhitespaceTrim(s: string)
    requires NoWhitespace(s)
    ensures Trim(s) == s
  {
    TrimNoEdges(s);
  }

  /** ASCII case mapping; the source's `toLowerCase`/`toUpperCase` are modelled on A-Z/a-z only. */
  function LowerChar(c: char): char {
    if 'A' <= c <= 'Z' then (c as int + 32) as char else c
  }

  function UpperChar(c: char): char {
    if 'a' <= c <= 'z' then (c as int - 32) as char else c
  }

  function Lower(s: string): (r: string)
    ensures |r| == |s|
    ensures forall i :: 0 <= i < |s| ==> r[i] == LowerChar(s[i])
  {
    seq(|s|, i requires 0 <= i < |s| => LowerChar(s[i]))
  }

  function Upper(s: string): (r: string)
    ensures |r| == |s|
    ensures forall i :: 0 <= i < |s| ==> r[i] == UpperChar(s[i])
  {
    seq(|s|, i requires 0 <= i < |s| => UpperChar(s[i]))
  }

  lemma LowerAppend(a: string, b: string)
    ensures Lower(a + b) == Lower(a) + Lower(b)
  {
  }

  /** Lower-casing and trimming commute: case mapping never touches whitespace. */
  lemma {:induction false} LowerTrimCommute(s: string)
    ensures Lower(Trim(s)) == Trim(Lower(s))
  {
    LowerTrimStart(s);
    LowerTrimEnd(TrimStart(s));
  }

  /** Case mapping neither creates nor removes whitespace. */
  lemma LowerCharWhitespace(c: char)
    ensures IsWhitespace(LowerChar(c)) == IsWhitespace(c)
  {
  }

  lemma {:induction false} LowerTrimStart(s: string)
    ensures Lower(TrimStart(s)) == TrimStart(Lower(s))
    decreases |s|
  {
    if |s| > 0 {
      var l := Lower(s);
      assert l[0] == LowerChar(s[0]);
      assert l[1..] == Lower(s[1..]);
      LowerCharWhitespace(s[0]);
      if IsWhitespace(s[0]) {
        LowerTrimStart(s[1..]);
        assert TrimStart(l) == TrimStart(l[1..]);
      } else {
        assert TrimStart(s) == s;
        assert TrimStart(l) == l;
      }
    }
  }

  lemma {:induction false} LowerTrimEnd(s: string)
    ensures Lower(TrimEnd(s)) == TrimEnd(Lower(s))
    decreases |s|
  {
    if |s| > 0 {
      var l := Lower(s);
      assert l[|s| - 1] == LowerChar(s[|s| - 1]);
      assert l[..|s| - 1] == Lower(s[..|s| - 1]);
      LowerCharWhitespace(s[|s| - 1]);
      if IsWhitespace(s[|s| - 1]) {
        LowerTrimEnd(s[..|s| - 1]);
        assert TrimEnd(l) == TrimEnd(l[..|s| - 1]);
      } else {
        assert TrimEnd(s) == s;
        assert TrimEnd(l) == l;
      }
    }
  }

  // ---------------------------------------------------------------------------
  // split / join on one separator character

  /** `s.split(sep)` for a one-character separator: always at least one part,
      an empty string gives `[""]`, and every occurrence of `sep` ends a part. */
  function Split(s: string, sep: char): (parts: seq<string>)
    ensures |parts| >= 1
    decreases |s|
  {
    if |s| == 0 then [""]
    else
      var rest := Split(s[1..], sep);
      if s[0] == sep then [""] + rest
      else [[s[0]] + rest[0]] + rest[1..]
  }

  /** `parts.join(sep)`. */
  function Join(parts: seq<string>, sep: char): string
    decreases |parts|
  {
    if |parts| == 0 then ""
    else if |parts| == 1 then parts[0]
    else parts[0] + [sep] + Join(parts[1..], sep)
  }

  function CountChar(s: string, c: char): nat
    decreases |s|
  {
    if |s| == 0 then 0 else (if s[0] == c then 1 else 0) + CountChar(s[1..], c)
  }

  /** No part produced by `split` contains the separator. */
  lemma {:induction false} SplitPartsFree(s: string, sep: char)
    ensures forall p :: p in Split(s, sep) ==> sep !in p
    decreases |s|
  {
    if |s| > 0 {
      SplitPartsFree(s[1..], sep);
      var rest := Split(s[1..], sep);
      if s[0] != sep {
        assert rest[0] in rest;
        forall p | p in rest[1..] ensures p in rest { }
      }
    }
  }

  /** Every occurrence of the separator splits a field: n separators give n + 1 parts. */
  lemma {:induction false} SplitCount(s: string, sep: char)
    ensures |Split(s, sep)| == CountChar(s, sep) + 1
    decreases |s|
  {
    if |s| > 0 {
      SplitCount(s[1..], sep);
    }
  }

  /** Joining the parts again with the separator gives back the text. */
  lemma {:induction false} SplitJoin(s: string, sep: char)
    ensures Join(Split(s, sep), sep) == s
    decreases |s|
  {
    if |s| > 0 {
      var rest := Split(s[1..], sep);
      SplitJoin(s[1..], sep);
      if s[0] == sep {
        assert Split(s, sep) == [""] + rest;
        assert (([""] + rest)[1..]) == rest;
        assert s == [sep] + s[1..];
      } else {
        var parts := Split(s, sep);
        assert parts == [[s[0]] + rest[0]] + rest[1..];
        if |rest| == 1 {
          assert s == [s[0]] + rest[0];
        } else {
          assert parts[1..] == rest[1..];
          assert Join(rest, sep) == rest[0] + [sep] + Join(rest[1..], sep);
          assert s == [s[0]] + s[1..];
        }
      }
    }
  }

  /** Splitting `a + b` where `a` has no separator glues `a` onto the first part of `b`. */
  lemma {:induction false} SplitPrefixFree(a: string, b: string, sep: char)
    requires sep !in a
    ensures Split(a + b, sep) == [a + Split(b, sep)[0]] + Split(b, sep)[1..]
    decreases |a|
  {
    if |a| > 0 {
      assert (a + b)[0] == a[0];
      assert (a + b)[1..] == a[1..] + b;
      SplitPrefixFree(a[1..], b, sep);
      assert [a[0]] + (a[1..] + Split(b, sep)[0]) == a + Split(b, sep)[0];
    } else {
      assert a + b == b;
      assert a + Split(b, sep)[0] == Split(b, sep)[0];
      assert Split(b, sep) == [Split(b, sep)[0]] + Split(b, sep)[1..];
    }
  }

  /** Splitting a join of separator-free parts gives back the parts. */
  lemma {:induction false} JoinSplit(parts: seq<string>, sep: char)
    requires |parts| >= 1
    requires forall p :: p in parts ==> sep !in p
    ensures Split(Join(parts, sep), sep) == parts
    decreases |parts|
  {
    if |parts| == 1 {
      SplitPrefixFree(parts[0], "", sep);
      assert parts[0] + "" == parts[0];
    } else {
      var tail := parts[1..];
      forall p | p in tail ensures sep !in p { assert p in parts; }
      JoinSplit(tail, sep);
      var rest := Join(tail, sep);
      assert parts[0] in parts;
      assert Join(parts, sep) == parts[0] + ([sep] + rest);
      SplitPrefixFree(parts[0], [sep] + rest, sep);
      assert ([sep] + rest)[1..] == rest;
      assert Split([sep] + rest, sep) == [""] + tail;
      assert parts[0] + "" == parts[0];
      assert parts == [parts[0]] + tail;
    }
  }

  /** A separator between two texts separates their parts. */
  lemma {:induction false} SplitConcat(a: string, b: string, sep: char)
    ensures Split(a + [sep] + b, sep) == Split(a, sep) + Split(b, sep)
    decreases |a|
  {
    var s := a + [sep] + b;
    if |a| == 0 {
      assert s == [sep] + b && s[1..] == b;
    } else {
      assert s[0] == a[0] && s[1..] == a[1..] + [sep] + b;
      SplitConcat(a[1..], b, sep);
      var ra := Split(a[1..], sep);
      if a[0] != sep {
        assert (ra + Split(b, sep))[0] == ra[0];
        assert (ra + Split(b, sep))[1..] == ra[1..] + Split(b, sep);
      }
    }
  }

  /** A text without the separator is a single part. */
  lemma SplitNone(a: string, sep: char)
    requires sep !in a
    ensures Split(a, sep) == [a]
  {
    SplitPrefixFree(a, "", sep);
    assert a + "" == a;
  }

  /** Two separator-free pieces: `(a + sep + b).split(sep) == [a, b]`. */
  lemma SplitTwo(a: string, b: string, sep: char)
    requires sep !in a && sep !in b
    ensures Split(a + [sep] + b, sep) == [a, b]
  {
    JoinSplit([a, b], sep);
    assert Join([a, b], sep) == a + [sep] + Join([b], sep);
  }

  // ---------------------------------------------------------------------------
  // substring search and padding

  predicate StartsWith(s: string, prefix: string) {
    |prefix| <= |s| && s[..|prefix|] == prefix
  }

  /** `t` occurs in `s` starting at position `i`. */
  predicate OccursAt(s: string, t: string, i: int) {
    0 <= i && i + |t| <= |s| && s[i..i + |t|] == t
  }

  /** `s.includes(t)`. */
  predicate Includes(s: string, t: string)
    decreases |s|
  {
    StartsWith(s, t) || (|s| > 0 && Includes(s[1..], t))
  }

  /** `includes` holds exactly when the term occurs at some position. */
  lemma {:induction false} IncludesIff(s: string, t: string)
    ensures Includes(s, t) <==> exists i :: OccursAt(s, t, i)
    decreases |s|
  {
    if |s| > 0 {
      IncludesIff(s[1..], t);
      if StartsWith(s, t) {
        assert s[0..|t|] == s[..|t|];
        assert OccursAt(s, t, 0);
      }
      if Includes(s[1..], t) {
        var i :| OccursAt(s[1..], t, i);
        assert s[i + 1..i + 1 + |t|] == s[1..][i..i + |t|];
        assert OccursAt(s, t, i + 1);
      }
      if exists i :: OccursAt(s, t, i) {
        var i :| OccursAt(s, t, i);
        if i == 0 {
          assert s[..|t|] == s[0..|t|];
        } else {
          assert s[1..][i - 1..i - 1 + |t|] == s[i..i + |t|];
          assert OccursAt(s[1..], t, i - 1);
        }
      }
    } else {
      if exists i :: OccursAt(s, t, i) {
        var i :| OccursAt(s, t, i);
        assert |t| == 0 && t == s[..0];
        assert StartsWith(s, t);
      }
      if Includes(s, t) {
        assert s[0..|t|] == t;
        assert OccursAt(s, t, 0);
      }
    }
  }

  /** Text found in a part is found in any text that contains that part. */
  lemma IncludesAppend(a: string, b: string, t: string)
    ensures Includes(a, t) ==> Includes(a + b, t)
    ensures Includes(b, t) ==> Includes(a + b, t)
  {
    IncludesIff(a, t);
    IncludesIff(b, t);
    IncludesIff(a + b, t);
    if Includes(a, t) {
      var i :| OccursAt(a, t, i);
      assert (a + b)[i..i + |t|] == a[i..i + |t|];
      assert OccursAt(a + b, t, i);
    }
    if Includes(b, t) {
      var i :| OccursAt(b, t, i);
      assert (a + b)[|a| + i..|a| + i + |t|] == b[i..i + |t|];
      assert OccursAt(a + b, t, |a| + i);
    }
  }

  function Repeat(c: char, n: nat): (r: string)
    ensures |r| == n && forall i :: 0 <= i < n ==> r[i] == c
  {
    seq(n, _ => c)
  }

  /** `s.padStart(width, c)` with a one-character pad. */
  function PadStart(s: string, width: nat, c: char): (r: string)
    ensures |r| == if |s| >= width then |s| else width
    ensures r[|r| - |s|..] == s
  {
    if |s| >= width then s else Repeat(c, width - |s|) + s
  }

  // ---------------------------------------------------------------------------
  // decimal numbers

  predicate IsDigit(c: char) {
    '0' <= c <= '9'
  }

  predicate AllDigits(s: string) {
    forall i :: 0 <= i < |s| ==> IsDigit(s[i])
  }

  function DigitChar(d: nat): (c: char)
    requires d < 10
    ensures IsDigit(c)
  {
    ('0' as int + d) as char
  }

  function DigitsValue(s: string): nat
    requires AllDigits(s)
    decreases |s|
  {
    if |s| == 0 then 0
    else DigitsValue(s[..|s| - 1]) * 10 + (s[|s| - 1] as int - '0' as int)
  }

  /** `n.toString()` for a non-negative integer: canonical decimal digits that
      read back as `n`. */
  function NatToString(n: nat): (r: string)
    ensures |r| >= 1 && AllDigits(r)
    ensures DigitsValue(r) == n
    ensures r[0] == '0' ==> n == 0
    decreases n
  {
    if n < 10 then [DigitChar(n)]
    else
      var r := NatToString(n / 10) + [DigitChar(n % 10)];
      assert r[..|r| - 1] == NatToString(n / 10);
      r
  }

  /** Different numbers print differently. */
  lemma NatToStringInjective(a: nat, b: nat)
    requires NatToString(a) == NatToString(b)
    ensures a == b
  {
  }

  /** `i.toString()` (`${i}`) for any integer. */
  function IntToString(i: int): string {
    if i < 0 then "-" + NatToString(-i) else NatToString(i)
  }

  /** The longest prefix of decimal digits. */
  function LeadingDigits(s: string): (r: string)
    ensures |r| <= |s| && r == s[..|r|] && AllDigits(r)
    ensures |r| == |s| || !IsDigit(s[|r|])
    decreases |s|
  {
    if |s| > 0 && IsDigit(s[0]) then [s[0]] + LeadingDigits(s[1..]) else ""
  }

  /** `parseInt(s)` (radix 10): leading whitespace is skipped, an optional sign
      is read, then the longest run of digits; no digit at all is `NaN` (`None`). */
  function ParseInt(s: string): Option<int> {
    var t := TrimStart(s);
    var signed := |t| > 0 && (t[0] == '-' || t[0] == '+');
    var body := if signed then t[1..] else t;
    var d := LeadingDigits(body);
    if |d| == 0 then None
    else if signed && t[0] == '-' then Some(-(DigitsValue(d) as int))
    else Some(DigitsValue(d))
  }

  /** `Number(s)`: surrounding whitespace is ignored, the empty string is 0, and an
      optionally signed run of decimal digits is its value; anything else is `NaN`. */
  function ToNumber(s: string): Option<int> {
    var t := Trim(s);
    if |t| == 0 then Some(0)
    else if t[0] == '-' || t[0] == '+' then
      var body := t[1..];
      if |body| > 0 && AllDigits(body) then
        Some(if t[0] == '-' then -(DigitsValue(body) as int) else DigitsValue(body))
      else None
    else if AllDigits(t) then Some(DigitsValue(t))
    else None
  }

  lemma DigitsNoWhitespace(s: string)
    requires AllDigits(s)
    ensures NoWhitespace(s)
  {
  }

  /** `Number` reads a digit string as its decimal value (the empty string as 0). */
  lemma ToNumberDigits(s: string)
    requires AllDigits(s)
    ensures ToNumber(s) == Some(DigitsValue(s))
  {
    DigitsNoWhitespace(s);
    NoWhitespaceTrim(s);
  }

  lemma LeadingDigitsPrefix(d: string, rest: string)
    requires AllDigits(d)
    requires |rest| == 0 || !IsDigit(rest[0])
    ensures LeadingDigits(d + rest) == d
    decreases |d|
  {
    if |d| > 0 {
      assert (d + rest)[1..] == d[1..] + rest;
      LeadingDigitsPrefix(d[1..], rest);
      assert d == [d[0]] + d[1..];
    } else {
      assert d + rest == rest;
    }
  }

  /** `parseInt` reads the digits in front of a non-digit and ignores the rest. */
  lemma ParseIntDigits(d: string, rest: string)
    requires AllDigits(d) && |d| > 0
    requires |rest| == 0 || !IsDigit(rest[0])
    ensures ParseInt(d + rest) == Some(DigitsValue(d))
  {
    var s := d + rest;
    assert s[0] == d[0] && IsDigit(s[0]);
    assert !IsWhitespace(s[0]);
    assert TrimStart(s) == s;
    assert !(s[0] == '-' || s[0] == '+');
    LeadingDigitsPrefix(d, rest);
    assert LeadingDigits(s) == d;
  }

  /** `parseInt(n.toString()) == n`. */
  lemma ParseIntNatToString(n: nat)
    ensures ParseInt(NatToString(n)) == Some(n)
  {
    ParseIntDigits(NatToString(n), "");
    assert NatToString(n) + "" == NatToString(n);
  }

  /** JavaScript's `a % b` for a positive divisor: the remainder takes the sign of `a`. */
  function JsRem(a: int, b: int): (r: int)
    requires b > 0
    ensures -b < r < b
    ensures a >= 0 ==> 0 <= r && r == a % b
    ensures a < 0 ==> r <= 0
  {
    if a >= 0 then a % b else -((-a) % b)
  }
}

=== FILE: pgdb.dfy ===
/** The Postgres helper: the shared pool, `sql` in its tagged-template and plain
    forms, and the `tx` transaction wrapper. The driver is not modelled: a query
    is the text and parameter list handed to it, and a transaction is the trace of
    statements it issues. */
module PgSql {
  import opened Base
  import opened JsText

  // ---------------------------------------------------------------------------
  // getPool

  /** The two places a pool is remembered: on `globalThis` in development, in the
      module variable otherwise. Pools are named by number. */
  datatype PoolSlots = PoolSlots(globalPool: Option<nat>, modulePool: Option<nat>)

  /** `getPool()`: the remembered pool, or `created` (the pool `createPool` would make)
      which is then remembered. */
  function GetPool(development: bool, slots: PoolSlots, created: nat): (r: (PoolSlots, nat))
    ensures development ==> r.0.modulePool == slots.modulePool && r.0.globalPool == Some(r.1)
    ensures !development ==> r.0.globalPool == slots.globalPool && r.0.modulePool == Some(r.1)
    ensures development && slots.globalPool.Some? ==> r == (slots, slots.globalPool.value)
    ensures !development && slots.modulePool.Some? ==> r == (slots, slots.modulePool.value)
    ensures development && slots.globalPool.None? ==> r.1 == created
    ensures !development && slots.modulePool.None? ==> r.1 == created
  {
    if development then
      var slots' := if slots.globalPool.None? then slots.(globalPool := Some(created)) else slots;
      (slots', slots'.globalPool.value)
    else
      var slots' := if slots.modulePool.None? then slots.(modulePool := Some(created)) else slots;
      (slots', slots'.modulePool.value)
  }

  /** Every later call returns the pool of the first one, whatever pool would be
      created then. */
  lemma GetPoolMemoised(development: bool, slots: PoolSlots, created1: nat, created2: nat)
    ensures GetPool(development, GetPool(development, slots, created1).0, created2)
      == GetPool(development, slots, created1)
  {
  }

  // ---------------------------------------------------------------------------
  // sql

  /** A query as handed to `pool.query`: its text and its parameter list. */
  datatype Query = Query(text: string, params: seq<JsValue>)

  /** A piece of a tagged template's query text: a template string, or the
      placeholder `$n` for the n-th value. */
  datatype Piece = Lit(s: string) | Param(index: nat)

  function PieceText(p: Piece): string {
    match p
    case Lit(s) => s
    case Param(n) => "$" + NatToString(n)
  }

  /** The text of a sequence of pieces, written out left to right. */
  function Render(ps: seq<Piece>): string
    decreases |ps|
  {
    if |ps| == 0 then "" else Render(ps[..|ps| - 1]) + PieceText(ps[|ps| - 1])
  }

  lemma RenderAppend(ps: seq<Piece>, p: Piece)
    ensures Render(ps + [p]) == Render(ps) + PieceText(p)
  {
    assert (ps + [p])[..|ps|] == ps;
  }

  /** Reference layout of the first `i` template strings: each one followed by the
      placeholder of its position while values last. */
  function Pieces(strings: seq<string>, count: nat, i: nat): (ps: seq<Piece>)
    requires i <= |strings|
    decreases i
  {
    if i == 0 then []
    else Pieces(strings, count, i - 1) + [Lit(strings[i - 1])] + (if i - 1 < count then [Param(i)] else [])
  }

  /** The template strings among the pieces, in order. */
  function LitsOf(ps: seq<Piece>): seq<string>
    decreases |ps|
  {
    if |ps| == 0 then []
    else LitsOf(ps[..|ps| - 1]) + (if ps[|ps| - 1].Lit? then [ps[|ps| - 1].s] else [])
  }

  /** The placeholder numbers among the pieces, in order. */
  function ParamsOf(ps: seq<Piece>): seq<nat>
    decreases |ps|
  {
    if |ps| == 0 then []
    else ParamsOf(ps[..|ps| - 1]) + (if ps[|ps| - 1].Param? then [ps[|ps| - 1].index] else [])
  }

  /** The text with the placeholders deleted. */
  function Stripped(ps: seq<Piece>): string
    decreases |ps|
  {
    if |ps| == 0 then ""
    else Stripped(ps[..|ps| - 1]) + (if ps[|ps| - 1].Lit? then ps[|ps| - 1].s else "")
  }

  /** The concatenation of the template strings. */
  function Concat(strings: seq<string>): string
    decreases |strings|
  {
    if |strings| == 0 then "" else Concat(strings[..|strings| - 1]) + strings[|strings| - 1]
  }

  /** The placeholder numbers 1, 2, ..., n. */
  function OneTo(n: nat): (r: seq<nat>)
    ensures |r| == n && forall k :: 0 <= k < n ==> r[k] == k + 1
    decreases n
  {
    if n == 0 then [] else OneTo(n - 1) + [n]
  }

  /** Appending a piece extends the template strings by that piece's own. */
  lemma LitsAppend(ps: seq<Piece>, p: Piece)
    ensures LitsOf(ps + [p]) == LitsOf(ps) + (if p.Lit? then [p.s] else [])
  {
    assert (ps + [p])[..|ps|] == ps;
  }

  /** Appending a piece extends the placeholder numbers by that piece's own. */
  lemma ParamsAppend(ps: seq<Piece>, p: Piece)
    ensures ParamsOf(ps + [p]) == ParamsOf(ps) + (if p.Param? then [p.index] else [])
  {
    assert (ps + [p])[..|ps|] == ps;
  }

  /** Appending a piece extends the stripped text by that piece's own. */
  lemma StrippedAppend(ps: seq<Piece>, p: Piece)
    ensures Stripped(ps + [p]) == Stripped(ps) + (if p.Lit? then p.s else "")
  {
    assert (ps + [p])[..|ps|] == ps;
  }

  /** One more string adds itself to the template strings. */
  lemma LitsStep(strings: seq<string>, count: nat, i: nat)
    requires 0 < i <= |strings|
    ensures LitsOf(Pieces(strings, count, i)) == LitsOf(Pieces(strings, count, i - 1)) + [strings[i - 1]]
  {
    var withLit := Pieces(strings, count, i - 1) + [Lit(strings[i - 1])];
    LitsAppend(Pieces(strings, count, i - 1), Lit(strings[i - 1]));
    if i - 1 < count {
      LitsAppend(withLit, Param(i));
    } else {
      assert Pieces(strings, count, i) == withLit;
    }
  }

  /** One more string adds its placeholder while values last. */
  lemma ParamsStep(strings: seq<string>, count: nat, i: nat)
    requires 0 < i <= |strings|
    ensures ParamsOf(Pieces(strings, count, i))
      == ParamsOf(Pieces(strings, count, i - 1)) + (if i - 1 < count then [i] else [])
  {
    var withLit := Pieces(strings, count, i - 1) + [Lit(strings[i - 1])];
    ParamsAppend(Pieces(strings, count, i - 1), Lit(strings[i - 1]));
    if i - 1 < count {
      ParamsAppend(withLit, Param(i));
    } else {
      assert Pieces(strings, count, i) == withLit;
    }
  }

  /** One more string adds itself to the stripped text. */
  lemma StrippedStep(strings: seq<string>, count: nat, i: nat)
    requires 0 < i <= |strings|
    ensures Stripped(Pieces(strings, count, i)) == Stripped(Pieces(strings, count, i - 1)) + strings[i - 1]
  {
    var withLit := Pieces(strings, count, i - 1) + [Lit(strings[i - 1])];
    StrippedAppend(Pieces(strings, count, i - 1), Lit(strings[i - 1]));
    if i - 1 < count {
      StrippedAppend(withLit, Param(i));
    } else {
      assert Pieces(strings, count, i) == withLit;
    }
  }

  /** The template strings appear in the text in order, each exactly once. */
  lemma {:induction false} PiecesLits(strings: seq<string>, count: nat, i: nat)
    requires i <= |strings|
    ensures LitsOf(Pieces(strings, count, i)) == strings[..i]
    decreases i
  {
    if i == 0 {
      assert Pieces(strings, count, i) == [];
    } else {
      PiecesLits(strings, count, i - 1);
      LitsStep(strings, count, i);
      assert strings[..i] == strings[..i - 1] + [strings[i - 1]];
    }
  }

  /** The placeholders are `$1`, `$2`, ... in order, one per value as long as
      template strings last: min(|strings|, count) of them. */
  lemma {:induction false} PiecesParams(strings: seq<string>, count: nat, i: nat)
    requires i <= |strings|
    ensures ParamsOf(Pieces(strings, count, i)) == OneTo(Min(i, count))
    decreases i
  {
    if i == 0 {
      assert Pieces(strings, count, i) == [];
    } else {
      PiecesParams(strings, count, i - 1);
      ParamsStep(strings, count, i);
      assert Min(i, count) == if i - 1 < count then Min(i - 1, count) + 1 else Min(i - 1, count);
    }
  }

  /** Deleting the placeholders gives back the concatenated template strings. */
  lemma {:induction false} PiecesStripped(strings: seq<string>, count: nat, i: nat)
    requires i <= |strings|
    ensures Stripped(Pieces(strings, count, i)) == Concat(strings[..i])
    decreases i
  {
    if i == 0 {
      assert Pieces(strings, count, i) == [];
    } else {
      PiecesStripped(strings, count, i - 1);
      StrippedStep(strings, count, i);
      assert strings[..i][..i - 1] == strings[..i - 1];
    }
  }

  lemma {:induction false} CountCharAppend(a: string, b: string, c: char)
    ensures CountChar(a + b, c) == CountChar(a, c) + CountChar(b, c)
    decreases |a|
  {
    if |a| > 0 {
      assert (a + b)[1..] == a[1..] + b;
      CountCharAppend(a[1..], b, c);
    } else {
      assert a + b == b;
    }
  }

  lemma {:induction false} CountCharNone(a: string, c: char)
    requires c !in a
    ensures CountChar(a, c) == 0
    decreases |a|
  {
    if |a| > 0 {
      CountCharNone(a[1..], c);
    }
  }

  /** A placeholder carries exactly one '$'. */
  lemma PlaceholderDollar(n: nat)
    ensures CountChar(PieceText(Param(n)), '$') == 1
  {
    var digits := NatToString(n);
    assert '$' !in digits by {
      forall k | 0 <= k < |digits| ensures digits[k] != '$' {
        assert IsDigit(digits[k]);
      }
    }
    CountCharNone(digits, '$');
    CountCharAppend("$", digits, '$');
  }

  /** Appending a piece adds its '$' signs to the text's. */
  lemma DollarsAppend(ps: seq<Piece>, p: Piece)
    ensures CountChar(Render(ps + [p]), '$') == CountChar(Render(ps), '$') + CountChar(PieceText(p), '$')
  {
    RenderAppend(ps, p);
    CountCharAppend(Render(ps), PieceText(p), '$');
  }

  /** One more template string adds no '$' of its own, and its placeholder, when
      values last, adds one. */
  lemma DollarsStep(strings: seq<string>, count: nat, i: nat)
    requires 0 < i <= |strings| && '$' !in strings[i - 1]
    ensures CountChar(Render(Pieces(strings, count, i)), '$')
      == CountChar(Render(Pieces(strings, count, i - 1)), '$') + (if i - 1 < count then 1 else 0)
  {
    var prev := Pieces(strings, count, i - 1);
    var withLit := prev + [Lit(strings[i - 1])];
    DollarsAppend(prev, Lit(strings[i - 1]));
    CountCharNone(strings[i - 1], '$');
    if i - 1 < count {
      assert Pieces(strings, count, i) == withLit + [Param(i)];
      DollarsAppend(withLit, Param(i));
      PlaceholderDollar(i);
    } else {
      assert Pieces(strings, count, i) == withLit;
    }
  }

  /** When no template string contains '$', every '$' of the text starts a
      placeholder: the values never enter the text. */
  lemma {:induction false} DollarsArePlaceholders(strings: seq<string>, count: nat, i: nat)
    requires i <= |strings|
    requires forall k :: 0 <= k < |strings| ==> '$' !in strings[k]
    ensures CountChar(Render(Pieces(strings, count, i)), '$') == Min(i, count)
    decreases i
  {
    if i == 0 {
      assert Render(Pieces(strings, count, i)) == "";
    } else {
      DollarsArePlaceholders(strings, count, i - 1);
      DollarsStep(strings, count, i);
    }
  }

  /** The value list of a tagged call: a first value that is an array is taken as
      the whole list, otherwise all the interpolated values are. */
  function TemplateValues(args: seq<JsValue>): (values: seq<JsValue>)
    ensures |args| > 0 && args[0].JsArray? ==> values == args[0].items
    ensures (|args| == 0 || !args[0].JsArray?) ==> values == args
  {
    if |args| > 0 && args[0].JsArray? then args[0].items else args
  }

  /** The text of a tagged call, built as the loop in `sql` builds it. */
  method TemplateText(strings: seq<string>, values: seq<JsValue>) returns (text: string)
    ensures text == Render(Pieces(strings, |values|, |strings|))
  {
    text := "";
    var i := 0;
    while i < |strings|
      invariant 0 <= i <= |strings|
      invariant text == Render(Pieces(strings, |values|, i))
    {
      var before := Pieces(strings, |values|, i);
      RenderAppend(before, Lit(strings[i]));
      text := text + strings[i];
      if i < |values| {
        RenderAppend(before + [Lit(strings[i])], Param(i + 1));
        text := text + PieceText(Param(i + 1));
      } else {
        assert before + [Lit(strings[i])] + [] == before + [Lit(strings[i])];
      }
      i := i + 1;
    }
  }

  /** How `sql` was called: as a tag on a template (its strings and interpolated
      values), or with a text and an optional parameter list. */
  datatype SqlCall =
    | Tagged(strings: seq<string>, args: seq<JsValue>)
    | Plain(text: string, params: Option<seq<JsValue>>)

  /** `sql(...)`: the query handed to the pool. */
  method Sql(call: SqlCall) returns (q: Query)
    ensures call.Tagged? ==>
      q.params == TemplateValues(call.args)
      && q.text == Render(Pieces(call.strings, |q.params|, |call.strings|))
    ensures call.Plain? ==> q.text == call.text
    ensures call.Plain? ==> q.params == if call.params.Some? then call.params.value else []
  {
    match call
    case Tagged(strings, args) =>
      var values := TemplateValues(args);
      var text := TemplateText(strings, values);
      q := Query(text, values);
    case Plain(text, params) =>
      q := Query(text, if params.Some? then params.value else []);
  }

  /** The usual tagged call, with one more string than values: every value gets a
      placeholder, deleting them gives back the template, and with no '$' in the
      template the text's '$' signs are exactly the placeholders. */
  lemma TaggedQuery(strings: seq<string>, args: seq<JsValue>, q: Query)
    requires |args| == 0 || !args[0].JsArray?
    requires |strings| == |args| + 1
    requires q.params == TemplateValues(args) && q.text == Render(Pieces(strings, |q.params|, |strings|))
    ensures q.params == args
    ensures ParamsOf(Pieces(strings, |args|, |strings|)) == OneTo(|args|)
    ensures LitsOf(Pieces(strings, |args|, |strings|)) == strings
    ensures Stripped(Pieces(strings, |args|, |strings|)) == Concat(strings)
    ensures (forall k :: 0 <= k < |strings| ==> '$' !in strings[k]) ==> CountChar(q.text, '$') == |args|
  {
    PiecesParams(strings, |args|, |strings|);
    PiecesLits(strings, |args|, |strings|);
    PiecesStripped(strings, |args|, |strings|);
    assert strings[..|strings|] == strings;
    if forall k :: 0 <= k < |strings| ==> '$' !in strings[k] {
      DollarsArePlaceholders(strings, |args|, |strings|);
    }
  }

  // ---------------------------------------------------------------------------
  // tx

  /** What the client sees during a transaction. */
  datatype Event = Begin | Commit | Rollback | UserQuery(q: Query) | Release

  /** How the callback behaves: the queries it issues, then its result or error. */
  datatype Body = Returns(queries: seq<Query>, out: JsValue) | Throws(queries: seq<Query>, error: string)

  /** A transaction's result: the callback's value, or the error `tx` rethrows. */
  datatype TxResult = Done(value: JsValue) | Failed(error: string)

  /** `tx(fn)` once a client is connected: BEGIN, the callback's queries, then
      COMMIT when everything succeeded, or ROLLBACK and a rethrow when anything
      failed; the client is released on every path. `beginError`, `commitError`
      and `rollbackError` are the driver's failures of those statements. */
  function Tx(body: Body, beginError: Option<string>, commitError: Option<string>,
              rollbackError: Option<string>): (r: (seq<Event>, TxResult))
    ensures |r.0| >= 3 && r.0[0] == Begin && r.0[|r.0| - 1] == Release
    ensures forall k :: 0 <= k < |r.0| - 1 ==> r.0[k] != Release
    ensures r.1.Done? <==> beginError.None? && body.Returns? && commitError.None?
    ensures r.1.Done? ==> r.1.value == body.out && r.0[|r.0| - 2] == Commit && Rollback !in r.0
    ensures r.1.Failed? ==> r.0[|r.0| - 2] == Rollback
    ensures r.1.Failed? && rollbackError.Some? ==> r.1.error == rollbackError.value
    ensures beginError.None? && body.Throws? && rollbackError.None? ==> r.1 == Failed(body.error)
    ensures beginError.Some? && rollbackError.None? ==> r.1 == Failed(beginError.value)
    ensures beginError.None? && body.Returns? && commitError.Some? && rollbackError.None? ==>
      r.1 == Failed(commitError.value)
    ensures beginError.Some? ==> r.0 == [Begin, Rollback, Release]
    ensures beginError.None? ==>
      |r.0| > |body.queries| + 1 && forall k :: 0 <= k < |body.queries| ==> r.0[1 + k] == UserQuery(body.queries[k])
  {
    var issued := seq(|body.queries|, k requires 0 <= k < |body.queries| => UserQuery(body.queries[k]));
    var middle: seq<Event> :=
      if beginError.Some? then []
      else if body.Throws? then issued
      else issued + [Commit];
    var failure: Option<string> :=
      if beginError.Some? then beginError
      else if body.Throws? then Some(body.error)
      else commitError;
    if failure.None? then
      ([Begin] + middle + [Release], Done(body.out))
    else
      var thrown := if rollbackError.Some? then rollbackError.value else failure.value;
      ([Begin] + middle + [Rollback, Release], Failed(thrown))
  }

  /** Exactly one of COMMIT and ROLLBACK ends a transaction that began, except that
      a failed COMMIT is followed by ROLLBACK; the result is an error exactly when
      ROLLBACK was sent. */
  lemma TxEndsOnce(body: Body, beginError: Option<string>, commitError: Option<string>,
                   rollbackError: Option<string>)
    ensures var (trace, result) := Tx(body, beginError, commitError, rollbackError);
      (Rollback in trace <==> result.Failed?)
      && (result.Done? ==> Commit in trace)
      && (Commit in trace && Rollback in trace ==> commitError.Some?)
  {
    var (trace, result) := Tx(body, beginError, commitError, rollbackError);
    var issued := seq(|body.queries|, k requires 0 <= k < |body.queries| => UserQuery(body.queries[k]));
    assert Rollback !in issued && Commit !in issued;
  }
}

=== FILE: routine_grid.dfy ===
/** The weekly routine grid: seven fixed time slots by seven days, and for each
    cell the selected sections that meet in it. A meeting belongs to a slot when
    its start minute lies in the slot's half-open range; the end time is not
    consulted. A cell holding more than one section is a conflict. */
module RoutineGrid {
  import opened Base
  import opened JsText
  import opened ClockTime
  import opened CourseCatalog

  /** The slot labels, in display order. */
  const TimeSlots: seq<string> := [
    "08:00 AM-09:20 AM",
    "09:30 AM-10:50 AM",
    "11:00 AM-12:20 PM",
    "12:30 PM-01:50 PM",
    "02:00 PM-03:20 PM",
    "03:30 PM-04:50 PM",
    "05:00 PM-06:20 PM"
  ]

  /** The column headings; a meeting's day is compared with the upper-cased heading. */
  const Days: seq<string> := ["Sunday", "Monday", "Tuesday", "Wednesday", "Thursday", "Friday", "Saturday"]

  /** The minutes since midnight at which each slot opens and closes. */
  const SlotStarts: seq<int> := [480, 570, 660, 750, 840, 930, 1020]
  const SlotEnds: seq<int> := [560, 650, 740, 830, 920, 1010, 1100]

  /** A slot label's two ends as `getCoursesForSlot` reads them. The label needs a
      '-': without one the second end is `undefined` and reading it throws. */
  function SlotRange(timeSlot: string): (Option<int>, Option<int>)
    requires |Split(timeSlot, '-')| >= 2
  {
    var parts := Split(timeSlot, '-');
    (TimeToMinutes(parts[0]), TimeToMinutes(parts[1]))
  }

  /** A clock text with digit fields and a '-'-free period has no '-'. */
  lemma ClockTextNoDash(hh: string, mm: string, period: string)
    requires AllDigits(hh) && AllDigits(mm) && '-' !in period
    ensures '-' !in hh + ":" + mm + " " + period
  {
    var a := hh + ":" + mm + " " + period;
    assert forall i :: 0 <= i < |hh| ==> a[i] == hh[i];
    assert forall i :: 0 <= i < |mm| ==> a[|hh| + 1 + i] == mm[i];
    assert forall i :: 0 <= i < |period| ==> a[|hh| + |mm| + 2 + i] == period[i];
  }

  /** A label "start-end" whose ends have no '-' reads as the values of its ends. */
  lemma SlotRangeOfEnds(start: string, end: string, lo: int, hi: int)
    requires '-' !in start && '-' !in end
    requires TimeToMinutes(start) == Some(lo) && TimeToMinutes(end) == Some(hi)
    ensures |Split(start + "-" + end, '-')| >= 2
    ensures SlotRange(start + "-" + end) == (Some(lo), Some(hi))
  {
    SplitTwo(start, end, '-');
    assert start + ['-'] + end == start + "-" + end;
  }

  /** One slot label "hh:mm P-hh:mm P" with digit fields reads as [lo, hi). */
  lemma SlotLabelReads(slot: string, h1: string, m1: string, p1: string, h2: string, m2: string, p2: string, lo: int, hi: int)
    requires AllDigits(h1) && AllDigits(m1) && AllDigits(h2) && AllDigits(m2)
    requires ' ' !in p1 && ' ' !in p2 && '-' !in p1 && '-' !in p2
    requires lo == Clock12(DigitsValue(h1), DigitsValue(m1), Some(p1))
    requires hi == Clock12(DigitsValue(h2), DigitsValue(m2), Some(p2))
    requires slot == (h1 + ":" + m1 + " " + p1) + "-" + (h2 + ":" + m2 + " " + p2)
    ensures |Split(slot, '-')| >= 2
    ensures SlotRange(slot) == (Some(lo), Some(hi))
  {
    ClockTextNoDash(h1, m1, p1);
    ClockTextNoDash(h2, m2, p2);
    ClockLabelReads(h1, m1, p1, lo);
    ClockLabelReads(h2, m2, p2, hi);
    SlotRangeOfEnds(h1 + ":" + m1 + " " + p1, h2 + ":" + m2 + " " + p2, lo, hi);
  }

  /** The seven labels read as [480,560), [570,650), [660,740), [750,830),
      [840,920), [930,1010) and [1020,1100). */
  lemma SlotBounds(i: nat)
    requires i < |TimeSlots|
    ensures |Split(TimeSlots[i], '-')| >= 2
    ensures SlotRange(TimeSlots[i]) == (Some(SlotStarts[i]), Some(SlotEnds[i]))
  {
    if i < 4 {
      MorningSlotBounds(i);
    } else {
      AfternoonSlotBounds(i);
    }
  }

  /** The four slots that open before 1 PM. */
  lemma MorningSlotBounds(i: nat)
    requires i < 4
    ensures |Split(TimeSlots[i], '-')| >= 2
    ensures SlotRange(TimeSlots[i]) == (Some(SlotStarts[i]), Some(SlotEnds[i]))
  {
    if i == 0 {
      SlotReads0(i);
    } else if i == 1 {
      SlotReads1(i);
    } else if i == 2 {
      SlotReads2(i);
    } else {
      SlotReads3(i);
    }
  }

  /** The three afternoon slots. */
  lemma AfternoonSlotBounds(i: nat)
    requires 4 <= i < 7
    ensures |Split(TimeSlots[i], '-')| >= 2
    ensures SlotRange(TimeSlots[i]) == (Some(SlotStarts[i]), Some(SlotEnds[i]))
  {
    if i == 4 {
      SlotReads4(i);
    } else if i == 5 {
      SlotReads5(i);
    } else {
      SlotReads6(i);
    }
  }

  /** Each range is non-empty and ends ten minutes before the next one opens. */
  lemma SlotsOrdered(i: nat)
    requires i < |TimeSlots|
    ensures SlotStarts[i] < SlotEnds[i]
    ensures i + 1 < |TimeSlots| ==> SlotEnds[i] + 10 == SlotStarts[i + 1]
  {
  }

  /* SlotReads0 to SlotReads6 read one label each. They take the index as a
     parameter fixed by `requires` rather than a literal, and are kept apart: the
     verifier evaluates `Split` and `TimeToMinutes` eagerly on literal labels, so
     one lemma reading all seven labels exceeds its budget. SlotBounds combines them. */

  lemma SlotReads0(i: nat)
    requires i == 0
    ensures |Split(TimeSlots[i], '-')| >= 2
    ensures SlotRange(TimeSlots[i]) == (Some(SlotStarts[i]), Some(SlotEnds[i]))
  {
    var h1, m1, p1, h2, m2, p2 := "08", "00", "AM", "09", "20", "AM";
    assert TimeSlots[i] == (h1 + ":" + m1 + " " + p1) + "-" + (h2 + ":" + m2 + " " + p2);
    SlotLabelReads(TimeSlots[i], h1, m1, p1, h2, m2, p2, 480, 560);
  }

  lemma SlotReads1(i: nat)
    requires i == 1
    ensures |Split(TimeSlots[i], '-')| >= 2
    ensures SlotRange(TimeSlots[i]) == (Some(SlotStarts[i]), Some(SlotEnds[i]))
  {
    var h1, m1, p1, h2, m2, p2 := "09", "30", "AM", "10", "50", "AM";
    assert TimeSlots[i] == (h1 + ":" + m1 + " " + p1) + "-" + (h2 + ":" + m2 + " " + p2);
    SlotLabelReads(TimeSlots[i], h1, m1, p1, h2, m2, p2, 570, 650);
  }

  lemma SlotReads2(i: nat)
    requires i == 2
    ensures |Split(TimeSlots[i], '-')| >= 2
    ensures SlotRange(TimeSlots[i]) == (Some(SlotStarts[i]), Some(SlotEnds[i]))
  {
    var h1, m1, p1, h2, m2, p2 := "11", "00", "AM", "12", "20", "PM";
    assert TimeSlots[i] == (h1 + ":" + m1 + " " + p1) + "-" + (h2 + ":" + m2 + " " + p2);
    SlotLabelReads(TimeSlots[i], h1, m1, p1, h2, m2, p2, 660, 740);
  }

  lemma SlotReads3(i: nat)
    requires i == 3
    ensures |Split(TimeSlots[i], '-')| >= 2
    ensures SlotRange(TimeSlots[i]) == (Some(SlotStarts[i]), Some(SlotEnds[i]))
  {
    var h1, m1, p1, h2, m2, p2 := "12", "30", "PM", "01", "50", "PM";
    assert TimeSlots[i] == (h1 + ":" + m1 + " " + p1) + "-" + (h2 + ":" + m2 + " " + p2);
    SlotLabelReads(TimeSlots[i], h1, m1, p1, h2, m2, p2, 750, 830);
  }

  lemma SlotReads4(i: nat)
    requires i == 4
    ensures |Split(TimeSlots[i], '-')| >= 2
    ensures SlotRange(TimeSlots[i]) == (Some(SlotStarts[i]), Some(SlotEnds[i]))
  {
    var h1, m1, p1, h2, m2, p2 := "02", "00", "PM", "03", "20", "PM";
    assert TimeSlots[i] == (h1 + ":" + m1 + " " + p1) + "-" + (h2 + ":" + m2 + " " + p2);
    SlotLabelReads(TimeSlots[i], h1, m1, p1, h2, m2, p2, 840, 920);
  }

  lemma SlotReads5(i: nat)
    requires i == 5
    ensures |Split(TimeSlots[i], '-')| >= 2
    ensures SlotRange(TimeSlots[i]) == (Some(SlotStarts[i]), Some(SlotEnds[i]))
  {
    var h1, m1, p1, h2, m2, p2 := "03", "30", "PM", "04", "50", "PM";
    assert TimeSlots[i] == (h1 + ":" + m1 + " " + p1) + "-" + (h2 + ":" + m2 + " " + p2);
    SlotLabelReads(TimeSlots[i], h1, m1, p1, h2, m2, p2, 930, 1010);
  }

  lemma SlotReads6(i: nat)
    requires i == 6
    ensures |Split(TimeSlots[i], '-')| >= 2
    ensures SlotRange(TimeSlots[i]) == (Some(SlotStarts[i]), Some(SlotEnds[i]))
  {
    var h1, m1, p1, h2, m2, p2 := "05", "00", "PM", "06", "20", "PM";
    assert TimeSlots[i] == (h1 + ":" + m1 + " " + p1) + "-" + (h2 + ":" + m2 + " " + p2);
    SlotLabelReads(TimeSlots[i], h1, m1, p1, h2, m2, p2, 1020, 1100);
  }

  /** The minute a meeting starts, as the grid computes it: the catalog's 24-hour
      start is formatted as a 12-hour label and read back. */
  function StartMinute(s: Schedule): Option<int> {
    TimeToMinutes(FormatTime(s.startTime))
  }

  /** `start >= lo && start < hi`; a `NaN` on either side makes it false. */
  predicate Within(t: Option<int>, lo: Option<int>, hi: Option<int>) {
    t.Some? && lo.Some? && hi.Some? && lo.value <= t.value < hi.value
  }

  /** The `some` callback of `getCoursesForSlot` and of `isLab`: the meeting is on
      the column's day (upper-cased) and starts inside the slot. */
  predicate MeetsIn(s: Schedule, day: string, lo: Option<int>, hi: Option<int>) {
    s.day == Upper(day) && Within(StartMinute(s), lo, hi)
  }

  /** `schedules.some(...)`. */
  predicate AnyMeetsIn(ss: seq<Schedule>, day: string, lo: Option<int>, hi: Option<int>) {
    Any(ss, (s: Schedule) => MeetsIn(s, day, lo, hi))
  }

  /** `some` holds exactly when one of the meetings satisfies the callback. */
  lemma AnyMeetsInIff(ss: seq<Schedule>, day: string, lo: Option<int>, hi: Option<int>)
    ensures AnyMeetsIn(ss, day, lo, hi) <==> exists k :: 0 <= k < |ss| && MeetsIn(ss[k], day, lo, hi)
  {
    AnyIff(ss, (s: Schedule) => MeetsIn(s, day, lo, hi));
  }

  /** A section occupies a cell when one of its class meetings or lab meetings does. */
  predicate InSlot(c: Course, day: string, lo: Option<int>, hi: Option<int>) {
    AnyMeetsIn(c.classSchedules, day, lo, hi) || AnyMeetsIn(c.labSchedules, day, lo, hi)
  }

  /** `getCoursesForSlot(day, timeSlot)`: the selected sections occupying the cell,
      in selection order, each kept once however many of its meetings match. */
  function CoursesForSlot(selected: seq<Course>, day: string, timeSlot: string): (r: seq<Course>)
    requires |Split(timeSlot, '-')| >= 2
    ensures IsSubseq(r, selected)
    ensures forall c :: multiset(r)[c] <= multiset(selected)[c]
  {
    var (lo, hi) := SlotRange(timeSlot);
    Filter(selected, (c: Course) => InSlot(c, day, lo, hi))
  }

  /** The meeting is on the column's day and starts at a minute in [lo, hi). */
  predicate StartsBetween(s: Schedule, day: string, lo: int, hi: int) {
    s.day == Upper(day) && StartMinute(s).Some? && lo <= StartMinute(s).value < hi
  }

  /** Membership of a cell, in terms of the slot's range. */
  lemma CoursesForSlotMembers(selected: seq<Course>, day: string, timeSlot: string, c: Course)
    requires |Split(timeSlot, '-')| >= 2
    ensures c in CoursesForSlot(selected, day, timeSlot) <==>
      c in selected && InSlot(c, day, SlotRange(timeSlot).0, SlotRange(timeSlot).1)
  {
  }

  /** A section occupies the range [lo, hi) of a day exactly when one of its class
      or lab meetings is on that day and starts inside the range. */
  lemma InSlotIff(c: Course, day: string, lo: int, hi: int)
    ensures InSlot(c, day, Some(lo), Some(hi)) <==>
      || (exists k :: 0 <= k < |c.classSchedules| && StartsBetween(c.classSchedules[k], day, lo, hi))
      || (exists k :: 0 <= k < |c.labSchedules| && StartsBetween(c.labSchedules[k], day, lo, hi))
  {
    AnyMeetsInIff(c.classSchedules, day, Some(lo), Some(hi));
    AnyMeetsInIff(c.labSchedules, day, Some(lo), Some(hi));
    assert forall k :: 0 <= k < |c.classSchedules| ==>
      (MeetsIn(c.classSchedules[k], day, Some(lo), Some(hi)) <==> StartsBetween(c.classSchedules[k], day, lo, hi));
    assert forall k :: 0 <= k < |c.labSchedules| ==>
      (MeetsIn(c.labSchedules[k], day, Some(lo), Some(hi)) <==> StartsBetween(c.labSchedules[k], day, lo, hi));
  }

  /** A section is in the cell of day `day` and slot `i` exactly when it is selected
      and one of its class or lab meetings is on that day and starts inside the
      slot's range; the end time plays no part. */
  lemma CellMembers(selected: seq<Course>, day: string, i: nat, c: Course)
    requires i < |TimeSlots|
    ensures |Split(TimeSlots[i], '-')| >= 2
    ensures c in CoursesForSlot(selected, day, TimeSlots[i]) <==> (c in selected && (
      || (exists k :: 0 <= k < |c.classSchedules| && StartsBetween(c.classSchedules[k], day, SlotStarts[i], SlotEnds[i]))
      || (exists k :: 0 <= k < |c.labSchedules| && StartsBetween(c.labSchedules[k], day, SlotStarts[i], SlotEnds[i]))))
  {
    SlotBounds(i);
    CoursesForSlotMembers(selected, day, TimeSlots[i], c);
    InSlotIff(c, day, SlotStarts[i], SlotEnds[i]);
  }

  /** A duplicate-free selection gives duplicate-free cells. */
  lemma CellDistinct(selected: seq<Course>, day: string, timeSlot: string)
    requires |Split(timeSlot, '-')| >= 2
    requires Distinct(selected)
    ensures Distinct(CoursesForSlot(selected, day, timeSlot))
  {
    var (lo, hi) := SlotRange(timeSlot);
    FilterDistinct(selected, (c: Course) => InSlot(c, day, lo, hi));
  }

  /** The slots are disjoint, so a meeting lands in at most one slot of its day. */
  lemma OneSlotPerMeeting(s: Schedule, day: string, i: nat, j: nat)
    requires i < |TimeSlots| && j < |TimeSlots|
    requires StartsBetween(s, day, SlotStarts[i], SlotEnds[i])
    requires StartsBetween(s, day, SlotStarts[j], SlotEnds[j])
    ensures i == j
  {
    if i < j {
      SlotsIncreasing(i, j);
    } else if j < i {
      SlotsIncreasing(j, i);
    }
  }

  /** A later slot opens after an earlier one closes. */
  lemma SlotsIncreasing(i: nat, j: nat)
    requires i < j < |TimeSlots|
    ensures SlotEnds[i] < SlotStarts[j]
    decreases j - i
  {
    SlotsOrdered(i);
    if i + 1 < j {
      SlotsIncreasing(i + 1, j);
      SlotsOrdered(i + 1);
    }
  }

  /** A catalog start "HH:MM" with digit fields is read as minute 60 * HH + MM. */
  lemma StartOfDigits(s: Schedule, hh: string, mm: string, k: int)
    requires AllDigits(hh) && |hh| > 0 && DigitsValue(hh) <= 23 && AllDigits(mm)
    requires k == 60 * DigitsValue(hh) + DigitsValue(mm)
    requires s.startTime == hh + ":" + mm
    ensures StartMinute(s) == Some(k)
  {
    FormatThenParse(hh, mm, k);
  }

  /** The catalog start "09:25" is read as minute 565. */
  lemma GapStartMinute(s: Schedule)
    requires s.startTime == "09:25"
    ensures StartMinute(s) == Some(565)
  {
    assert s.startTime == "09" + ":" + "25";
    StartOfDigits(s, "09", "25", 565);
  }

  /** Minute 565 falls between the first and the second slot. */
  lemma GapMinute(i: nat)
    requires i < |TimeSlots|
    ensures !(SlotStarts[i] <= 565 < SlotEnds[i])
  {
  }

  /** A meeting starting in a gap between slots, such as 09:25, lands in no slot. */
  lemma GapStartsNowhere(s: Schedule, day: string, i: nat)
    requires s.startTime == "09:25" && i < |TimeSlots|
    ensures !StartsBetween(s, day, SlotStarts[i], SlotEnds[i])
  {
    GapStartMinute(s);
    GapMinute(i);
  }

  /** Two meeting lists that agree on every day and start time. */
  predicate SameStarts(a: seq<Schedule>, b: seq<Schedule>) {
    |a| == |b| && forall k :: 0 <= k < |a| ==> a[k].day == b[k].day && a[k].startTime == b[k].startTime
  }

  /** End times are never consulted: sections whose meetings differ only in their
      end times occupy the same cells. */
  lemma EndTimeIgnored(c1: Course, c2: Course, day: string, lo: Option<int>, hi: Option<int>)
    requires SameStarts(c1.classSchedules, c2.classSchedules)
    requires SameStarts(c1.labSchedules, c2.labSchedules)
    ensures InSlot(c1, day, lo, hi) == InSlot(c2, day, lo, hi)
  {
    AnyMeetsInIff(c1.classSchedules, day, lo, hi);
    AnyMeetsInIff(c2.classSchedules, day, lo, hi);
    AnyMeetsInIff(c1.labSchedules, day, lo, hi);
    AnyMeetsInIff(c2.labSchedules, day, lo, hi);
    assert forall k :: 0 <= k < |c1.classSchedules| ==>
      StartMinute(c1.classSchedules[k]) == StartMinute(c2.classSchedules[k]);
    assert forall k :: 0 <= k < |c1.labSchedules| ==>
      StartMinute(c1.labSchedules[k]) == StartMinute(c2.labSchedules[k]);
  }

  /** `hasConflict(day, timeSlot)`: the cell holds more than one section. */
  function HasConflict(selected: seq<Course>, day: string, timeSlot: string): (conflict: bool)
    requires |Split(timeSlot, '-')| >= 2
    ensures |selected| <= 1 ==> !conflict
  {
    |CoursesForSlot(selected, day, timeSlot)| > 1
  }

  /** A cell is in conflict exactly when two different positions of the selection
      occupy it. */
  lemma ConflictIff(selected: seq<Course>, day: string, timeSlot: string)
    requires |Split(timeSlot, '-')| >= 2
    ensures HasConflict(selected, day, timeSlot) <==>
      exists i, j :: 0 <= i < j < |selected|
        && InSlot(selected[i], day, SlotRange(timeSlot).0, SlotRange(timeSlot).1)
        && InSlot(selected[j], day, SlotRange(timeSlot).0, SlotRange(timeSlot).1)
  {
    var (lo, hi) := SlotRange(timeSlot);
    FilterAtLeastTwo(selected, (c: Course) => InSlot(c, day, lo, hi));
  }

  /** The per-block `isLab`: one of the section's lab meetings is on the column's
      day and starts inside the slot. */
  function IsLab(c: Course, day: string, timeSlot: string): (lab: bool)
    requires |Split(timeSlot, '-')| >= 2
    ensures lab <==>
      exists k :: 0 <= k < |c.labSchedules| && MeetsIn(c.labSchedules[k], day, SlotRange(timeSlot).0, SlotRange(timeSlot).1)
    ensures lab ==> InSlot(c, day, SlotRange(timeSlot).0, SlotRange(timeSlot).1)
  {
    var (lo, hi) := SlotRange(timeSlot);
    AnyMeetsInIff(c.labSchedules, day, lo, hi);
    AnyMeetsIn(c.labSchedules, day, lo, hi)
  }

  /** How a block is shaded: conflict first, then lab, otherwise class. */
  datatype Shade = ConflictShade | LabShade | ClassShade

  function BlockShade(selected: seq<Course>, day: string, timeSlot: string, c: Course): Shade
    requires |Split(timeSlot, '-')| >= 2
  {
    if HasConflict(selected, day, timeSlot) then ConflictShade
    else if IsLab(c, day, timeSlot) then LabShade
    else ClassShade
  }

  /** A block shaded as a class in a cell owes its place to a class meeting, and one
      shaded as a lab to a lab meeting; conflict shading marks exactly the
      conflicting cells. */
  lemma ShadeExplained(selected: seq<Course>, day: string, timeSlot: string, c: Course)
    requires |Split(timeSlot, '-')| >= 2
    requires c in CoursesForSlot(selected, day, timeSlot)
    ensures BlockShade(selected, day, timeSlot, c) == ConflictShade <==> HasConflict(selected, day, timeSlot)
    ensures BlockShade(selected, day, timeSlot, c) == ClassShade ==>
      AnyMeetsIn(c.classSchedules, day, SlotRange(timeSlot).0, SlotRange(timeSlot).1)
    ensures BlockShade(selected, day, timeSlot, c) == LabShade ==>
      AnyMeetsIn(c.labSchedules, day, SlotRange(timeSlot).0, SlotRange(timeSlot).1)
  {
    var (lo, hi) := SlotRange(timeSlot);
    assert InSlot(c, day, lo, hi);
  }
}

=== FILE: schemas.dfy ===
/** The document schemas of the swap, user, resource and routine collections:
    which inputs validate, what the setters store, and the defaults filled in.
    Validation is modelled as the schema declares it: a path fails `required`
    when it is absent or the empty string, and a `match` pattern is checked only
    on a present value. */
module Schemas {
  import opened Base
  import opened JsText

  // ---------------------------------------------------------------------------
  // Patterns

  predicate IsUpperLetter(c: char) {
    'A' <= c <= 'Z'
  }

  predicate IsLetter(c: char) {
    'a' <= c <= 'z' || 'A' <= c <= 'Z'
  }

  /** `^[A-Z]{3}\d{3}$`: three capital letters, then three digits. */
  predicate MatchesCourseCode(s: string) {
    |s| == 6
    && (forall i :: 0 <= i < 3 ==> IsUpperLetter(s[i]))
    && (forall i :: 3 <= i < 6 ==> IsDigit(s[i]))
  }

  /** The character class `[a-zA-Z0-9._%+-]` of an email's local part. */
  predicate IsLocalChar(c: char) {
    IsLetter(c) || IsDigit(c) || c == '.' || c == '_' || c == '%' || c == '+' || c == '-'
  }

  predicate ValidLocal(s: string) {
    |s| > 0 && forall i :: 0 <= i < |s| ==> IsLocalChar(s[i])
  }

  const BracuDomain: string := "bracu.ac.bd"
  const GsuiteDomain: string := "g.bracu.ac.bd"

  predicate BracuHost(d: string) {
    d == BracuDomain || d == GsuiteDomain
  }

  /** `^[a-zA-Z0-9._%+-]+@(g\.)?bracu\.ac\.bd$`: the local-part class admits no
      '@', so the text splits at its only '@'. */
  predicate MatchesBracuEmail(s: string) {
    var parts := Split(s, '@');
    |parts| == 2 && ValidLocal(parts[0]) && BracuHost(parts[1])
  }

  lemma DomainsHaveNoAt()
    ensures '@' !in BracuDomain && '@' !in GsuiteDomain
  {
    assert forall i :: 0 <= i < |BracuDomain| ==> BracuDomain[i] != '@';
    assert forall i :: 0 <= i < |GsuiteDomain| ==> GsuiteDomain[i] != '@';
  }

  /** A matching email is a valid local part, '@' and one of the two domains. */
  lemma EmailShape(s: string)
    requires MatchesBracuEmail(s)
    ensures var parts := Split(s, '@');
      s == parts[0] + "@" + parts[1] && ValidLocal(parts[0]) && BracuHost(parts[1])
  {
    var parts := Split(s, '@');
    SplitJoin(s, '@');
    assert Join(parts, '@') == parts[0] + ['@'] + Join(parts[1..], '@');
  }

  /** Every valid local part at either domain matches. */
  lemma EmailAccepted(local: string, domain: string)
    requires ValidLocal(local) && BracuHost(domain)
    ensures MatchesBracuEmail(local + "@" + domain)
  {
    assert '@' !in local by {
      forall i | 0 <= i < |local| ensures local[i] != '@' { assert IsLocalChar(local[i]); }
    }
    DomainsHaveNoAt();
    SplitTwo(local, domain, '@');
  }

  // ---------------------------------------------------------------------------
  // Paths shared by the schemas

  /** A `required` string path: present and not the empty string. */
  predicate Present(v: Option<string>) {
    v.Some? && v.value != ""
  }

  /** The outcome of validating a document: the stored document, or the paths
      whose validators failed. */
  datatype Validation<D, P> = Valid(doc: D) | Invalid(failing: set<P>)

  /** What the `trim` and `lowercase` setters store for an email. */
  function NormalizeEmail(s: string): string {
    Lower(Trim(s))
  }

  predicate Trimmed(s: string) {
    |s| == 0 || (!IsWhitespace(s[0]) && !IsWhitespace(s[|s| - 1]))
  }

  predicate NoUpper(s: string) {
    forall i :: 0 <= i < |s| ==> !IsUpperLetter(s[i])
  }

  lemma LowerNoUpper(x: string)
    ensures NoUpper(Lower(x))
  {
  }

  lemma LowerIdempotent(x: string)
    ensures Lower(Lower(x)) == Lower(x)
  {
  }

  /** A stored email has no surrounding whitespace and no capital letter, and
      storing it again changes nothing. */
  lemma NormalizeEmailShape(s: string)
    ensures Trimmed(NormalizeEmail(s)) && NoUpper(NormalizeEmail(s))
    ensures NormalizeEmail(NormalizeEmail(s)) == NormalizeEmail(s)
  {
    var t := Trim(s);
    LowerNoUpper(t);
    LowerTrimCommute(s);
    assert Trimmed(Trim(Lower(s)));
    LowerTrimCommute(t);
    TrimIdempotent(s);
    assert Trim(Lower(t)) == Lower(t);
    LowerIdempotent(t);
  }

  /** The email path of the user and routine schemas: the setters run before the
      validators, so a padded or upper-case address can still be accepted. */
  function EmailPath(v: Option<string>): (r: Option<string>)
    ensures r.Some? <==> v.Some? && MatchesBracuEmail(NormalizeEmail(v.value))
    ensures r.Some? ==> r.value == NormalizeEmail(v.value)
    ensures r.Some? ==> MatchesBracuEmail(r.value) && Trimmed(r.value) && NoUpper(r.value)
  {
    if v.None? then None
    else
      var stored := NormalizeEmail(v.value);
      NormalizeEmailShape(v.value);
      EmptyEmailRejected();
      if stored != "" && MatchesBracuEmail(stored) then Some(stored) else None
  }

  /** `required` adds nothing to the pattern: the empty string never matches. */
  lemma EmptyEmailRejected()
    ensures !MatchesBracuEmail("")
  {
  }

  lemma LocalHasNoAt(local: string)
    requires ValidLocal(local)
    ensures '@' !in local && Trimmed(local) && ValidLocal(Lower(local))
  {
    assert forall i :: 0 <= i < |local| ==> local[i] != '@' && !IsWhitespace(local[i]);
  }

  lemma ShoutedDomainHasNoAt()
    ensures '@' !in Upper(BracuDomain)
    ensures Lower(Upper(BracuDomain)) == BracuDomain
  {
    var shouted := Upper(BracuDomain);
    DomainsHaveNoAt();
    assert forall i :: 0 <= i < |shouted| ==> shouted[i] == UpperChar(BracuDomain[i]);
  }

  /** Capitals in the domain: the resource submitter path, which has no setters,
      refuses the text... */
  lemma ShoutedDomainRefused(local: string)
    requires ValidLocal(local)
    ensures !MatchesBracuEmail(local + "@" + Upper(BracuDomain))
  {
    var shouted := Upper(BracuDomain);
    LocalHasNoAt(local);
    ShoutedDomainHasNoAt();
    SplitTwo(local, shouted, '@');
    assert shouted[0] == 'B';
  }

  /** ...while the user and routine paths lower-case the address and accept it. */
  lemma ShoutedDomainNormalised(local: string)
    requires ValidLocal(local)
    ensures EmailPath(Some(local + "@" + Upper(BracuDomain))) == Some(Lower(local) + "@" + BracuDomain)
  {
    var shouted := Upper(BracuDomain);
    var s := local + "@" + shouted;
    LocalHasNoAt(local);
    ShoutedDomainHasNoAt();
    assert Trim(s) == s by {
      assert s[0] == local[0] && s[|s| - 1] == shouted[|shouted| - 1];
      TrimNoEdges(s);
    }
    LowerAppend(local + "@", shouted);
    LowerAppend(local, "@");
    assert Lower("@") == "@";
    assert NormalizeEmail(s) == Lower(local) + "@" + BracuDomain;
    EmailAccepted(Lower(local), BracuDomain);
  }

  /** Saving a stored email again stores it unchanged. */
  lemma EmailPathIdempotent(v: Option<string>)
    requires EmailPath(v).Some?
    ensures EmailPath(EmailPath(v)) == EmailPath(v)
  {
    NormalizeEmailShape(v.value);
  }

  // ---------------------------------------------------------------------------
  // Swap

  const SwapStatuses: seq<string> := ["pending", "accepted", "rejected", "cancelled"]
  const DefaultSwapStatus: string := "pending"

  /** A swap document as submitted; `None` is an absent path. */
  datatype SwapInput = SwapInput(
    offerCourseCode: Option<string>,
    offerCourseSection: Option<int>,
    requestCourseCode: Option<string>,
    requestCourseSection: Option<int>,
    swapAuthor: Option<nat>,
    intestedUsers: Option<seq<nat>>,
    swapStatus: Option<string>)

  datatype SwapDoc = SwapDoc(
    offerCourseCode: string,
    offerCourseSection: int,
    requestCourseCode: string,
    requestCourseSection: int,
    swapAuthor: Option<nat>,
    intestedUsers: seq<nat>,
    swapStatus: string)

  datatype SwapPath = OfferCode | OfferSection | RequestCode | RequestSection | Status

  /** A required course-code path. */
  predicate CodeOk(v: Option<string>) {
    Present(v) && MatchesCourseCode(v.value)
  }

  /** A required section number of at least 1. */
  predicate SectionOk(v: Option<int>) {
    v.Some? && v.value >= 1
  }

  /** The status, absent ones taking the default. */
  function StatusOf(v: Option<string>): string {
    if v.Some? then v.value else DefaultSwapStatus
  }

  /** Validating a swap: both codes match the course-code pattern, both sections
      are at least 1 and the status is one of the four; a valid document keeps the
      given values and fills in the defaults. */
  function ValidateSwap(input: SwapInput): (r: Validation<SwapDoc, SwapPath>)
    ensures r.Valid? <==>
      CodeOk(input.offerCourseCode) && SectionOk(input.offerCourseSection)
      && CodeOk(input.requestCourseCode) && SectionOk(input.requestCourseSection)
      && StatusOf(input.swapStatus) in SwapStatuses
    ensures r.Invalid? ==>
      (OfferCode in r.failing <==> !CodeOk(input.offerCourseCode))
      && (OfferSection in r.failing <==> !SectionOk(input.offerCourseSection))
      && (RequestCode in r.failing <==> !CodeOk(input.requestCourseCode))
      && (RequestSection in r.failing <==> !SectionOk(input.requestCourseSection))
      && (Status in r.failing <==> StatusOf(input.swapStatus) !in SwapStatuses)
    ensures r.Valid? ==>
      input.offerCourseCode.Some? && input.requestCourseCode.Some?
      && input.offerCourseSection.Some? && input.requestCourseSection.Some?
      && MatchesCourseCode(r.doc.offerCourseCode) && MatchesCourseCode(r.doc.requestCourseCode)
      && r.doc.offerCourseSection >= 1 && r.doc.requestCourseSection >= 1
      && r.doc.swapStatus in SwapStatuses
      && r.doc.offerCourseCode == input.offerCourseCode.value
      && r.doc.requestCourseCode == input.requestCourseCode.value
      && r.doc.offerCourseSection == input.offerCourseSection.value
      && r.doc.requestCourseSection == input.requestCourseSection.value
      && (input.swapStatus.Some? ==> r.doc.swapStatus == input.swapStatus.value)
      && r.doc.swapAuthor == input.swapAuthor
      && (input.swapStatus.None? ==> r.doc.swapStatus == DefaultSwapStatus)
      && (input.intestedUsers.None? ==> r.doc.intestedUsers == [])
      && (input.intestedUsers.Some? ==> r.doc.intestedUsers == input.intestedUsers.value)
  {
    var failing :=
      (if CodeOk(input.offerCourseCode) then {} else {OfferCode})
      + (if SectionOk(input.offerCourseSection) then {} else {OfferSection})
      + (if CodeOk(input.requestCourseCode) then {} else {RequestCode})
      + (if SectionOk(input.requestCourseSection) then {} else {RequestSection})
      + (if StatusOf(input.swapStatus) in SwapStatuses then {} else {Status});
    if failing != {} then Invalid(failing)
    else
      Valid(SwapDoc(
        input.offerCourseCode.value, input.offerCourseSection.value,
        input.requestCourseCode.value, input.requestCourseSection.value,
        input.swapAuthor,
        if input.intestedUsers.Some? then input.intestedUsers.value else [],
        StatusOf(input.swapStatus)))
  }

  /** A swap submitted without a status is stored as pending. */
  lemma SwapDefaultsPending(input: SwapInput)
    requires CodeOk(input.offerCourseCode) && SectionOk(input.offerCourseSection)
    requires CodeOk(input.requestCourseCode) && SectionOk(input.requestCourseSection)
    requires input.swapStatus.None?
    ensures ValidateSwap(input).Valid? && ValidateSwap(input).doc.swapStatus == "pending"
  {
  }

  /** A section number below 1 on either side is refused, and so is a course
      code with a lower-case letter anywhere: the pattern has no case flag. */
  lemma SwapRejections(input: SwapInput)
    ensures input.offerCourseSection.Some? && input.offerCourseSection.value < 1 ==> ValidateSwap(input).Invalid?
    ensures input.requestCourseSection.Some? && input.requestCourseSection.value < 1 ==> ValidateSwap(input).Invalid?
    ensures (input.offerCourseCode.Some?
      && exists i :: 0 <= i < |input.offerCourseCode.value| && 'a' <= input.offerCourseCode.value[i] <= 'z')
      ==> ValidateSwap(input).Invalid?
    ensures (input.requestCourseCode.Some?
      && exists i :: 0 <= i < |input.requestCourseCode.value| && 'a' <= input.requestCourseCode.value[i] <= 'z')
      ==> ValidateSwap(input).Invalid?
  {
  }

  // ---------------------------------------------------------------------------
  // User info

  const DefaultSemester: string := "Spring 2024"
  const DefaultRole: string := "user"

  datatype UserInput = UserInput(email: Option<string>, name: Option<string>,
                                 semester: Option<string>, role: Option<string>)

  datatype UserDoc = UserDoc(email: string, name: string, semester: string, role: string)

  datatype UserPath = UserEmail | UserName

  /** Validating a user: the normalised email matches the BRACU pattern and a name
      is given; semester and role default to "Spring 2024" and "user". */
  function ValidateUser(input: UserInput): (r: Validation<UserDoc, UserPath>)
    ensures r.Valid? <==> EmailPath(input.email).Some? && Present(input.name)
    ensures r.Invalid? ==>
      (UserEmail in r.failing <==> EmailPath(input.email).None?)
      && (UserName in r.failing <==> !Present(input.name))
    ensures r.Valid? ==>
      r.doc.email == NormalizeEmail(input.email.value) && MatchesBracuEmail(r.doc.email)
      && r.doc.name == input.name.value
      && (input.semester.None? ==> r.doc.semester == DefaultSemester)
      && (input.semester.Some? ==> r.doc.semester == input.semester.value)
      && (input.role.None? ==> r.doc.role == DefaultRole)
      && (input.role.Some? ==> r.doc.role == input.role.value)
  {
    var email := EmailPath(input.email);
    var failing :=
      (if email.Some? then {} else {UserEmail}) + (if Present(input.name) then {} else {UserName});
    if failing != {} then Invalid(failing)
    else
      Valid(UserDoc(
        email.value, input.name.value,
        if input.semester.Some? then input.semester.value else DefaultSemester,
        if input.role.Some? then input.role.value else DefaultRole))
  }

  // ---------------------------------------------------------------------------
  // Resource

  /** `\w`. */
  predicate IsWordChar(c: char) {
    IsLetter(c) || IsDigit(c) || c == '_'
  }

  /** `[\w.-]`. */
  predicate IsHostChar(c: char) {
    IsWordChar(c) || c == '.' || c == '-'
  }

  /** The optional `https?://` in front of a link. */
  datatype Scheme = NoScheme | Http | Https

  function SchemeText(sc: Scheme): (t: string)
    ensures |t| == match sc case NoScheme => 0 case Http => 7 case Https => 8
  {
    match sc
    case NoScheme => ""
    case Http => "http://"
    case Https => "https://"
  }

  /** A link split the way the resource pattern reads it: an optional scheme, a
      host, an optional port and a path. */
  datatype Link = Link(scheme: Scheme, host: string, port: Option<string>, path: string)

  /** `(\/[\w.-]*)*\/?`: empty, or a '/' followed by host characters and slashes. */
  predicate PathOk(p: string) {
    |p| == 0 || (p[0] == '/' && forall i :: 0 <= i < |p| ==> IsHostChar(p[i]) || p[i] == '/')
  }

  predicate HostOk(h: string) {
    |h| > 0 && forall i :: 0 <= i < |h| ==> IsHostChar(h[i])
  }

  /** The parts of `^(https?:\/\/)?([\w.-]+)+(:\d+)?(\/[\w.-]*)*\/?$`. */
  predicate WellFormedLink(u: Link) {
    HostOk(u.host)
    && (u.port.Some? ==> |u.port.value| > 0 && AllDigits(u.port.value))
    && PathOk(u.path)
  }

  function PortText(port: Option<string>): string {
    if port.Some? then [':'] + port.value else ""
  }

  /** The link after its scheme. */
  function RestText(u: Link): string {
    u.host + (PortText(u.port) + u.path)
  }

  function LinkText(u: Link): string {
    SchemeText(u.scheme) + RestText(u)
  }

  /** The longest prefix of host characters. */
  function HostRun(s: string): (r: string)
    ensures |r| <= |s| && r == s[..|r|]
    ensures forall i :: 0 <= i < |r| ==> IsHostChar(r[i])
    ensures |r| == |s| || !IsHostChar(s[|r|])
    decreases |s|
  {
    if |s| > 0 && IsHostChar(s[0]) then [s[0]] + HostRun(s[1..]) else ""
  }

  lemma {:induction false} HostRunPrefix(h: string, rest: string)
    requires forall i :: 0 <= i < |h| ==> IsHostChar(h[i])
    requires |rest| == 0 || !IsHostChar(rest[0])
    ensures HostRun(h + rest) == h
    decreases |h|
  {
    if |h| > 0 {
      assert (h + rest)[1..] == h[1..] + rest;
      HostRunPrefix(h[1..], rest);
      assert h == [h[0]] + h[1..];
    } else {
      assert h + rest == rest;
    }
  }

  /** "http" at the front of `s`. */
  predicate HttpAt(s: string) {
    |s| >= 4 && s[0] == 'h' && s[1] == 't' && s[2] == 't' && s[3] == 'p'
  }

  /** The scheme a link starts with: "https://", "http://", or none. */
  function SchemeOf(s: string): (sc: Scheme)
    ensures |SchemeText(sc)| <= |s| && s[..|SchemeText(sc)|] == SchemeText(sc)
  {
    if HttpAt(s) && |s| >= 8 && s[4] == 's' && s[5] == ':' && s[6] == '/' && s[7] == '/' then
      assert s[..8] == "https://";
      Https
    else if HttpAt(s) && |s| >= 7 && s[4] == ':' && s[5] == '/' && s[6] == '/' then
      assert s[..7] == "http://";
      Http
    else NoScheme
  }

  /** Reading what follows the host: an optional port, then a path. */
  function ParseAfterHost(sc: Scheme, host: string, after: string): (r: Option<Link>)
    requires HostOk(host)
    ensures r.Some? ==> r.value.scheme == sc && r.value.host == host && WellFormedLink(r.value)
    ensures r.Some? ==> PortText(r.value.port) + r.value.path == after
  {
    if |after| > 0 && after[0] == ':' then
      var digits := LeadingDigits(after[1..]);
      var path := after[1 + |digits|..];
      assert after == [':'] + digits + path;
      if |digits| > 0 && PathOk(path) then Some(Link(sc, host, Some(digits), path)) else None
    else if PathOk(after) then Some(Link(sc, host, None, after))
    else None
  }

  /** Reading what follows the scheme: a host, an optional port and a path. */
  function ParseRest(sc: Scheme, rest: string): (r: Option<Link>)
    ensures r.Some? ==> r.value.scheme == sc && WellFormedLink(r.value) && RestText(r.value) == rest
  {
    var host := HostRun(rest);
    var after := rest[|host|..];
    assert rest == host + after;
    if |host| == 0 then None
    else
      var r := ParseAfterHost(sc, host, after);
      assert r.Some? ==> RestText(r.value) == host + after;
      r
  }

  /** Matching a resource link against the pattern, reading it into its parts. */
  function ParseLink(s: string): (r: Option<Link>)
    ensures r.Some? ==> WellFormedLink(r.value) && LinkText(r.value) == s
  {
    var sc := SchemeOf(s);
    var n := |SchemeText(sc)|;
    assert s == SchemeText(sc) + s[n..];
    ParseRest(sc, s[n..])
  }

  predicate MatchesLink(s: string) {
    ParseLink(s).Some?
  }

  /** Every character after the scheme is a host character, ':' or '/'. */
  lemma RestChars(u: Link)
    requires WellFormedLink(u)
    ensures forall i :: 0 <= i < |RestText(u)| ==>
      IsHostChar(RestText(u)[i]) || RestText(u)[i] == ':' || RestText(u)[i] == '/'
  {
    var t := RestText(u);
    var b := |u.host|;
    var c := b + |PortText(u.port)|;
    forall i | 0 <= i < |t|
      ensures IsHostChar(t[i]) || t[i] == ':' || t[i] == '/'
    {
      if i < b {
        assert t[i] == u.host[i];
      } else if i < c {
        assert t[i] == PortText(u.port)[i - b];
        if i > b { assert t[i] == u.port.value[i - b - 1]; }
      } else {
        assert t[i] == u.path[i - c];
      }
    }
  }

  lemma SchemeChars(sc: Scheme)
    ensures '?' !in SchemeText(sc) && '#' !in SchemeText(sc)
  {
    var t := SchemeText(sc);
    assert forall i :: 0 <= i < |t| ==> t[i] != '?' && t[i] != '#';
  }

  lemma RestNoQuery(u: Link)
    requires WellFormedLink(u)
    ensures '?' !in RestText(u) && '#' !in RestText(u)
  {
    RestChars(u);
  }

  /** A link with a query string or a fragment is refused. */
  lemma LinkRefusesQuery(s: string)
    requires MatchesLink(s)
    ensures '?' !in s && '#' !in s
  {
    var u := ParseLink(s).value;
    RestNoQuery(u);
    SchemeChars(u.scheme);
    assert s == SchemeText(u.scheme) + RestText(u);
  }

  /** Every ':' after the scheme opens the port, so a digit follows it. */
  lemma ColonThenDigit(u: Link, k: nat)
    requires WellFormedLink(u) && k < |RestText(u)| && RestText(u)[k] == ':'
    ensures k + 1 < |RestText(u)| && IsDigit(RestText(u)[k + 1])
  {
    var t := RestText(u);
    var b := |u.host|;
    var c := b + |PortText(u.port)|;
    assert b <= k < c;
    assert u.port.Some?;
    assert k == b;
    assert t[k + 1] == u.port.value[0];
  }

  /** Without a written scheme, a well-formed link cannot begin with "http://" or
      "https://": the ':' would open a port, and no port starts with '/'. */
  lemma NoHiddenScheme(u: Link)
    requires WellFormedLink(u) && u.scheme == NoScheme
    ensures SchemeOf(LinkText(u)) == NoScheme
  {
    var t := LinkText(u);
    assert t == RestText(u);
    if SchemeOf(t) != NoScheme {
      var k := if SchemeOf(t) == Https then 5 else 4;
      assert t[k] == ':' && t[k + 1] == '/';
      ColonThenDigit(u, k);
    }
  }

  /** The scheme is read back from the front of a link. */
  lemma SchemeOfText(u: Link)
    requires WellFormedLink(u)
    ensures SchemeOf(LinkText(u)) == u.scheme
  {
    if u.scheme == NoScheme {
      NoHiddenScheme(u);
    } else {
      var t := LinkText(u);
      assert t[..|SchemeText(u.scheme)|] == SchemeText(u.scheme);
      if u.scheme == Http {
        assert t[4] == SchemeText(Http)[4] == ':';
      } else {
        assert t[4] == SchemeText(Https)[4];
        assert t[5] == SchemeText(Https)[5];
      }
    }
  }

  lemma ParseRestText(u: Link)
    requires WellFormedLink(u)
    ensures ParseRest(u.scheme, RestText(u)) == Some(u)
  {
    var after := PortText(u.port) + u.path;
    assert RestText(u) == u.host + after;
    HostRunPrefix(u.host, after);
    if u.port.Some? {
      assert after == [':'] + (u.port.value + u.path);
      assert after[1..] == u.port.value + u.path;
      LeadingDigitsPrefix(u.port.value, u.path);
    } else {
      assert after == u.path;
    }
  }

  /** Reading a well-formed link gives back its parts. */
  lemma ParseLinkText(u: Link)
    requires WellFormedLink(u)
    ensures ParseLink(LinkText(u)) == Some(u)
  {
    SchemeOfText(u);
    var s := LinkText(u);
    assert s[|SchemeText(u.scheme)|..] == RestText(u);
    ParseRestText(u);
  }

  /** The resource's default counters and flag. */
  const DefaultVotes: int := 0

  datatype ResourceInput = ResourceInput(
    resourceTitle: Option<string>,
    resourceLink: Option<string>,
    resourceUpvotes: Option<int>,
    resourceDownvotes: Option<int>,
    isResourceVetted: Option<bool>,
    resourceSubmittedBy: Option<string>)

  datatype ResourceDoc = ResourceDoc(
    resourceTitle: string,
    resourceLink: string,
    resourceUpvotes: int,
    resourceDownvotes: int,
    isResourceVetted: bool,
    resourceSubmittedBy: string)

  datatype ResourcePath = Title | LinkPath | SubmittedBy

  predicate LinkOk(v: Option<string>) {
    Present(v) && MatchesLink(v.value)
  }

  predicate SubmitterOk(v: Option<string>) {
    Present(v) && MatchesBracuEmail(v.value)
  }

  /** The paths of a resource that fail their validators. */
  function ResourceErrors(input: ResourceInput): (failing: set<ResourcePath>)
    ensures Title in failing <==> !Present(input.resourceTitle)
    ensures LinkPath in failing <==> !LinkOk(input.resourceLink)
    ensures SubmittedBy in failing <==> !SubmitterOk(input.resourceSubmittedBy)
    ensures failing == {} <==>
      Present(input.resourceTitle) && LinkOk(input.resourceLink) && SubmitterOk(input.resourceSubmittedBy)
  {
    (if Present(input.resourceTitle) then {} else {Title})
    + (if LinkOk(input.resourceLink) then {} else {LinkPath})
    + (if SubmitterOk(input.resourceSubmittedBy) then {} else {SubmittedBy})
  }

  /** Validating a resource: a title, a link of the pattern and a submitter email
      of the BRACU pattern, taken as given (this path has no setters); votes
      default to 0 and the vetted flag to false. */
  function ValidateResource(input: ResourceInput): (r: Validation<ResourceDoc, ResourcePath>)
    ensures r.Valid? <==>
      Present(input.resourceTitle)
      && Present(input.resourceLink) && MatchesLink(input.resourceLink.value)
      && Present(input.resourceSubmittedBy) && MatchesBracuEmail(input.resourceSubmittedBy.value)
    ensures r.Invalid? ==>
      (Title in r.failing <==> !Present(input.resourceTitle))
      && (LinkPath in r.failing <==> !(Present(input.resourceLink) && MatchesLink(input.resourceLink.value)))
      && (SubmittedBy in r.failing <==>
          !(Present(input.resourceSubmittedBy) && MatchesBracuEmail(input.resourceSubmittedBy.value)))
    ensures r.Valid? ==>
      input.resourceTitle.Some? && input.resourceLink.Some? && input.resourceSubmittedBy.Some?
      && r.doc.resourceTitle == input.resourceTitle.value
      && r.doc.resourceLink == input.resourceLink.value
      && r.doc.resourceSubmittedBy == input.resourceSubmittedBy.value
      && (input.resourceUpvotes.None? ==> r.doc.resourceUpvotes == DefaultVotes)
      && (input.resourceDownvotes.None? ==> r.doc.resourceDownvotes == DefaultVotes)
      && (input.isResourceVetted.None? ==> !r.doc.isResourceVetted)
      && (input.resourceUpvotes.Some? ==> r.doc.resourceUpvotes == input.resourceUpvotes.value)
      && (input.resourceDownvotes.Some? ==> r.doc.resourceDownvotes == input.resourceDownvotes.value)
      && (input.isResourceVetted.Some? ==> r.doc.isResourceVetted == input.isResourceVetted.value)
  {
    var failing := ResourceErrors(input);
    if failing != {} then Invalid(failing)
    else
      Valid(ResourceDoc(
        input.resourceTitle.value, input.resourceLink.value,
        if input.resourceUpvotes.Some? then input.resourceUpvotes.value else DefaultVotes,
        if input.resourceDownvotes.Some? then input.resourceDownvotes.value else DefaultVotes,
        if input.isResourceVetted.Some? then input.isResourceVetted.value else false,
        input.resourceSubmittedBy.value))
  }

  // ---------------------------------------------------------------------------
  // Routine

  datatype RoutineInput = RoutineInput(email: Option<string>, routine: Option<seq<JsValue>>)

  datatype RoutineDoc = RoutineDoc(email: string, routine: seq<JsValue>)

  /** The stored routines; the unique index on `email` keeps one per address. */
  predicate UniqueEmails(store: seq<RoutineDoc>) {
    forall i, j :: 0 <= i < j < |store| ==> store[i].email != store[j].email
  }

  datatype SaveResult = Saved(store: seq<RoutineDoc>) | InvalidRoutine | DuplicateEmail

  /** Saving a routine: the email path validates as for users, an absent routine
      is stored as `[]`, and an email already stored is a duplicate-key error. */
  function SaveRoutine(store: seq<RoutineDoc>, input: RoutineInput): (r: SaveResult)
    ensures r == InvalidRoutine <==> EmailPath(input.email).None?
    ensures r == DuplicateEmail <==>
      EmailPath(input.email).Some? && exists i :: 0 <= i < |store| && store[i].email == EmailPath(input.email).value
    ensures r.Saved? ==>
      |r.store| == |store| + 1 && r.store[..|store|] == store
      && r.store[|store|].email == EmailPath(input.email).value
      && r.store[|store|].routine == (if input.routine.Some? then input.routine.value else [])
  {
    match EmailPath(input.email)
    case None => InvalidRoutine
    case Some(email) =>
      if exists i :: 0 <= i < |store| && store[i].email == email then DuplicateEmail
      else
        var doc := RoutineDoc(email, if input.routine.Some? then input.routine.value else []);
        assert (store + [doc])[..|store|] == store;
        Saved(store + [doc])
  }

  /** Saving keeps the store at one routine per email. */
  lemma SaveKeepsUnique(store: seq<RoutineDoc>, input: RoutineInput)
    requires UniqueEmails(store)
    ensures SaveRoutine(store, input).Saved? ==> UniqueEmails(SaveRoutine(store, input).store)
  {
    var r := SaveRoutine(store, input);
    if r.Saved? {
      var s := r.store;
      forall i, j | 0 <= i < j < |s| ensures s[i].email != s[j].email {
        if j < |store| {
          assert s[i] == store[i] && s[j] == store[j];
        } else {
          assert s[i] == store[i];
        }
      }
    }
  }
}

=== FILE: seed_data.dfy ===
/** The seed script's helpers and index arithmetic: BRACU addresses from names,
    random semesters and course codes (each `Math.random()` draw passed in as the
    integer it is floored to), the per-review fields chosen by position, the
    moderation and target counts, and the voters drawn for one target. */
module SeedData {
  import opened Base
  import opened JsText
  import opened Schemas

  // ---------------------------------------------------------------------------
  // generateBracuEmail

  /** `replace(/\s/g, '.')`. */
  function DotWhitespace(s: string): (r: string)
    ensures |r| == |s|
    ensures forall i :: 0 <= i < |s| ==> r[i] == (if IsWhitespace(s[i]) then '.' else s[i])
  {
    seq(|s|, i requires 0 <= i < |s| => if IsWhitespace(s[i]) then '.' else s[i])
  }

  /** `generateBracuEmail(name)`: the lower-cased name with every whitespace
      character turned into '.', at the G-Suite domain. */
  function GenerateBracuEmail(name: string): (email: string)
    ensures |email| == |name| + 1 + |GsuiteDomain|
    ensures email[|name|] == '@' && email[|name| + 1..] == GsuiteDomain
    ensures forall i :: 0 <= i < |name| ==> !IsWhitespace(email[i]) && !IsUpperLetter(email[i])
    ensures forall i :: 0 <= i < |name| && !IsWhitespace(name[i]) ==> email[i] == LowerChar(name[i])
    ensures forall i :: 0 <= i < |name| ==> email[i] == (if IsWhitespace(name[i]) then '.' else LowerChar(name[i]))
  {
    DotWhitespace(Lower(name)) + "@" + GsuiteDomain
  }

  /** A space and a dot in the same place give the same address. */
  lemma SpaceOrDotCollide(a: string, b: string)
    ensures GenerateBracuEmail(a + " " + b) == GenerateBracuEmail(a + "." + b)
  {
    LowerAppend(a + " ", b);
    LowerAppend(a, " ");
    LowerAppend(a + ".", b);
    LowerAppend(a, ".");
    var l1, l2 := Lower(a + " " + b), Lower(a + "." + b);
    assert DotWhitespace(l1) == DotWhitespace(l2) by {
      forall i | 0 <= i < |l1| ensures DotWhitespace(l1)[i] == DotWhitespace(l2)[i] {
        if i != |a| { assert l1[i] == l2[i]; }
      }
    }
  }

  /** A name of local-part characters and whitespace gives an address the user
      schema accepts and stores unchanged. */
  lemma GeneratedEmailAccepted(name: string)
    requires |name| > 0
    requires forall i :: 0 <= i < |name| ==> IsLocalChar(name[i]) || IsWhitespace(name[i])
    ensures MatchesBracuEmail(GenerateBracuEmail(name))
    ensures EmailPath(Some(GenerateBracuEmail(name))) == Some(GenerateBracuEmail(name))
  {
    var local := DotWhitespace(Lower(name));
    var email := GenerateBracuEmail(name);
    assert ValidLocal(local) by {
      forall i | 0 <= i < |local| ensures IsLocalChar(local[i]) {
        if !IsWhitespace(name[i]) { assert IsLocalChar(name[i]); }
      }
    }
    EmailAccepted(local, GsuiteDomain);
    assert email == local + "@" + GsuiteDomain;
    NormalizedGenerated(name);
  }

  /** A generated address has nothing for the user schema's setters to change. */
  lemma NormalizedGenerated(name: string)
    ensures NormalizeEmail(GenerateBracuEmail(name)) == GenerateBracuEmail(name)
  {
    var email := GenerateBracuEmail(name);
    var local := DotWhitespace(Lower(name));
    assert email == local + "@" + GsuiteDomain;
    assert forall i :: 0 <= i < |GsuiteDomain| ==> !IsWhitespace(GsuiteDomain[i]) && !IsUpperLetter(GsuiteDomain[i]);
    assert NoWhitespace(email) by {
      forall i | 0 <= i < |email| ensures !IsWhitespace(email[i]) {
        if i > |name| { assert email[i] == GsuiteDomain[i - |name| - 1]; }
      }
    }
    NoWhitespaceTrim(email);
    assert Lower(email) == email by {
      forall i | 0 <= i < |email| ensures LowerChar(email[i]) == email[i] {
        if i > |name| { assert email[i] == GsuiteDomain[i - |name| - 1]; }
      }
    }
  }

  // ---------------------------------------------------------------------------
  // generateSemester

  /** The season names, indexed by `Math.floor(Math.random() * 3)`. */
  function SeasonName(season: nat): (name: string)
    requires season < 3
    ensures 4 <= |name| <= 6 && forall i :: 0 <= i < |name| ==> IsUpperLetter(name[i])
  {
    if season == 0 then "SPRING" else if season == 1 then "SUMMER" else "FALL"
  }

  /** The season a name stands for. */
  function SeasonOf(name: string): Option<nat> {
    if name == "SPRING" then Some(0)
    else if name == "SUMMER" then Some(1)
    else if name == "FALL" then Some(2)
    else None
  }

  lemma SeasonNameRoundTrip(season: nat)
    requires season < 3
    ensures SeasonOf(SeasonName(season)) == Some(season)
  {
    if season == 1 { assert "SUMMER"[1] != "SPRING"[1]; }
    if season == 2 { assert |"FALL"| != |"SPRING"|; assert |"FALL"| != |"SUMMER"|; }
  }

  /** A two-digit number is written with two digits. */
  lemma TwoDigits(n: nat)
    requires 10 <= n < 100
    ensures |NatToString(n)| == 2
  {
    assert NatToString(n) == NatToString(n / 10) + [DigitChar(n % 10)];
  }

  /** `generateSemester()` given the floored draws: a season name and the year
      `22 + yearDraw`, padded to two digits. */
  function GenerateSemester(season: nat, yearDraw: nat): (semester: string)
    requires season < 3 && yearDraw < 5
    ensures semester == SeasonName(season) + NatToString(22 + yearDraw)
    ensures |semester| == |SeasonName(season)| + 2
  {
    var year := NatToString(22 + yearDraw);
    TwoDigits(22 + yearDraw);
    SeasonName(season) + PadStart(year, 2, '0')
  }

  /** Reading a semester back: the season before the last two characters and the
      year they spell. */
  function ReadSemester(semester: string): Option<(nat, nat)> {
    if |semester| < 2 then None
    else
      var year := semester[|semester| - 2..];
      match SeasonOf(semester[..|semester| - 2])
      case None => None
      case Some(season) => if AllDigits(year) then Some((season, DigitsValue(year))) else None
  }

  /** The season and year are read back from a generated semester: years 22 to
      26 already have two digits, so the padding never adds a '0'. */
  lemma SemesterRoundTrip(season: nat, yearDraw: nat)
    requires season < 3 && yearDraw < 5
    ensures ReadSemester(GenerateSemester(season, yearDraw)) == Some((season, 22 + yearDraw))
  {
    var semester := GenerateSemester(season, yearDraw);
    var name := SeasonName(season);
    assert semester[..|semester| - 2] == name;
    assert semester[|semester| - 2..] == NatToString(22 + yearDraw);
    SeasonNameRoundTrip(season);
  }

  // ---------------------------------------------------------------------------
  // generateCourseCode

  /** The department prefixes, indexed by the floored draw. */
  function Department(d: nat): (prefix: string)
    requires d < 8
    ensures |prefix| == 3 && forall i :: 0 <= i < 3 ==> IsUpperLetter(prefix[i])
  {
    if d == 0 then "CSE" else if d == 1 then "EEE" else if d == 2 then "MAT"
    else if d == 3 then "PHY" else if d == 4 then "ENG" else if d == 5 then "BUS"
    else if d == 6 then "ECO" else "MIC"
  }

  /** A three-digit number is written with three digits. */
  lemma ThreeDigits(n: nat)
    requires 100 <= n < 1000
    ensures |NatToString(n)| == 3
  {
    assert NatToString(n) == NatToString(n / 10) + [DigitChar(n % 10)];
    TwoDigits(n / 10);
  }

  /** `generateCourseCode()` given the floored draws: a department and the number
      `100 + numberDraw`. */
  function GenerateCourseCode(d: nat, numberDraw: nat): (code: string)
    requires d < 8 && numberDraw < 400
    ensures MatchesCourseCode(code)
    ensures code[..3] == Department(d)
    ensures DigitsValue(code[3..]) == 100 + numberDraw
  {
    var number := NatToString(100 + numberDraw);
    ThreeDigits(100 + numberDraw);
    var code := Department(d) + number;
    assert code[3..] == number;
    code
  }

  /** Every generated code is accepted as a course code by the swap schema. */
  lemma GeneratedCodeAccepted(d: nat, numberDraw: nat)
    requires d < 8 && numberDraw < 400
    ensures CodeOk(Some(GenerateCourseCode(d, numberDraw)))
  {
  }

  /** Different draws give different codes. */
  lemma CourseCodeInjective(d1: nat, n1: nat, d2: nat, n2: nat)
    requires d1 < 8 && n1 < 400 && d2 < 8 && n2 < 400
    requires GenerateCourseCode(d1, n1) == GenerateCourseCode(d2, n2)
    ensures d1 == d2 && n1 == n2
  {
    var p1, p2 := Department(d1), Department(d2);
    assert p1 == p2;
  }

  // ---------------------------------------------------------------------------
  // Reviews, materials and moderation

  /** The moderation states a post or a decision can take. */
  datatype PostState = Pending | Published | Rejected

  function PostStateText(st: PostState): string {
    match st
    case Pending => "pending"
    case Published => "published"
    case Rejected => "rejected"
  }

  /** `['pending', 'published', 'rejected'][i % 3]`. */
  function StateCycle(i: nat): (st: PostState)
    ensures st == Pending <==> i % 3 == 0
    ensures st == Published <==> i % 3 == 1
    ensures st == Rejected <==> i % 3 == 2
  {
    [Pending, Published, Rejected][i % 3]
  }

  /** The fields of review `i` fixed by its position; `facultyIndex` is `None` when
      no faculty id was returned (`i % 0` is `NaN`, and the id `undefined`). */
  datatype ReviewSlots = ReviewSlots(
    facultyIndex: Option<nat>, userIndex: nat, isAnon: bool, section: string, postState: PostState)

  const SeedUserCount: nat := 10
  const ReviewCount: nat := 15
  const MaterialCount: nat := 10

  /** Review `i` among `faculties` returned faculty ids. */
  function ReviewAt(i: nat, faculties: nat): (r: ReviewSlots)
    ensures r.isAnon <==> i % 3 == 0
    ensures |r.section| == 1 && '1' <= r.section[0] <= '9'
    ensures ParseInt(r.section) == Some(i % 9 + 1)
    ensures r.postState == StateCycle(i)
    ensures r.userIndex < SeedUserCount && r.userIndex == i % SeedUserCount
    ensures faculties > 0 ==> r.facultyIndex.Some? && r.facultyIndex.value < faculties
    ensures faculties > 0 ==> r.facultyIndex == Some(i % faculties)
    ensures faculties == 0 ==> r.facultyIndex.None?
  {
    ParseIntNatToString(i % 9 + 1);
    ReviewSlots(
      if faculties > 0 then Some(i % faculties) else None,
      i % SeedUserCount,
      i % 3 == 0,
      NatToString(i % 9 + 1),
      StateCycle(i))
  }

  /** One moderation entry: the moderated id, which of the three moderators, and
      the decision. */
  datatype Moderation = Moderation(target: nat, moderator: nat, decision: PostState)

  /** The moderation loop over the first `limit` ids, cycling moderators and the
      decisions in `cycle`. */
  method Moderate(ids: seq<nat>, limit: nat, cycle: seq<PostState>) returns (logged: seq<Moderation>, count: nat)
    requires |cycle| == 3
    ensures count == Min(limit, |ids|) && |logged| == count
    ensures forall i :: 0 <= i < count ==>
      logged[i] == Moderation(ids[i], i % 3, cycle[i % 3])
  {
    logged := [];
    count := 0;
    var i := 0;
    while i < Min(limit, |ids|)
      invariant 0 <= i <= Min(limit, |ids|)
      invariant count == i && |logged| == i
      invariant forall k :: 0 <= k < i ==> logged[k] == Moderation(ids[k], k % 3, cycle[k % 3])
    {
      logged := logged + [Moderation(ids[i], i % 3, cycle[i % 3])];
      count := count + 1;
      i := i + 1;
    }
  }

  /** Review moderation: the first five reviews, decisions pending, published,
      rejected in turn. */
  method ModerateReviews(reviewIds: seq<nat>) returns (logged: seq<Moderation>, count: nat)
    ensures count == Min(5, |reviewIds|) && |logged| == count
    ensures forall i :: 0 <= i < count ==> logged[i].target == reviewIds[i] && logged[i].decision == StateCycle(i)
    ensures forall i :: 0 <= i < count ==> logged[i].moderator == i % 3
  {
    logged, count := Moderate(reviewIds, 5, [Pending, Published, Rejected]);
  }

  /** Material moderation: the first three materials, decisions published,
      rejected, pending in turn. */
  method ModerateMaterials(materialIds: seq<nat>) returns (logged: seq<Moderation>, count: nat)
    ensures count == Min(3, |materialIds|) && |logged| == count
    ensures forall i :: 0 <= i < count ==> logged[i].target == materialIds[i] && logged[i].decision == StateCycle(i + 1)
    ensures forall i :: 0 <= i < count ==> logged[i].moderator == i % 3
  {
    logged, count := Moderate(materialIds, 3, [Published, Rejected, Pending]);
  }

  /** A row returned by an insert. */
  predicate IsRow(o: Option<nat>) {
    o.Some?
  }

  /** The ids an insert loop collects: each insert that returned a row adds its
      uuid, in order, and an insert that returned none adds nothing. */
  function Returned(rows: seq<Option<nat>>): (ids: seq<nat>)
    ensures |ids| <= |rows|
    ensures forall x :: x in ids <==> Some(x) in rows
    decreases |rows|
  {
    if |rows| == 0 then []
    else
      var rest := Returned(rows[1..]);
      assert rows == [rows[0]] + rows[1..];
      if rows[0].Some? then [rows[0].value] + rest else rest
  }

  /** The ids as the rows that carried them. */
  function AsRows(ids: seq<nat>): (rows: seq<Option<nat>>)
    ensures |rows| == |ids| && forall k :: 0 <= k < |ids| ==> rows[k] == Some(ids[k])
  {
    seq(|ids|, k requires 0 <= k < |ids| => Some(ids[k]))
  }

  lemma {:induction false} ReturnedKeep(rows: seq<Option<nat>>)
    ensures AsRows(Returned(rows)) == Keep(rows, IsRow)
    decreases |rows|
  {
    if |rows| > 0 {
      ReturnedKeep(rows[1..]);
      var rest := Returned(rows[1..]);
      if rows[0].Some? {
        assert AsRows([rows[0].value] + rest) == [rows[0]] + AsRows(rest);
      }
    }
  }

  /** The collected ids are the returned rows, in order and with their
      multiplicity: exactly the rows that the test `result && result[0]` keeps. */
  lemma ReturnedKeepsRows(rows: seq<Option<nat>>)
    ensures AsRows(Returned(rows)) == Filter(rows, IsRow)
  {
    ReturnedKeep(rows);
  }

  /** The loop's step: one more insert adds its uuid exactly when it returned a row. */
  lemma {:induction false} ReturnedAppend(rows: seq<Option<nat>>, o: Option<nat>)
    ensures Returned(rows + [o]) == Returned(rows) + (if o.Some? then [o.value] else [])
    decreases |rows|
  {
    if |rows| == 0 {
      assert rows + [o] == [o];
      assert [o][1..] == [];
    } else {
      assert (rows + [o])[0] == rows[0] && (rows + [o])[1..] == rows[1..] + [o];
      ReturnedAppend(rows[1..], o);
    }
  }

  /** The insert at position `j` of `refs` returns a row: its refID is neither in
      the `targets` table beforehand (`taken`) nor inserted earlier by the loop.
      Under `ON CONFLICT (refID) DO NOTHING` every other insert returns no row. */
  predicate NewRef(refs: seq<nat>, taken: set<nat>, j: nat)
    requires j < |refs|
  {
    refs[j] !in taken && refs[j] !in refs[..j]
  }

  /** What each insert returns; `uuid(j)` is the uuid the database assigns to the
      `j`-th insert when it adds a row. */
  function InsertResults(refs: seq<nat>, taken: set<nat>, uuid: nat -> nat): (rows: seq<Option<nat>>)
    ensures |rows| == |refs|
  {
    seq(|refs|, j requires 0 <= j < |refs| => if NewRef(refs, taken, j) then Some(uuid(j)) else None)
  }

  /** The refIDs of a sequence. */
  function RefSet(refs: seq<nat>): set<nat> {
    set x | x in refs
  }

  /** One pass of inserts into `targets`, starting from the refIDs in `taken`:
      the uuids returned, and the refIDs in the table afterwards. */
  method InsertTargets(refs: seq<nat>, taken: set<nat>, uuid: nat -> nat) returns (ids: seq<nat>, table: set<nat>)
    ensures table == taken + RefSet(refs)
    ensures ids == Returned(InsertResults(refs, taken, uuid))
  {
    ids, table := [], taken;
    var i := 0;
    while i < |refs|
      invariant 0 <= i <= |refs|
      invariant table == taken + RefSet(refs[..i])
      invariant ids == Returned(InsertResults(refs[..i], taken, uuid))
    {
      InsertStep(refs, taken, uuid, i);
      if refs[i] !in table {
        ids := ids + [uuid(i)];
        table := table + {refs[i]};
      }
      i := i + 1;
    }
    assert refs[..i] == refs;
  }

  /** One iteration of the insert loop, stated on the prefix it has covered. */
  lemma InsertStep(refs: seq<nat>, taken: set<nat>, uuid: nat -> nat, i: nat)
    requires i < |refs|
    ensures RefSet(refs[..i + 1]) == RefSet(refs[..i]) + {refs[i]}
    ensures Returned(InsertResults(refs[..i + 1], taken, uuid))
      == Returned(InsertResults(refs[..i], taken, uuid))
         + (if refs[i] in taken + RefSet(refs[..i]) then [] else [uuid(i)])
  {
    var x := refs[i];
    assert refs[..i + 1] == refs[..i] + [x];
    InsertResultsAppend(refs[..i], x, taken, uuid);
    var o := if x !in taken && x !in refs[..i] then Some(uuid(i)) else None;
    ReturnedAppend(InsertResults(refs[..i], taken, uuid), o);
  }

  /** Step 8: the first five reviews and then the first three materials are
      inserted into the one `targets` table, whose refID is unique for both kinds,
      and every insert that returned a row contributes its uuid. */
  method SeedTargets(reviewIds: seq<nat>, materialIds: seq<nat>, taken: set<nat>, uuid: nat -> nat)
    returns (targetIds: seq<nat>)
    ensures targetIds == Returned(InsertResults(Take(reviewIds, 5) + Take(materialIds, 3), taken, uuid))
    ensures |targetIds| == |RefSet(Take(reviewIds, 5) + Take(materialIds, 3)) - taken|
    ensures |targetIds| <= Min(5, |reviewIds|) + Min(3, |materialIds|)
  {
    var refs := Take(reviewIds, 5) + Take(materialIds, 3);
    var table;
    targetIds, table := InsertTargets(refs, taken, uuid);
    TargetCount(refs, taken, uuid);
  }

  /** Adding one insert at the end leaves the earlier results unchanged. */
  lemma InsertResultsAppend(refs: seq<nat>, x: nat, taken: set<nat>, uuid: nat -> nat)
    ensures InsertResults(refs + [x], taken, uuid)
      == InsertResults(refs, taken, uuid) + [if x !in taken && x !in refs then Some(uuid(|refs|)) else None]
  {
    var zs := refs + [x];
    var a, b := InsertResults(zs, taken, uuid), InsertResults(refs, taken, uuid);
    forall j | 0 <= j < |refs| ensures a[j] == b[j] {
      assert zs[..j] == refs[..j];
      assert NewRef(zs, taken, j) == NewRef(refs, taken, j);
    }
    assert zs[..|refs|] == refs;
    assert NewRef(zs, taken, |refs|) == (x !in taken && x !in refs);
  }

  /** One uuid per distinct refID not already in the table: a refID repeated
      among the attempts, or already present, yields no second target. */
  lemma {:induction false} TargetCount(refs: seq<nat>, taken: set<nat>, uuid: nat -> nat)
    ensures |Returned(InsertResults(refs, taken, uuid))| == |RefSet(refs) - taken|
    ensures |Returned(InsertResults(refs, taken, uuid))| <= |refs|
    decreases |refs|
  {
    if |refs| == 0 {
      assert RefSet(refs) == {};
    } else {
      var init, x := refs[..|refs| - 1], refs[|refs| - 1];
      assert refs == init + [x];
      TargetCount(init, taken, uuid);
      InsertResultsAppend(init, x, taken, uuid);
      var isNew := x !in taken && x !in init;
      ReturnedAppend(InsertResults(init, taken, uuid), if isNew then Some(uuid(|init|)) else None);
      assert RefSet(refs) == RefSet(init) + {x};
      if isNew {
        assert x !in RefSet(init) - taken;
        assert RefSet(refs) - taken == (RefSet(init) - taken) + {x};
      } else {
        assert RefSet(refs) - taken == RefSet(init) - taken;
      }
    }
  }

  /** A review and a material that share a refID give one target, not two. */
  lemma SharedRefOnce(r: nat, taken: set<nat>, uuid: nat -> nat)
    requires r !in taken
    ensures Returned(InsertResults(Take([r], 5) + Take([r], 3), taken, uuid)) == [uuid(0)]
  {
    assert Take([r], 5) + Take([r], 3) == [r] + [r];
    InsertResultsAppend([r], r, taken, uuid);
    InsertResultsAppend([], r, taken, uuid);
    assert [] + [r] == [r];
    ReturnedAppend([Some(uuid(0))], None);
    ReturnedAppend([], Some(uuid(0)));
    assert [] + [Some(uuid(0))] == [Some(uuid(0))];
  }

  // ---------------------------------------------------------------------------
  // Votes

  /** The number of votes a target gets, from the floored draw: 2 to 4. */
  function VoteCount(draw: nat): (n: nat)
    requires draw < 3
    ensures 2 <= n <= 4
  {
    draw + 2
  }

  /** The emails of the chosen user indexes. */
  function EmailsOf(emails: seq<string>, chosen: seq<nat>): (used: set<string>)
    requires forall k :: 0 <= k < |chosen| ==> chosen[k] < |emails|
    ensures forall k :: 0 <= k < |chosen| ==> emails[chosen[k]] in used
    ensures forall e :: e in used ==> exists k :: 0 <= k < |chosen| && emails[chosen[k]] == e
  {
    set k | 0 <= k < |chosen| :: emails[chosen[k]]
  }

  lemma EmailsOfAppend(emails: seq<string>, chosen: seq<nat>, u: nat)
    requires forall k :: 0 <= k < |chosen| ==> chosen[k] < |emails|
    requires u < |emails|
    ensures EmailsOf(emails, chosen + [u]) == EmailsOf(emails, chosen) + {emails[u]}
  {
    var c := chosen + [u];
    assert c[|chosen|] == u;
    forall e ensures e in EmailsOf(emails, c) <==> e in EmailsOf(emails, chosen) + {emails[u]} {
      if e in EmailsOf(emails, c) {
        var k :| 0 <= k < |c| && emails[c[k]] == e;
        if k < |chosen| { assert c[k] == chosen[k]; }
      }
      if e in EmailsOf(emails, chosen) {
        var k :| 0 <= k < |chosen| && emails[chosen[k]] == e;
        assert c[k] == chosen[k];
      }
    }
  }

  /** What the voter loop keeps after `consumed` draws: distinct e-mails, the draws
      taken in order, every consumed draw's e-mail used, and a full vote ending at
      the draw that completed it. */
  predicate VotersSoFar(emails: seq<string>, numVotes: nat, draws: seq<nat>, chosen: seq<nat>, consumed: nat)
    requires forall k :: 0 <= k < |draws| ==> draws[k] < |emails|
  {
    && consumed <= |draws| && |chosen| <= numVotes
    && (forall k :: 0 <= k < |chosen| ==> chosen[k] < |emails| && chosen[k] in draws[..consumed])
    && (forall j, k :: 0 <= j < k < |chosen| ==> emails[chosen[j]] != emails[chosen[k]])
    && IsSubseq(chosen, draws[..consumed])
    && (forall p :: 0 <= p < consumed ==> emails[draws[p]] in EmailsOf(emails, chosen))
    && (|chosen| == numVotes && numVotes > 0 ==> consumed > 0 && chosen[|chosen| - 1] == draws[consumed - 1])
  }

  lemma VotersStart(emails: seq<string>, numVotes: nat, draws: seq<nat>)
    requires forall k :: 0 <= k < |draws| ==> draws[k] < |emails|
    ensures VotersSoFar(emails, numVotes, draws, [], 0)
  {
    assert EmailsOf(emails, []) == {};
  }

  /** The loop's state, read off as the voter choice's promises. */
  lemma VotersDone(emails: seq<string>, numVotes: nat, draws: seq<nat>, chosen: seq<nat>, consumed: nat)
    requires forall k :: 0 <= k < |draws| ==> draws[k] < |emails|
    requires VotersSoFar(emails, numVotes, draws, chosen, consumed)
    ensures |chosen| <= numVotes && consumed <= |draws|
    ensures forall k :: 0 <= k < |chosen| ==> chosen[k] < |emails| && chosen[k] in draws[..consumed]
    ensures forall j, k :: 0 <= j < k < |chosen| ==> emails[chosen[j]] != emails[chosen[k]]
    ensures IsSubseq(chosen, draws[..consumed])
    ensures forall p :: 0 <= p < consumed ==> emails[draws[p]] in EmailsOf(emails, chosen)
    ensures |chosen| == numVotes && numVotes > 0 ==> consumed > 0 && chosen[|chosen| - 1] == draws[consumed - 1]
  {
  }

  /** One more draw: taken when its e-mail is unused, skipped otherwise. */
  lemma VotersStep(emails: seq<string>, numVotes: nat, draws: seq<nat>, chosen: seq<nat>, consumed: nat, next: seq<nat>)
    requires forall k :: 0 <= k < |draws| ==> draws[k] < |emails|
    requires VotersSoFar(emails, numVotes, draws, chosen, consumed)
    requires consumed < |draws| && |chosen| < numVotes
    requires next == if emails[draws[consumed]] !in EmailsOf(emails, chosen) then chosen + [draws[consumed]] else chosen
    ensures VotersSoFar(emails, numVotes, draws, next, consumed + 1)
  {
    var u := draws[consumed];
    assert draws[..consumed + 1] == draws[..consumed] + [u];
    SubseqSnoc(chosen, draws[..consumed], u);
    if emails[u] !in EmailsOf(emails, chosen) {
      EmailsOfAppend(emails, chosen, u);
      forall j, k | 0 <= j < k < |next| ensures emails[next[j]] != emails[next[k]] {
        if k == |chosen| {
          assert emails[chosen[j]] in EmailsOf(emails, chosen);
        }
      }
    }
  }

  /** The voters of one target: for each vote, user indexes are drawn (from
      `draws`, in order) until one whose email is not yet used comes up. The
      source draws without end; here the votes stop when `draws` runs out. */
  method ChooseVoters(emails: seq<string>, numVotes: nat, draws: seq<nat>) returns (chosen: seq<nat>, consumed: nat)
    requires forall k :: 0 <= k < |draws| ==> draws[k] < |emails|
    ensures |chosen| <= numVotes && consumed <= |draws|
    ensures |chosen| < numVotes ==> consumed == |draws|
    ensures forall k :: 0 <= k < |chosen| ==> chosen[k] < |emails| && chosen[k] in draws[..consumed]
    ensures forall j, k :: 0 <= j < k < |chosen| ==> emails[chosen[j]] != emails[chosen[k]]
    ensures IsSubseq(chosen, draws[..consumed])
    ensures forall p :: 0 <= p < consumed ==> emails[draws[p]] in EmailsOf(emails, chosen)
    ensures |chosen| == numVotes && numVotes > 0 ==> consumed > 0 && chosen[|chosen| - 1] == draws[consumed - 1]
  {
    chosen := [];
    consumed := 0;
    var usedEmails: set<string> := {};
    VotersStart(emails, numVotes, draws);
    while |chosen| < numVotes && consumed < |draws|
      invariant VotersSoFar(emails, numVotes, draws, chosen, consumed)
      invariant usedEmails == EmailsOf(emails, chosen)
      decreases |draws| - consumed
    {
      var userIndex := draws[consumed];
      var taken := emails[userIndex] !in usedEmails;
      var next := if taken then chosen + [userIndex] else chosen;
      VotersStep(emails, numVotes, draws, chosen, consumed, next);
      if taken {
        EmailsOfAppend(emails, chosen, userIndex);
        usedEmails := usedEmails + {emails[userIndex]};
      }
      chosen, consumed := next, consumed + 1;
    }
    VotersDone(emails, numVotes, draws, chosen, consumed);
  }
}

=== FILE: selection.dfy ===
/** Add/remove toggling of an id in a selection list, shared by the multi-course
    selector (`toggleSection`) and the swap filter (`toggleCourse`). */
module SelectionList {
  import opened Base

  /** A present id is removed, every occurrence of it (`filter(id => id !== x)`);
      an absent id is appended at the end. */
  function Toggle<T(==, !new)>(values: seq<T>, id: T): (r: seq<T>)
    ensures id in r <==> id !in values
    ensures forall x :: x != id ==> multiset(r)[x] == multiset(values)[x]
    ensures id in values ==> IsSubseq(r, values)
    ensures id !in values ==> |r| == |values| + 1 && r[..|values|] == values
  {
    if id in values then
      Filter(values, (x: T) => x != id)
    else
      var r := values + [id];
      assert multiset(r) == multiset(values) + multiset{id};
      assert r[..|values|] == values;
      r
  }

  /** Toggling an absent id twice gives back the original list. */
  lemma ToggleTwice<T(!new)>(values: seq<T>, id: T)
    requires id !in values
    ensures Toggle(Toggle(values, id), id) == values
  {
    FilterAppendOne(values, id, (x: T) => x != id);
    FilterKeepsAll(values, (x: T) => x != id);
  }

  /** Toggling keeps a duplicate-free selection duplicate-free. */
  lemma ToggleDistinct<T(!new)>(values: seq<T>, id: T)
    requires Distinct(values)
    ensures Distinct(Toggle(values, id))
  {
    if id in values {
      FilterDistinct(values, (x: T) => x != id);
    } else {
      var r := values + [id];
      forall i, j | 0 <= i < j < |r| ensures r[i] != r[j] {
        if j == |values| {
          assert r[i] == values[i];
        } else {
          assert r[i] == values[i] && r[j] == values[j];
        }
      }
    }
  }
}

/** The multi-course selector of the swap form: its search box and its lookup of a
    chosen section by string key. */
module MultiCourseSelector {
  import opened Base
  import opened CourseCatalog

  /** `filterCourses`: an empty catalog gives nothing before the search runs. */
  function SelectorFilter(courses: seq<Course>, searchTerm: string): (r: seq<Course>)
    ensures |courses| == 0 ==> r == []
  {
    if |courses| == 0 then [] else SearchCourses(courses, searchTerm)
  }

  /** The early return agrees with the search itself, which finds nothing in an
      empty catalog either. */
  lemma SelectorFilterIsSearch(courses: seq<Course>, searchTerm: string)
    ensures SelectorFilter(courses, searchTerm) == SearchCourses(courses, searchTerm)
  {
  }
}

=== FILE: swap_card.dfy ===
/** One card of the swap list: the offered and asked-for sections by label, the
    author, a relative creation date, and the owner-only actions. */
module SwapCard {
  import opened Base
  import opened JsText
  import opened CourseCatalog
  import opened SwapRecord

  /** Milliseconds in a day, `1000 * 60 * 60 * 24`. */
  const DayMs: nat := 1000 * 60 * 60 * 24

  /** The largest distance from the epoch, in milliseconds, that a JavaScript
      `Date` can hold; beyond it the date is invalid. */
  const MaxTimeMs: nat := 8_640_000_000_000_000

  /** What `formatDate` shows: an unknown date, a relative day, or an absolute date
      (its time value, `None` for an invalid date). */
  datatype DateLabel = UnknownDate | Today | Yesterday | DaysAgo(days: nat) | Absolute(ms: Option<int>)

  /** `Math.abs(now - date)` in milliseconds. */
  function Distance(a: int, b: int): (d: nat)
    ensures d == a - b || d == b - a
  {
    if a >= b then a - b else b - a
  }

  /** The time value of `new Date(parseInt(timestamp) * 1000)` for a truthy
      timestamp in Unix seconds: `None` when `parseInt` gives `NaN` or the value is
      out of a `Date`'s range. */
  function CreatedMs(createdAt: Attr): (ms: Option<int>)
    ensures ms.Some? ==> Truthy(createdAt) && ParseInt(createdAt.s).Some?
    ensures ms.Some? ==> ms.value == 1000 * ParseInt(createdAt.s).value
    ensures ms.Some? ==> -(MaxTimeMs as int) <= ms.value <= MaxTimeMs
  {
    if !Truthy(createdAt) then None
    else
      match ParseInt(createdAt.s)
      case None => None
      case Some(t) => if -(MaxTimeMs as int) <= t * 1000 <= MaxTimeMs then Some(t * 1000) else None
  }

  /** Reference reading of the date buckets by interval: which label describes a
      creation time `ms` lying `diff` milliseconds from now. */
  predicate Describes(r: DateLabel, diff: nat, ms: int) {
    match r
    case UnknownDate => false
    case Today => diff < DayMs
    case Yesterday => DayMs <= diff < 2 * DayMs
    case DaysAgo(d) => 2 <= d <= 6 && d * DayMs <= diff < (d + 1) * DayMs
    case Absolute(m) => m == Some(ms) && 7 * DayMs <= diff
  }

  /** Whole days in a distance bound it from both sides. */
  lemma WholeDays(diff: nat)
    ensures (diff / DayMs) * DayMs <= diff < (diff / DayMs + 1) * DayMs
  {
  }

  /** The label for a valid creation time `ms` lying `diff` milliseconds from now. */
  function Bucket(diff: nat, ms: int): (r: DateLabel)
    ensures Describes(r, diff, ms)
  {
    var days := diff / DayMs;
    WholeDays(diff);
    if days == 0 then Today
    else if days == 1 then Yesterday
    else if days < 7 then DaysAgo(days)
    else Absolute(Some(ms))
  }

  /** `formatDate(timestamp)` with the current time `nowMs` passed in: a falsy
      timestamp is an unknown date; otherwise the whole days between now and the
      creation time, taken in absolute value, pick the label. An invalid date
      fails every comparison and falls through to the absolute date. */
  function FormatDate(createdAt: Attr, nowMs: int): (r: DateLabel)
    ensures r == UnknownDate <==> !Truthy(createdAt)
    ensures Truthy(createdAt) && CreatedMs(createdAt).None? ==> r == Absolute(None)
    ensures CreatedMs(createdAt).Some? ==>
      Describes(r, Distance(nowMs, CreatedMs(createdAt).value), CreatedMs(createdAt).value)
  {
    if !Truthy(createdAt) then UnknownDate
    else
      match CreatedMs(createdAt)
      case None => Absolute(None)
      case Some(ms) => Bucket(Distance(nowMs, ms), ms)
  }

  /** At most one label describes a distance, so the interval reading determines
      `formatDate`'s result. */
  lemma DescribesUnique(r1: DateLabel, r2: DateLabel, diff: nat, ms: int)
    requires Describes(r1, diff, ms) && Describes(r2, diff, ms)
    ensures r1 == r2
  {
  }

  /** The bucket only depends on the distance: a creation time as far in the
      future as another is in the past gets the same label. */
  lemma DateSymmetric(createdAt: Attr, ms: int, delta: int)
    requires CreatedMs(createdAt) == Some(ms)
    ensures FormatDate(createdAt, ms + delta) == FormatDate(createdAt, ms - delta)
  {
    var r1, r2 := FormatDate(createdAt, ms + delta), FormatDate(createdAt, ms - delta);
    assert Distance(ms + delta, ms) == Distance(ms - delta, ms);
    DescribesUnique(r1, r2, Distance(ms + delta, ms), ms);
  }

  /** A valid creation time shows as "Today" exactly when it is less than a day
      away from now, in either direction. */
  lemma TodayIff(createdAt: Attr, nowMs: int)
    requires CreatedMs(createdAt).Some?
    ensures FormatDate(createdAt, nowMs) == Today <==>
      -(DayMs as int) < nowMs - CreatedMs(createdAt).value < DayMs
  {
    var ms := CreatedMs(createdAt).value;
    var d := Distance(nowMs, ms);
    var r := FormatDate(createdAt, nowMs);
    if d < DayMs {
      DescribesUnique(r, Today, d, ms);
    }
  }

  /** The text of a label; `localeText` stands for `toLocaleDateString` on a valid
      date, and an invalid one shows as "Invalid Date". */
  function DateText(r: DateLabel, localeText: int -> string): string {
    match r
    case UnknownDate => "Unknown date"
    case Today => "Today"
    case Yesterday => "Yesterday"
    case DaysAgo(d) => NatToString(d) + " days ago"
    case Absolute(None) => "Invalid Date"
    case Absolute(Some(ms)) => localeText(ms)
  }

  /** A label `formatDate` can give other than an absolute date. */
  predicate Relative(r: DateLabel) {
    !r.Absolute? && (r.DaysAgo? ==> 2 <= r.days <= 6)
  }

  /** Different relative labels never show the same text. */
  lemma RelativeTextInjective(r1: DateLabel, r2: DateLabel, localeText: int -> string)
    requires Relative(r1) && Relative(r2)
    requires DateText(r1, localeText) == DateText(r2, localeText)
    ensures r1 == r2
  {
    if r1.DaysAgo? || r2.DaysAgo? {
      assert r1.DaysAgo? && r2.DaysAgo? by {
        if !r1.DaysAgo? { DaysAgoText(r2.days, DateText(r1, localeText)); }
        if !r2.DaysAgo? { DaysAgoText(r1.days, DateText(r2, localeText)); }
      }
      var t1, t2 := NatToString(r1.days), NatToString(r2.days);
      assert |t1| == 1 && |t2| == 1 by { SingleDigit(r1.days); SingleDigit(r2.days); }
      assert t1 == (t1 + " days ago")[..1] == (t2 + " days ago")[..1] == t2;
      NatToStringInjective(r1.days, r2.days);
    }
  }

  /** A day count below ten is written with one digit. */
  lemma SingleDigit(d: nat)
    requires d < 10
    ensures |NatToString(d)| == 1
  {
  }

  /** "<d> days ago" for a day count of one digit starts with a digit and has ten
      characters, unlike the fixed texts. */
  lemma DaysAgoText(d: nat, other: string)
    requires 2 <= d <= 6
    requires other in {"Unknown date", "Today", "Yesterday"}
    ensures NatToString(d) + " days ago" != other
  {
    SingleDigit(d);
    var t := NatToString(d) + " days ago";
    assert |t| == 10;
    if other == "Unknown date" {
      assert IsDigit(t[0]) && !IsDigit(other[0]);
    }
  }

  /** `isOwner`: the signed-in user's email strictly equals the swap's `uemail`
      (`sessionEmail` is `Missing` when there is no session). */
  predicate IsOwner(sessionEmail: Attr, swap: Swap) {
    sessionEmail == swap.uemail
  }

  /** Strict equality makes a signed-out viewer the owner of a swap whose `uemail`
      is absent, while a `null` email is owned by nobody signed out. */
  lemma SignedOutOwnership(swap: Swap)
    ensures IsOwner(Missing, swap) <==> swap.uemail == Missing
    ensures swap.uemail == Null ==> !IsOwner(Missing, swap)
  {
  }

  /** The card's action buttons. */
  datatype Action = Complete | Delete

  /** The action buttons: Delete for the owner, Complete for the owner of a swap
      that is not done. */
  function Actions(sessionEmail: Attr, swap: Swap): (acts: set<Action>)
    ensures Delete in acts <==> IsOwner(sessionEmail, swap)
    ensures Complete in acts <==> IsOwner(sessionEmail, swap) && !swap.isDone
  {
    if !IsOwner(sessionEmail, swap) then {}
    else if swap.isDone then {Delete}
    else {Complete, Delete}
  }

  /** Nobody but the owner gets a button, and a completed swap cannot be completed
      again. */
  lemma ActionsNeedOwner(sessionEmail: Attr, swap: Swap)
    ensures Actions(sessionEmail, swap) != {} ==> IsOwner(sessionEmail, swap)
    ensures swap.isDone ==> Complete !in Actions(sessionEmail, swap)
  {
  }

  /** The "Looking For" box: one badge per asked-for section, or the note that any
      section of the course will do. */
  datatype LookingFor = AnySection | Sections(labels: seq<string>)

  /** What a card shows. */
  datatype CardView = CardView(
    status: string,
    yourSwap: bool,
    offering: string,
    lookingFor: LookingFor,
    user: string,
    date: DateLabel,
    actions: set<Action>)

  /** `parseInt` of a text that starts with neither whitespace, a sign nor a digit
      is `NaN`; `parseInt(null)` reads the text "null". */
  lemma ParseNoDigits(s: string)
    requires |s| > 0 && !IsWhitespace(s[0]) && !IsDigit(s[0]) && s[0] != '-' && s[0] != '+'
    ensures ParseInt(s) == None
  {
    assert TrimStart(s) == s;
    assert LeadingDigits(s) == "";
  }

  /** The card for `swap`, seen by `sessionEmail` at time `nowMs`. */
  function ViewCard(swap: Swap, courses: seq<Course>, sessionEmail: Attr, nowMs: int): (v: CardView)
    ensures v.status == "Completed" <==> swap.isDone
    ensures v.status == "Active" <==> !swap.isDone
    ensures v.yourSwap <==> IsOwner(sessionEmail, swap)
    ensures swap.getSectionId.Some? ==> v.offering == IdLabel(courses, swap.getSectionId.value)
    ensures swap.getSectionId.None? ==> v.offering == "Section null"
    ensures v.lookingFor.AnySection? <==> swap.askingSections.None? || swap.askingSections.value == []
    ensures v.lookingFor.Sections? ==>
      |v.lookingFor.labels| == |swap.askingSections.value|
      && forall i :: 0 <= i < |v.lookingFor.labels| ==>
        v.lookingFor.labels[i] == IdLabel(courses, swap.askingSections.value[i])
    ensures Truthy(swap.uemail) ==> v.user == swap.uemail.s
    ensures !Truthy(swap.uemail) ==> v.user == "Unknown user"
    ensures v.date == FormatDate(swap.createdAt, nowMs)
    ensures v.actions == Actions(sessionEmail, swap)
  {
    var offering := SectionLabel(courses, IdText(swap.getSectionId));
    assert swap.getSectionId.None? ==> offering == "Section null" by {
      if swap.getSectionId.None? {
        ParseNoDigits(IdText(swap.getSectionId));
      }
    }
    var lookingFor :=
      if swap.askingSections.None? || swap.askingSections.value == [] then AnySection
      else
        var asks := swap.askingSections.value;
        Sections(seq(|asks|, i requires 0 <= i < |asks| => IdLabel(courses, asks[i])));
    CardView(
      if swap.isDone then "Completed" else "Active",
      IsOwner(sessionEmail, swap),
      offering,
      lookingFor,
      if Truthy(swap.uemail) then swap.uemail.s else "Unknown user",
      FormatDate(swap.createdAt, nowMs),
      Actions(sessionEmail, swap))
  }
}

=== FILE: swap_filter.dfy ===
/** The swap list's section filter: the sections some swap offers or asks for, a
    capped search over them, and the selection it reports to the list. */
module SwapFilter {
  import opened Base
  import opened JsText
  import opened CourseCatalog
  import opened SwapRecord
  import opened SelectionList

  /** A swap mentions section `n`: it offers it through a truthy `getsectionid`
      (so never section 0) or lists it among `askingSections`. */
  predicate References(w: Swap, n: nat) {
    || (w.getSectionId == Some(n) && n != 0)
    || (w.askingSections.Some? && n in w.askingSections.value)
  }

  /** Some swap of the list mentions section `n`. */
  predicate MentionedBy(swaps: seq<Swap>, n: nat) {
    exists i :: 0 <= i < |swaps| && References(swaps[i], n)
  }

  lemma MentionedByCons(swaps: seq<Swap>, n: nat)
    requires |swaps| > 0
    ensures MentionedBy(swaps, n) <==> References(swaps[0], n) || MentionedBy(swaps[1..], n)
  {
    if MentionedBy(swaps, n) {
      var i :| 0 <= i < |swaps| && References(swaps[i], n);
      if i > 0 { assert swaps[1..][i - 1] == swaps[i]; }
    }
    if MentionedBy(swaps[1..], n) {
      var i :| 0 <= i < |swaps[1..]| && References(swaps[1..][i], n);
      assert swaps[i + 1] == swaps[1..][i];
    }
  }

  /** The id set `getAvailableCourses` builds from the swaps. */
  function ReferencedIds(swaps: seq<Swap>): (ids: set<nat>)
    ensures forall n :: n in ids <==> MentionedBy(swaps, n)
    decreases |swaps|
  {
    if |swaps| == 0 then {}
    else
      var w := swaps[0];
      var offered: set<nat> := if w.getSectionId.Some? && w.getSectionId.value != 0 then {w.getSectionId.value} else {};
      var asked: set<nat> := if w.askingSections.Some? then set n | n in w.askingSections.value else {};
      var ids := offered + asked + ReferencedIds(swaps[1..]);
      assert forall n :: n in ids <==> MentionedBy(swaps, n) by {
        forall n ensures n in ids <==> MentionedBy(swaps, n) {
          MentionedByCons(swaps, n);
        }
      }
      ids
  }

  /** `getAvailableCourses`: the catalog sections some swap mentions, in catalog
      order. */
  function AvailableCourses(courses: seq<Course>, swaps: seq<Swap>): (r: seq<Course>)
    ensures forall c :: c in r <==> c in courses && MentionedBy(swaps, c.sectionId)
    ensures forall c :: multiset(r)[c] == if MentionedBy(swaps, c.sectionId) then multiset(courses)[c] else 0
    ensures IsSubseq(r, courses)
  {
    var ids := ReferencedIds(swaps);
    Filter(courses, (c: Course) => c.sectionId in ids)
  }

  /** A section is available exactly when it is in the catalog and some swap
      mentions it. */
  lemma AvailableIff(courses: seq<Course>, swaps: seq<Swap>, c: Course)
    ensures c in AvailableCourses(courses, swaps) <==>
      c in courses && MentionedBy(swaps, c.sectionId)
  {
  }

  /** `filterCourses`: the shared capped search, over the available sections only. */
  function FilterCourses(courses: seq<Course>, swaps: seq<Swap>, searchTerm: string): (r: seq<Course>)
    ensures |r| <= SearchCap
    ensures IsSubseq(r, courses)
    ensures forall c :: c in r ==> MentionedBy(swaps, c.sectionId)
    ensures searchTerm == "" ==> r == Take(AvailableCourses(courses, swaps), SearchCap)
    ensures searchTerm != "" ==> forall c :: c in r ==> MatchesSearch(c, Lower(searchTerm))
    ensures searchTerm != "" ==> r == Take(Matching(AvailableCourses(courses, swaps), Lower(searchTerm)), SearchCap)
  {
    var available := AvailableCourses(courses, swaps);
    var r := SearchCourses(available, searchTerm);
    SubseqTrans(r, available, courses);
    SubseqMembers(r, available);
    forall c | c in r
      ensures MentionedBy(swaps, c.sectionId)
    {
      AvailableIff(courses, swaps, c);
    }
    r
  }

  /** The filter's state: the chosen section ids and the search text. */
  datatype FilterState = FilterState(selected: seq<nat>, search: string)

  /** A state change together with the list passed to `onFilterChange`. */
  datatype Change = Change(state: FilterState, reported: seq<nat>)

  /** `toggleCourse`: the toggled selection becomes the state and is reported. */
  function ToggleCourse(st: FilterState, id: nat): (ch: Change)
    ensures ch.reported == ch.state.selected
    ensures ch.state.search == st.search
    ensures id in ch.state.selected <==> id !in st.selected
    ensures forall x :: x != id ==> (x in ch.state.selected <==> x in st.selected)
  {
    var selection := Toggle(st.selected, id);
    Change(FilterState(selection, st.search), selection)
  }

  /** Toggling a section on and off again restores the filter and reports the
      original selection. */
  lemma ToggleCourseTwice(st: FilterState, id: nat)
    requires id !in st.selected
    ensures ToggleCourse(ToggleCourse(st, id).state, id).state == st
    ensures ToggleCourse(ToggleCourse(st, id).state, id).reported == st.selected
  {
    ToggleTwice(st.selected, id);
  }

  /** `clearFilters`: nothing selected, no search, and an empty list reported. */
  function ClearFilters(st: FilterState): (ch: Change)
    ensures ch.state.selected == [] && ch.state.search == "" && ch.reported == []
  {
    Change(FilterState([], ""), [])
  }

  /** After clearing, the search shows the first 50 available sections. */
  lemma ClearedFilterShowsFirst(courses: seq<Course>, swaps: seq<Swap>, st: FilterState)
    ensures FilterCourses(courses, swaps, ClearFilters(st).state.search)
      == Take(AvailableCourses(courses, swaps), SearchCap)
  {
  }
}

=== FILE: swaps.dfy ===
/** The swap rows that the swap list hands to its filter and to each card. */
module SwapRecord {
  import opened Base
  import opened JsText

  /** A swap: the offered section (`getsectionid`, `null` when absent), the asked-for
      sections, the author's email, the done flag and the creation time in Unix
      seconds as text. */
  datatype Swap = Swap(
    swapId: nat,
    getSectionId: Option<nat>,
    askingSections: Option<seq<nat>>,
    uemail: Attr,
    isDone: bool,
    createdAt: Attr)

  /** A section id interpolated into text: `null` shows as "null". */
  function IdText(id: Option<nat>): string {
    match id
    case None => "null"
    case Some(n) => NatToString(n)
  }
}
